=== FILE: README.md ===
# gotmux in Dafny

A model of the core of gotmux. gotmux is a Go library that drives a tmux server by running the `tmux` command line.

Every gotmux operation follows the same three steps:

- It builds a `query`: a command, flag arguments, positional arguments and the list of format variables it wants back.
- It renders the query into an argument vector (`prepare`). When there are variables, the vector holds one format string, `'#{a}-:-#{b}…'`.
- It splits tmux's output back into records. Each line is trimmed of `'` and cut at the separator `-:-`. Each field is then paired with its variable (`collect`, `one`, `get`). The entity decoders (`toSession`, `toWindow`, `toPane`, `toClient`, `toServer`) turn those records into values.

The model follows that structure, one module per concern:

| file | module | what it holds |
|---|---|---|
| strings.dfy | `GoStrings` | the Go primitives the library relies on: `strings.Split`, `Join`, `Trim`, `strconv.Atoi` (0 on a syntax error, clamped to 64 bits on overflow), `strconv.Itoa`, and the truncating `int32(…)` conversion |
| outcomes.dfy | `Outcomes` | `Option`, `Result`, the library's error messages, and `RunOutcome`, the result of running tmux |
| query.dfy | `Queries` | the query builder, `prepare`, `collect`, `one`, `get`, `raw`, and how a table printed by tmux parses back |
| format.dfy | `TmuxFormat` | tmux's side of the exchange: how it expands `#{name}` references in a format string |
| flags.dfy | `Flags` | tmux's side again: how a command reads its flag arguments (a flag that takes a value consumes the next word) |
| handle.dfy | `Handle` | `Tmux.query`, which puts `-S <path>` in front of every command when a socket is set; `Runner`, tmux as a function of the query it runs |
| parsing.dfy | `Parsing` | `isOne`, `parseList`, `checkSessionName` |
| option.dfy | `Options` | `toOptions`, which reads `key value` lines |
| lists.dfy | `Listing` | decoding every record of a listing, the first-match loop of the `Get…By…` lookups, and the filter behind `Session.ListClients` |
| client.dfy, session.dfy, window.dfy, pane.dfy | `Clients`, `Sessions`, `Windows`, `Panes` | each entity: its `*Vars` list, its decoder, the inverse printer, and the operations of session.go, window.go and pane.go |
| tmux.dfy | `Gotmux` | the `Tmux` operations of tmux.go, plus `Server` and `Socket` |

An operation is a pure function. The model does not run processes, so tmux is a parameter `run` of type `Runner`: a function from a query to the outcome of running it, `Ran(stdout)` or `Failed`. For query `q`, tmux receives the vector `Prepare(q)`. Each operation applies `run` to the query it builds, and its contract names that query, so what an operation returns depends on exactly the command it sends. A `log.Panicln` in `collect`, and the index out of range of `one` on an empty output, become the errors `MalformedOutput` and `EmptyOutput`.

The round-trip lemmas need an inverse of each decoder. Each entity module therefore holds an `Encode…` printer: the row tmux prints for an entity. `…RoundTrip` proves that decoding that row gives the entity back. `List…Reads` and `…Finds` prove that a whole listing, run through the operation, gives back the printed entities, or the first one that matches. `…Flags` lemmas prove that tmux reads each assembled argument list as the options the caller chose.

Three behaviours of the code are worth knowing:

- **Option lines.** `toOptions` splits each line at every space and keeps only lines that give exactly two parts (option.go:21-27). `Options.LineOption` states this, and `Options.ValueWithSpaceDropped` states the consequence: a line whose value contains a space is dropped.
- **Numbers.** `strconv.Atoi` errors are ignored in the decoders, so an unparsable field reads as 0. Out-of-range numbers clamp to the 64-bit bounds. Fields stored as `int32` wrap around.
- **Layouts.** `WindowLayoutMainVertical` is the string `"main-horizontal"` (window.go:68). `Windows.WindowLayoutsNamed` records that value as written.

`isOne`, `parseList` and `checkSessionName` appear twice, in parsing.go:6-30 and again in tmux.go:357-381. The two copies are identical, so the model defines each once.

## Model

| member | source | states |
|---|---|---|
| Queries.Cmd | gotmux/query.go:37-41 | appending to the command keeps the earlier words as a prefix, adds the new words after them, and leaves every other part of the query alone |
| Queries.FArgs | gotmux/query.go:43-47 | the same for flag arguments |
| Queries.PArgs | gotmux/query.go:49-53 | the same for positional arguments |
| Queries.Vars | gotmux/query.go:55-58 | setting variables replaces the whole list and touches nothing else |
| Queries.AppendsCompose | gotmux/query.go:37-52 | two appends in a row equal one append of both lists |
| Queries.VarsLastWins | gotmux/query.go:55-58 | a second `vars` call overrides the first, and `vars` commutes with the three append builders |
| Queries.Placeholders | gotmux/query.go:73-76 | one `#{v}` reference per variable, in order |
| Queries.FormatFlag | gotmux/query.go:84-90 | `-p` exactly when the first command word is `display-message`, otherwise `-F` |
| Queries.Prepare | gotmux/query.go:61-94 | the vector is `tmux`, then the command, then the flags, then the flag and format string (only when there are variables), then the positional arguments, each at its exact position |
| Queries.PrepareAppendedFlags | gotmux/query.go:61-94 | adding flags to a query inserts them into the rendered vector right after the existing flags, and changes nothing else |
| Queries.PrepareCorrected | gotmux/query.go:84-90 | the intended rendering: it differs from `prepare` at most in the format flag, which it chooses by the command word after any `-S <path>` prefix |
| Queries.PrepareCorrectedAgrees | gotmux/query.go:84-90 | the corrected rendering equals `prepare` if and only if the query requests no variable or both choose the same format flag |
| Queries.PrepareCorrectedWithoutSocket | gotmux/query.go:84-90 | when the query has no socket prefix, the corrected rendering is exactly `prepare` |
| Queries.Zip | gotmux/query.go:142-145 | the record's keys are exactly the variables, and each variable maps to the field at its last position (a map keeps the last write) |
| Queries.Get | gotmux/query.go:167-169 | a missing key reads as the empty string, a present key as its value |
| Queries.ZipGet | gotmux/query.go:142-145 | reading a variable that appears once gives back its own field |
| Queries.NonEmptyMembers | gotmux/query.go:130-134 | the lines `collect` keeps are exactly the non-empty lines of the output |
| Queries.CollectLinesSucceeds | gotmux/query.go:135-140 | `collect` succeeds if and only if every non-empty line has exactly as many fields as there are variables; otherwise it fails like the panic |
| Queries.CollectLinesRecords | gotmux/query.go:127-151 | the i-th record is the i-th non-empty line's fields paired with the variables |
| Queries.FieldsOfRow | gotmux/query.go:135-136 | trimming and splitting a printed row gives back its values |
| Queries.CollectTable | gotmux/query.go:127-151 | a table tmux prints, one row per line with a trailing newline, collects to one record per row, in order |
| Queries.One | gotmux/query.go:154-156 | the first collected record; an output with no record is an error, and a malformed output keeps its error |
| Queries.OneRow | gotmux/query.go:154-156 | a single printed row reads back as that row's record |
| Queries.MismatchRejected | gotmux/query.go:138-140 | a row whose field count differs from the variable count is rejected |
| TmuxFormat.ExpandFormatToken | gotmux/query.go:68-82 | tmux expands the rendered format string into the row of the variables' values |
| TmuxFormat.FormatTokenFields | gotmux/query.go:68-82 | the format string itself splits back into its placeholders |
| TmuxFormat.FormatRoundTrip | gotmux/query.go:68-82 | whatever values tmux holds, `one` on its answer to the format string maps each variable to that variable's value |
| Flags.ReadAppend | gotmux/query.go:43-47 | tmux reads a flag list one part after another, so appended flags are read after the earlier ones |
| Handle.TmuxQuery | gotmux/tmux.go:348-354 | with no socket the query is empty; with one, its command starts with `-S <path>` |
| Handle.RenderedPrefix | gotmux/tmux.go:348-354 | every rendered command starts with `tmux`, the socket prefix and the command words, and ends with the positional arguments |
| Handle.SocketTransparent | gotmux/query.go:84-90 | with the corrected rendering, a socket prefix only inserts `-S <path>` after `tmux` and changes nothing else |
| Handle.RunDiscard | gotmux/tmux.go:247-252 | a command whose output is unused succeeds exactly when tmux accepts that query, and otherwise fails with the operation's message |
| Handle.RunQuery | gotmux/query.go:97-109 | a failed run of the query yields the operation's own error message; a successful one yields its output with the query's variables |
| Parsing.IsOne | gotmux/parsing.go:6-8 | true exactly for `"1"` |
| Parsing.IsOneFlag | gotmux/parsing.go:6-8 | a flag printed by tmux as `1`/`0` reads back as the same boolean |
| Parsing.ParseList | gotmux/parsing.go:11-13 | one more part than there are commas, no part holds a comma, and joining the parts gives back the text |
| Parsing.ParseListJoin | gotmux/parsing.go:11-13 | a comma-joined list of comma-free items parses back to the items |
| Parsing.ParseListSingle | gotmux/parsing.go:11-13 | text without a comma, including the empty text, is a one-element list |
| Parsing.CheckSessionName | gotmux/parsing.go:16-30 | a name is accepted exactly when it is non-empty and holds neither `:` nor `.` |
| Options.LineOption | gotmux/option.go:21-27 | a line yields an option exactly when it holds one space; key, space and value rebuild the line |
| Options.OptionsOf | gotmux/option.go:21-30 | never more options than lines, and no key or value holds a space |
| Options.ToOptions | gotmux/option.go:19-31 | options come only from the output's lines, and no key or value holds a space or newline |
| Options.OptionsOfOrigin | gotmux/option.go:21-28 | every option comes from one line of the output |
| Options.OptionsOfAppend | gotmux/option.go:21-30 | lines are read independently and in order |
| Options.ValueWithSpaceDropped | gotmux/option.go:23-26 | a value containing a space loses its whole line |
| Options.ListingRoundTrip | gotmux/option.go:19-31 | `key value` lines of space-free options read back as exactly those options |
| Listing.DecodeAll | gotmux/tmux.go:77-84 | decoding fails exactly when `collect` fails; otherwise entity i is the decoding of record i |
| Listing.DecodeTable | gotmux/tmux.go:77-84 | a printed table of entities decodes back to the entities |
| Listing.ListOf | gotmux/tmux.go:68-85 | a listing fails with its own message exactly when tmux fails, and otherwise decodes every record |
| Listing.OneOf | gotmux/tmux.go:207-213 | an operation that reads back one entity decodes the first record, and fails when there is none |
| Listing.FirstMatch | gotmux/tmux.go:130-136 | nothing exactly when no element matches; otherwise a matching element with no match before it |
| Listing.Filter | gotmux/session.go:52-57 | every kept element matches, in the original order |
| Listing.FilterMembers | gotmux/session.go:52-57 | an element is kept if and only if it is in the list and matches |
| Listing.FilterAppend | gotmux/session.go:52-57 | filtering works element by element, so order is preserved across concatenation |
| Listing.FirstMatchFilter | gotmux/tmux.go:130-136 | the first match is the head of the filtered list |
| GoStrings.Split | gotmux/query.go:128 | at least one part, and no part contains the separator |
| GoStrings.JoinSplit | gotmux/parsing.go:11-13 | joining the parts of a split gives back the text |
| GoStrings.SplitJoin | gotmux/query.go:136 | splitting a join gives back the parts when they form no separator across a join (`Separable`); being separator-free is not enough |
| GoStrings.SplitCharCount | gotmux/parsing.go:11-13 | a split on one character gives one more part than the character count |
| GoStrings.TrimSurrounded | gotmux/query.go:135 | `Trim` removes any number of surrounding quote characters and nothing else |
| GoStrings.Int32 | gotmux/server.go:46 | the conversion lands in the 32-bit range, keeps the low 32 bits, and is the identity on that range |
| GoStrings.AtoiItoa | gotmux/tmux.go:191-199 | a 64-bit integer printed with `Itoa` reads back with `Atoi` unchanged |
| Gotmux.ServerVars | gotmux/server.go:25-34 | six variables, all distinct, none containing `}` |
| Gotmux.SocketCheckQuery | gotmux/socket.go:27-32 | validating a socket runs `tmux -S <path> list-clients` |
| Gotmux.NewSocket | gotmux/socket.go:17-24 | a socket exists exactly when tmux accepts that check query, and keeps the path |
| Gotmux.ToServer | gotmux/server.go:36-57 | the pid is the field read as a number and narrowed to 32 bits; the socket exists exactly when tmux accepts the check query on the printed path; the text fields are copied |
| Gotmux.ServerRoundTrip | gotmux/server.go:36-57 | a printed server record decodes back to the server |
| Gotmux.GetServerInformationQuery | gotmux/tmux.go:52-56 | runs `display-message` behind the socket prefix, with the server variables |
| Gotmux.GetServerInformation | gotmux/tmux.go:52-63 | a failed run of the server query returns the process error; otherwise the first record of its output is decoded, or its error is returned |
| Gotmux.GetServerInformationReads | gotmux/tmux.go:52-63 | tmux's answer for a server reads back as that server |
| Gotmux.ServerInformationFormatFlag | gotmux/query.go:84-90 | with a socket set, the server-information query is rendered with `-F`, not `-p` |
| Gotmux.ServerInformationCorrected | gotmux/query.go:84-90 | with the corrected rendering, that query gets `-p` whether or not a socket is set |
| Gotmux.HasSessionQuery | gotmux/tmux.go:111-115 | `has-session -t <session>` behind the socket prefix, reading no output |
| Gotmux.HasSessionFlags | gotmux/tmux.go:111-115 | tmux reads the query as targeting exactly that session |
| Gotmux.HasSession | gotmux/tmux.go:111-119 | true exactly when tmux accepts that query, whatever it prints |
| Gotmux.GetSessionByName | gotmux/tmux.go:124-137 | fails with its own message when the listing query fails; any session found has the name, is listed, and no listed session before it has the name; none is found exactly when no listed session has the name |
| Gotmux.GetSessionByNameFinds | gotmux/tmux.go:130-136 | on a printed listing, the result is the first session with the name, and one exists whenever any listed session has it |
| Gotmux.ClientSession | gotmux/client.go:46-48 | a client's session is the session named by its `session` field |
| Gotmux.GetClientByTty | gotmux/tmux.go:142-155 | passes listing errors through; any client found is on the tty, is listed, and no listed client before it is on the tty; none exactly when no listed client is on it |
| Gotmux.GetClientByTtyFinds | gotmux/tmux.go:148-154 | on a printed listing, the result is the first client on the tty, that is, the head of the filtered list |
| Gotmux.GetWindowById | gotmux/tmux.go:314-327 | the same lookup by window id, again returning the first match |
| Gotmux.GetWindowByIdFinds | gotmux/tmux.go:320-326 | on a printed listing, the result is the first window with the id, that is, the head of the filtered list |
| Gotmux.GetPaneById | gotmux/tmux.go:332-345 | the same lookup by pane id, again returning the first match |
| Gotmux.GetPaneByIdFinds | gotmux/tmux.go:338-344 | on a printed listing, the result is the first pane with the id, that is, the head of the filtered list |
| Gotmux.NewSessionQuery | gotmux/tmux.go:172-205 | an invalid non-empty name is rejected before anything runs; otherwise `-d -P`, then `-s`, `-c`, `-x`, `-y` exactly for the options given, with the shell command quoted as the positional argument |
| Gotmux.NewSessionFlags | gotmux/tmux.go:173-199 | tmux reads those flags as exactly the chosen name, directory and sizes |
| Gotmux.NewSession | gotmux/tmux.go:172-214 | rejected name, failed run of the creation query and malformed output each give their error; otherwise the first record is decoded as the new session |
| Gotmux.NewSessionReads | gotmux/tmux.go:207-213 | tmux's answer describing a session reads back as that session |
| Gotmux.New | gotmux/tmux.go:220-222 | creating with no options never rejects a name |
| Gotmux.DetachClientQuery | gotmux/tmux.go:235-245 | `-t` and `-s` appear exactly when the target client and target session are given |
| Gotmux.DetachClientFlags | gotmux/tmux.go:239-245 | tmux reads them as exactly those targets |
| Gotmux.DetachClient | gotmux/tmux.go:235-253 | succeeds exactly when tmux accepts its `detach-client` query, else fails with its message |
| Gotmux.SessionDetachIsDetachClient | gotmux/session.go:109-112 | detaching a session is `detach-client` targeted at that session |
| Clients.ClientVarsDistinct | gotmux/client.go:51-78 | 24 variables, each at its only occurrence, so no field overwrites another |
| Clients.ToClient | gotmux/client.go:81-137 | each field: text copied; numbers read as `Atoi` reads them, 0 when unparsable, with pid and uid narrowed to 32 bits; flags true exactly for `1` |
| Clients.ClientRoundTrip | gotmux/client.go:81-137 | decoding the row printed for a client gives the client back |
| Clients.ClientDefaults | gotmux/client.go:81-137 | an empty record decodes to empty text, zero numbers and false flags |
| Clients.ListClientsQuery | gotmux/tmux.go:69-72 | `list-clients` behind the socket prefix, with the client variables |
| Clients.ListClients | gotmux/tmux.go:68-85 | a failed run gives its message; otherwise every record is decoded |
| Clients.ListClientsReads | gotmux/tmux.go:77-84 | a printed list of clients reads back as the same clients in order |
| Sessions.SessionVarsDistinct | gotmux/session.go:247-271 | the session variables are pairwise distinct |
| Sessions.ToSession | gotmux/session.go:274-324 | field by field, as for clients, with the list fields split at commas |
| Sessions.SessionRoundTrip | gotmux/session.go:274-324 | decoding a printed session gives it back |
| Sessions.SessionDefaults | gotmux/session.go:274-324 | an empty record decodes to the zero session |
| Sessions.ListSessionsQuery | gotmux/tmux.go:91-94 | `list-sessions` with the session variables |
| Sessions.ListSessions | gotmux/tmux.go:90-107 | a failed run gives its message; otherwise every record is decoded |
| Sessions.ListSessionsReads | gotmux/tmux.go:99-106 | a printed list of sessions reads back unchanged |
| Sessions.SessionClients | gotmux/session.go:52-57 | only clients of this session are kept |
| Sessions.SessionClientsExactly | gotmux/session.go:52-57 | a client is kept if and only if its session is this one, and order is kept |
| Sessions.ListSessionClients | gotmux/session.go:46-60 | errors pass through; the result holds exactly the listed clients attached to the session |
| Sessions.AttachSessionQuery | gotmux/session.go:74-87 | `-t <name>`, then `-d` and `-c <dir>` exactly when chosen |
| Sessions.AttachSessionFlags | gotmux/session.go:74-87 | tmux reads them as exactly those choices |
| Sessions.AttachSession | gotmux/session.go:74-95 | succeeds exactly when tmux accepts its `attach-session` query |
| Sessions.AttachQuery | gotmux/session.go:102-104 | `Attach` targets the session with no other option |
| Sessions.Attach | gotmux/session.go:102-104 | it is `AttachSession` with no options |
| Sessions.DetachQuery | gotmux/session.go:109-112 | `detach-client -s <name>` |
| Sessions.Detach | gotmux/session.go:109-118 | succeeds exactly when tmux accepts its `detach-client -s` query |
| Sessions.RenameSessionQuery | gotmux/session.go:138-143 | targets the old name and passes the new one |
| Sessions.RenameSession | gotmux/session.go:138-150 | the name changes exactly when tmux succeeds, and nothing else changes |
| Sessions.RenameThenTarget | gotmux/session.go:138-150 | after a rename, the next rename targets the new name |
| Sessions.ListWindowsQuery | gotmux/session.go:155-160 | `list-windows -t <name>` with the window variables |
| Sessions.ListWindows | gotmux/session.go:155-173 | a failed run gives its message; otherwise every record is decoded |
| Sessions.ListWindowsReads | gotmux/session.go:165-172 | a printed list of windows reads back unchanged |
| Sessions.NewWindowQuery | gotmux/session.go:187-205 | `-P -t <name>`, then `-c`, `-n`, `-d` exactly when chosen |
| Sessions.NewWindowFlags | gotmux/session.go:187-205 | tmux reads them as exactly those choices |
| Sessions.NewWindow | gotmux/session.go:187-214 | a failed run gives its message; otherwise the first record is the new window |
| Sessions.NewWindowReads | gotmux/session.go:207-213 | tmux's answer describing a window reads back as that window |
| Windows.WindowVarsDistinct | gotmux/window.go:241-278 | the window variables are pairwise distinct |
| Windows.ToWindow | gotmux/window.go:281-357 | field by field, as for clients, with the list fields split at commas |
| Windows.WindowRoundTrip | gotmux/window.go:281-357 | decoding a printed window gives it back |
| Windows.WindowDefaults | gotmux/window.go:281-357 | an empty record decodes to the zero window |
| Windows.ListAllWindowsQuery | gotmux/tmux.go:271-275 | `list-windows -a` with the window variables |
| Windows.ListAllWindows | gotmux/tmux.go:270-287 | a failed run gives its message; otherwise every record is decoded |
| Windows.ListAllWindowsReads | gotmux/tmux.go:280-286 | a printed list of windows reads back unchanged |
| Windows.ListPanesQuery | gotmux/window.go:75-80 | `list-panes -t <id>` with the pane variables |
| Windows.ListPanes | gotmux/window.go:75-92 | a failed run gives its message; otherwise every record is decoded |
| Windows.ListPanesReads | gotmux/window.go:85-91 | a printed list of the window's panes reads back as the same panes in order |
| Windows.GetPaneByIndex | gotmux/window.go:174-187 | fails with its own message when the listing query fails; any pane found has the index, is listed, and no listed pane before it has the index; none exactly when no listed pane has it |
| Windows.GetPaneByIndexFinds | gotmux/window.go:180-186 | on a printed listing, the result is the first pane at the index, and one exists whenever any listed pane has it |
| Windows.SelectLayoutQuery | gotmux/window.go:143-147 | targets the window and passes the layout name |
| Windows.SelectLayoutRendered | gotmux/window.go:143-147 | the rendered vector is `tmux [-S path] select-layout -t <id> <layout>` |
| Windows.WindowLayoutsNamed | gotmux/window.go:65-70 | the four layouts are distinct, and `WindowLayoutMainVertical` renders as `main-horizontal` |
| Windows.SelectLayout | gotmux/window.go:143-154 | succeeds exactly when tmux accepts its `select-layout` query |
| Windows.MoveQuery | gotmux/window.go:160-164 | `-s <id> -t <session>:<index>` |
| Windows.MoveTargetReads | gotmux/window.go:160-164 | tmux reads both targets, and the target splits back into the session name and the index |
| Windows.Move | gotmux/window.go:160-171 | succeeds exactly when tmux accepts its `move-window` query |
| Windows.RenameWindowQuery | gotmux/window.go:112-116 | targets the window and passes the new name |
| Windows.RenameWindowRendered | gotmux/window.go:112-116 | the rendered vector is `tmux [-S path] rename-window -t <id> <name>` |
| Windows.RenameWindow | gotmux/window.go:112-123 | succeeds exactly when tmux accepts its `rename-window` query |
| Panes.PaneVarsDistinct | gotmux/pane.go:276-318 | the pane variables are pairwise distinct |
| Panes.ToPane | gotmux/pane.go:321-407 | field by field, as for clients, with the 32-bit fields wrapped |
| Panes.PaneRoundTrip | gotmux/pane.go:321-407 | decoding a printed pane gives it back |
| Panes.PaneDefaults | gotmux/pane.go:321-407 | an empty record decodes to the zero pane |
| Panes.ListAllPanesQuery | gotmux/tmux.go:293-297 | `list-panes -a` with the pane variables |
| Panes.ListAllPanes | gotmux/tmux.go:292-309 | a failed run gives its message; otherwise every record is decoded |
| Panes.ListAllPanesReads | gotmux/tmux.go:302-308 | a printed list of panes reads back unchanged |
| Panes.SelectPaneQuery | gotmux/pane.go:115-124 | `-t <id>`, then the position flag when one is chosen |
| Panes.SelectPaneFlags | gotmux/pane.go:115-124 | tmux reads them as the target and that position |
| Panes.SelectPane | gotmux/pane.go:115-132 | succeeds exactly when tmux accepts its `select-pane` query |
| Panes.SelectQuery | gotmux/pane.go:138-140 | `Select` targets the pane with no position |
| Panes.Select | gotmux/pane.go:138-140 | it is `SelectPane` with no options |
| Panes.SplitWindowQuery | gotmux/pane.go:154-171 | `-t <id>`, the direction and `-c <dir>` exactly when chosen, with the shell command quoted as the positional argument |
| Panes.SplitWindowFlags | gotmux/pane.go:154-171 | tmux reads them as exactly those choices |
| Panes.SplitWindow | gotmux/pane.go:154-179 | succeeds exactly when tmux accepts its `split-window` query |
| Panes.ChooseTreeQuery | gotmux/pane.go:192-205 | `-t <id>`, then `-s` and `-w` exactly when chosen |
| Panes.ChooseTreeFlags | gotmux/pane.go:192-205 | tmux reads them as exactly those choices |
| Panes.ChooseTree | gotmux/pane.go:192-213 | succeeds exactly when tmux accepts its `choose-tree` query |
| Panes.CapturePaneQueryAsWritten | gotmux/pane.go:229-255 | `capture-pane` behind the socket prefix with the flags as the code adds them: `-J` follows the trailing-spaces option |
| Panes.CaptureJoinAsWritten | gotmux/pane.go:248-254 | as written, the join option never changes the command, and preserving trailing spaces also joins lines |
| Panes.CapturePaneQuery | gotmux/pane.go:229-255 | `-t <id> -p`, then `-e`, `-C`, `-T`, `-N`, `-J` each exactly when its own option is set |
| Panes.CaptureJoinCorrected | gotmux/pane.go:248-254 | the join option alone adds `-J`, and the trailing-spaces option alone adds `-N` |
| Panes.CapturePaneFlags | gotmux/pane.go:230-255 | tmux reads the capture flags as exactly the chosen options |
| Panes.CapturePane | gotmux/pane.go:229-263 | runs the query as written; a failed run gives its message, otherwise the raw output is returned |
| Panes.Capture | gotmux/pane.go:269-273 | it captures with escape sequences on, that is, with the flags `-t <id> -p -e` |

## Left out

- Running processes: `runTty` (query.go:112-118), `isTmuxInstalled` (tmux.go:384-387) and the `exec.Command` value that `prepare` returns. The model stops at the argument vector. tmux itself is the parameter `run`.
- Handle.Run: tmux is a function of the query rather than of its rendered vector `Prepare(q)`. Every function of the vector is also a function of the query, so the contracts cover it. They do not show that two queries rendering to the same vector run alike.
- `NewTmux` and `DefaultTmux` (tmux.go:24-47): they only look up the tmux binary and validate the socket. Socket validation is modelled as `NewSocket`.
- Operations that send one command with at most a target and report only whether tmux accepted it: `KillServer`, `Session.Kill`, `NextWindow`, `PreviousWindow`, `Window.Kill`, `Window.Select`, `Pane.Kill`. Each would be `Handle.RunDiscard` applied to its own query, as `Windows.SelectLayout` is.
- `ListLinkedSessions`, `ListActiveSessions` and `ListActiveClients` (window.go:192-238): they call a further lookup per name, which the lookups already modelled cover.
- The variable-name tables in vars.go appear as the literal names inside each `…Var` function.
- The `Socket` field of a decoded server holds only the path.
- Concurrency and the process environment: the library has neither beyond running tmux.
- Gotmux.NewSessionFlags: states how tmux reads the width and height flags as text. Reading those texts back as numbers is the separate lemma `GoStrings.AtoiItoa`.
- Flags.ReadFrom: models only the parts of tmux's flag parsing these commands use: separate words, a valued flag taking the next word, and the last occurrence winning. Bundled flags such as `-dP` and `--` are not modelled.

## Findings

| source | as written | input that shows it | evidently intended | confidence | as-written member | corrected member |
|---|---|---|---|---|---|---|
| gotmux/query.go:84-90 | `prepare` picks `-p` by testing `command[0]`, but with a socket set `command[0]` is `-S` | a `Tmux` with socket `/tmp/s`: `GetServerInformation` renders `tmux -S /tmp/s display-message -F '…'` | test the command word after the `-S <path>` prefix, so `display-message` always gets `-p` | high, not executed | Gotmux.ServerInformationFormatFlag | Queries.PrepareCorrected, Gotmux.ServerInformationCorrected, Handle.SocketTransparent |
| gotmux/pane.go:248-254 | the `-J` guard tests `PreserveTrailing` instead of `PreserveAndJoin` | `CaptureOptions{PreserveAndJoin: true}` gives `-t <id> -p` with no `-J`; `{PreserveTrailing: true}` gives `-N -J` | `-J` exactly when `PreserveAndJoin` is set | high, not executed | Panes.CapturePaneQueryAsWritten, Panes.CaptureJoinAsWritten | Panes.CapturePaneQuery, Panes.CaptureJoinCorrected, Panes.CapturePaneFlags |

The operations send their queries as the code builds them. `Panes.CapturePane` and `Panes.Capture` run `Panes.CapturePaneQueryAsWritten`. The corrected definitions stand beside them, each with the intended property proved. `Queries.PrepareCorrectedAgrees` states exactly when the corrected rendering equals `prepare`: when the query requests no variable, or when both choose the same format flag. They differ only on a `display-message` behind a socket prefix that asks for variables.

=== FILE: client.dfy ===
/**
 Clients: the variables the binding requests for a tmux client, the
 decoding of one record into a client, and what a client can do.
 */
module Clients {
  import opened GoStrings
  import opened Outcomes
  import opened Queries
  import opened Parsing
  import opened Handle
  import opened TmuxFormat
  import opened Listing
  import opened Flags

  // ---------------------------------------------------------------------
  // Variables

  const ClientActivity := "client_activity"
  const ClientCellHeight := "client_cell_height"
  const ClientCellWidth := "client_cell_width"
  const ClientControlMode := "client_control_mode"
  const ClientCreated := "client_created"
  const ClientDiscarded := "client_discarded"
  const ClientFlags := "client_flags"
  const ClientHeight := "client_height"
  const ClientKeyTable := "client_key_table"
  const ClientLastSession := "client_last_session"
  const ClientName := "client_name"
  const ClientPid := "client_pid"
  const ClientPrefix := "client_prefix"
  const ClientReadonly := "client_readonly"
  const ClientSession := "client_session"
  const ClientTermname := "client_termname"
  const ClientTermfeatures := "client_termfeatures"
  const ClientTermtype := "client_termtype"
  const ClientTty := "client_tty"
  const ClientUid := "client_uid"
  const ClientUser := "client_user"
  const ClientUtf8 := "client_utf8"
  const ClientWidth := "client_width"
  const ClientWritten := "client_written"

  /** The position-`k` variable requested for a tmux client. */
  function ClientVar(k: int): string
    requires 0 <= k < 24
  {
    if k == 0 then ClientActivity
    else if k == 1 then ClientCellHeight
    else if k == 2 then ClientCellWidth
    else if k == 3 then ClientControlMode
    else if k == 4 then ClientCreated
    else if k == 5 then ClientDiscarded
    else if k == 6 then ClientFlags
    else if k == 7 then ClientHeight
    else if k == 8 then ClientKeyTable
    else if k == 9 then ClientLastSession
    else if k == 10 then ClientName
    else if k == 11 then ClientPid
    else if k == 12 then ClientPrefix
    else if k == 13 then ClientReadonly
    else if k == 14 then ClientSession
    else if k == 15 then ClientTermname
    else if k == 16 then ClientTermfeatures
    else if k == 17 then ClientTermtype
    else if k == 18 then ClientTty
    else if k == 19 then ClientUid
    else if k == 20 then ClientUser
    else if k == 21 then ClientUtf8
    else if k == 22 then ClientWidth
    else ClientWritten
  }

  /** The variables requested for a tmux client, in request order. */
  function ClientVars(): seq<string>
  {
    seq(24, k requires 0 <= k < 24 => ClientVar(k))
  }

  /** 24 variables, no name requested twice. */
  lemma ClientVarsDistinct()
    ensures |ClientVars()| == 24
    ensures forall i :: 0 <= i < |ClientVars()| ==> LastOccurrence(ClientVars(), i)
  {
    forall i | 0 <= i < |ClientVars()|
      ensures LastOccurrence(ClientVars(), i)
    {
      if i < 6 {
        ClientVarsDistinctFrom0(i);
      } else if i < 12 {
        ClientVarsDistinctFrom6(i);
      } else if i < 18 {
        ClientVarsDistinctFrom12(i);
      } else {
        ClientVarsDistinctFrom18(i);
      }
    }
  }

  lemma ClientVarsDistinctFrom0(i: int)
    requires 0 <= i < 6
    ensures LastOccurrence(ClientVars(), i)
  {
  }

  lemma ClientVarsDistinctFrom6(i: int)
    requires 6 <= i < 12
    ensures LastOccurrence(ClientVars(), i)
  {
  }

  lemma ClientVarsDistinctFrom12(i: int)
    requires 12 <= i < 18
    ensures LastOccurrence(ClientVars(), i)
  {
  }

  lemma ClientVarsDistinctFrom18(i: int)
    requires 18 <= i < 24
    ensures LastOccurrence(ClientVars(), i)
  {
  }

  /** No requested name contains `}`, so each `#{name}` reference closes where it should. */
  lemma ClientVarsBraceFree()
    ensures forall i :: 0 <= i < |ClientVars()| ==> '}' !in ClientVars()[i]
  {
    forall i | 0 <= i < |ClientVars()|
      ensures '}' !in ClientVars()[i]
    {
      if i < 6 {
        ClientVarsBraceFreeFrom0(i);
      } else if i < 12 {
        ClientVarsBraceFreeFrom6(i);
      } else if i < 18 {
        ClientVarsBraceFreeFrom12(i);
      } else {
        ClientVarsBraceFreeFrom18(i);
      }
    }
  }

  lemma ClientVarsBraceFreeFrom0(i: int)
    requires 0 <= i < 6
    ensures '}' !in ClientVars()[i]
  {
  }

  lemma ClientVarsBraceFreeFrom6(i: int)
    requires 6 <= i < 12
    ensures '}' !in ClientVars()[i]
  {
  }

  lemma ClientVarsBraceFreeFrom12(i: int)
    requires 12 <= i < 18
    ensures '}' !in ClientVars()[i]
  {
  }

  lemma ClientVarsBraceFreeFrom18(i: int)
    requires 18 <= i < 24
    ensures '}' !in ClientVars()[i]
  {
  }

  /** A tmux client, as the binding reads it; `tmux` is the handle it was read through. */
  datatype Client = Client(
    activity: string,
    cellHeight: int,
    cellWidth: int,
    controlMode: bool,
    created: string,
    discarded: string,
    flags: string,
    height: int,
    keyTable: string,
    lastSession: string,
    name: string,
    pid: int,
    prefix: bool,
    readonly: bool,
    session: string,
    termname: string,
    termfeatures: string,
    termtype: string,
    tty: string,
    uid: int,
    user: string,
    utf8: bool,
    width: int,
    written: string,
    tmux: Tmux)

  /**
   `toClient`: reads each field from its variable. Numbers that do not parse
   read as 0, booleans are true only for `1`, and text is taken verbatim;
   a missing variable reads as the empty value.
   */
  function ToClient(r: Record, t: Tmux): (c: Client)
    ensures c.activity == Get(r, ClientActivity)
    ensures !IsDecimal(Get(r, ClientCellHeight)) ==> c.cellHeight == 0
    ensures IsDecimal(Get(r, ClientCellHeight)) && InInt64(SignedValue(Get(r, ClientCellHeight))) ==> c.cellHeight == SignedValue(Get(r, ClientCellHeight))
    ensures !IsDecimal(Get(r, ClientCellWidth)) ==> c.cellWidth == 0
    ensures IsDecimal(Get(r, ClientCellWidth)) && InInt64(SignedValue(Get(r, ClientCellWidth))) ==> c.cellWidth == SignedValue(Get(r, ClientCellWidth))
    ensures c.controlMode <==> Get(r, ClientControlMode) == "1"
    ensures c.created == Get(r, ClientCreated)
    ensures c.discarded == Get(r, ClientDiscarded)
    ensures c.flags == Get(r, ClientFlags)
    ensures !IsDecimal(Get(r, ClientHeight)) ==> c.height == 0
    ensures IsDecimal(Get(r, ClientHeight)) && InInt64(SignedValue(Get(r, ClientHeight))) ==> c.height == SignedValue(Get(r, ClientHeight))
    ensures c.keyTable == Get(r, ClientKeyTable)
    ensures c.lastSession == Get(r, ClientLastSession)
    ensures c.name == Get(r, ClientName)
    ensures InInt32(c.pid) && (!IsDecimal(Get(r, ClientPid)) ==> c.pid == 0)
    ensures IsDecimal(Get(r, ClientPid)) && InInt32(SignedValue(Get(r, ClientPid))) ==> c.pid == SignedValue(Get(r, ClientPid))
    ensures c.prefix <==> Get(r, ClientPrefix) == "1"
    ensures c.readonly <==> Get(r, ClientReadonly) == "1"
    ensures c.session == Get(r, ClientSession)
    ensures c.termname == Get(r, ClientTermname)
    ensures c.termfeatures == Get(r, ClientTermfeatures)
    ensures c.termtype == Get(r, ClientTermtype)
    ensures c.tty == Get(r, ClientTty)
    ensures InInt32(c.uid) && (!IsDecimal(Get(r, ClientUid)) ==> c.uid == 0)
    ensures IsDecimal(Get(r, ClientUid)) && InInt32(SignedValue(Get(r, ClientUid))) ==> c.uid == SignedValue(Get(r, ClientUid))
    ensures c.user == Get(r, ClientUser)
    ensures c.utf8 <==> Get(r, ClientUtf8) == "1"
    ensures !IsDecimal(Get(r, ClientWidth)) ==> c.width == 0
    ensures IsDecimal(Get(r, ClientWidth)) && InInt64(SignedValue(Get(r, ClientWidth))) ==> c.width == SignedValue(Get(r, ClientWidth))
    ensures c.written == Get(r, ClientWritten)
    ensures c.tmux == t
  {
    Client(
      Get(r, ClientActivity),
      Atoi(Get(r, ClientCellHeight)),
      Atoi(Get(r, ClientCellWidth)),
      IsOne(Get(r, ClientControlMode)),
      Get(r, ClientCreated),
      Get(r, ClientDiscarded),
      Get(r, ClientFlags),
      Atoi(Get(r, ClientHeight)),
      Get(r, ClientKeyTable),
      Get(r, ClientLastSession),
      Get(r, ClientName),
      Int32(Atoi(Get(r, ClientPid))),
      IsOne(Get(r, ClientPrefix)),
      IsOne(Get(r, ClientReadonly)),
      Get(r, ClientSession),
      Get(r, ClientTermname),
      Get(r, ClientTermfeatures),
      Get(r, ClientTermtype),
      Get(r, ClientTty),
      Int32(Atoi(Get(r, ClientUid))),
      Get(r, ClientUser),
      IsOne(Get(r, ClientUtf8)),
      Atoi(Get(r, ClientWidth)),
      Get(r, ClientWritten),
      t)
  }

  /** The value of the position-`k` variable of a tmux client. */
  function ClientField(c: Client, k: int): Value
    requires 0 <= k < 24
  {
    if k == 0 then Text(c.activity)
    else if k == 1 then Number(c.cellHeight)
    else if k == 2 then Number(c.cellWidth)
    else if k == 3 then Switch(c.controlMode)
    else if k == 4 then Text(c.created)
    else if k == 5 then Text(c.discarded)
    else if k == 6 then Text(c.flags)
    else if k == 7 then Number(c.height)
    else if k == 8 then Text(c.keyTable)
    else if k == 9 then Text(c.lastSession)
    else if k == 10 then Text(c.name)
    else if k == 11 then Number(c.pid)
    else if k == 12 then Switch(c.prefix)
    else if k == 13 then Switch(c.readonly)
    else if k == 14 then Text(c.session)
    else if k == 15 then Text(c.termname)
    else if k == 16 then Text(c.termfeatures)
    else if k == 17 then Text(c.termtype)
    else if k == 18 then Text(c.tty)
    else if k == 19 then Number(c.uid)
    else if k == 20 then Text(c.user)
    else if k == 21 then Switch(c.utf8)
    else if k == 22 then Number(c.width)
    else Text(c.written)
  }

  /** How tmux prints a tmux client's variables, in request order. */
  function EncodeClient(c: Client): (e: seq<string>)
    ensures |e| == |ClientVars()|
  {
    seq(24, k requires 0 <= k < 24 => Printed(ClientField(c, k)))
  }

  /** A tmux client tmux can print so that it reads back unchanged. */
  predicate ReadableClient(c: Client)
  {
    && Plain(c.activity)
    && InInt64(c.cellHeight)
    && InInt64(c.cellWidth)
    && Plain(c.created)
    && Plain(c.discarded)
    && Plain(c.flags)
    && InInt64(c.height)
    && Plain(c.keyTable)
    && Plain(c.lastSession)
    && Plain(c.name)
    && InInt32(c.pid)
    && Plain(c.session)
    && Plain(c.termname)
    && Plain(c.termfeatures)
    && Plain(c.termtype)
    && Plain(c.tty)
    && InInt32(c.uid)
    && Plain(c.user)
    && InInt64(c.width)
    && Plain(c.written)
  }

  /** The printed row of a readable client splits back into its values. */
  lemma ClientRowValues(c: Client)
    requires ReadableClient(c)
    ensures RowValues(EncodeClient(c))
  {
    var e := EncodeClient(c);
    ClientPlainFrom0(c);
    ClientPlainFrom3(c);
    ClientPlainFrom6(c);
    ClientPlainFrom9(c);
    ClientPlainFrom12(c);
    ClientPlainFrom15(c);
    ClientPlainFrom18(c);
    ClientPlainFrom21(c);
    PlainRow(e);
  }

  lemma ClientPlainFrom0(c: Client)
    requires ReadableClient(c)
    ensures forall k :: 0 <= k < 3 ==> Plain(EncodeClient(c)[k])
  {
  }

  lemma ClientPlainFrom3(c: Client)
    requires ReadableClient(c)
    ensures forall k :: 3 <= k < 6 ==> Plain(EncodeClient(c)[k])
  {
  }

  lemma ClientPlainFrom6(c: Client)
    requires ReadableClient(c)
    ensures forall k :: 6 <= k < 9 ==> Plain(EncodeClient(c)[k])
  {
  }

  lemma ClientPlainFrom9(c: Client)
    requires ReadableClient(c)
    ensures forall k :: 9 <= k < 12 ==> Plain(EncodeClient(c)[k])
  {
  }

  lemma ClientPlainFrom12(c: Client)
    requires ReadableClient(c)
    ensures forall k :: 12 <= k < 15 ==> Plain(EncodeClient(c)[k])
  {
  }

  lemma ClientPlainFrom15(c: Client)
    requires ReadableClient(c)
    ensures forall k :: 15 <= k < 18 ==> Plain(EncodeClient(c)[k])
  {
  }

  lemma ClientPlainFrom18(c: Client)
    requires ReadableClient(c)
    ensures forall k :: 18 <= k < 21 ==> Plain(EncodeClient(c)[k])
  {
  }

  lemma ClientPlainFrom21(c: Client)
    requires ReadableClient(c)
    ensures forall k :: 21 <= k < 24 ==> Plain(EncodeClient(c)[k])
  {
  }

  /** `r` holds, under each requested name, what tmux prints for that variable of `c`. */
  predicate HoldsClient(r: Record, c: Client)
  {
    && Get(r, ClientActivity) == c.activity
    && Get(r, ClientCellHeight) == Itoa(c.cellHeight)
    && Get(r, ClientCellWidth) == Itoa(c.cellWidth)
    && Get(r, ClientControlMode) == Flag(c.controlMode)
    && Get(r, ClientCreated) == c.created
    && Get(r, ClientDiscarded) == c.discarded
    && Get(r, ClientFlags) == c.flags
    && Get(r, ClientHeight) == Itoa(c.height)
    && Get(r, ClientKeyTable) == c.keyTable
    && Get(r, ClientLastSession) == c.lastSession
    && Get(r, ClientName) == c.name
    && Get(r, ClientPid) == Itoa(c.pid)
    && Get(r, ClientPrefix) == Flag(c.prefix)
    && Get(r, ClientReadonly) == Flag(c.readonly)
    && Get(r, ClientSession) == c.session
    && Get(r, ClientTermname) == c.termname
    && Get(r, ClientTermfeatures) == c.termfeatures
    && Get(r, ClientTermtype) == c.termtype
    && Get(r, ClientTty) == c.tty
    && Get(r, ClientUid) == Itoa(c.uid)
    && Get(r, ClientUser) == c.user
    && Get(r, ClientUtf8) == Flag(c.utf8)
    && Get(r, ClientWidth) == Itoa(c.width)
    && Get(r, ClientWritten) == c.written
  }

  /** Round trip: a readable client, printed by tmux and zipped to its names, decodes to itself. */
  lemma ClientRoundTrip(c: Client)
    requires ReadableClient(c)
    ensures ToClient(Zip(ClientVars(), EncodeClient(c)), c.tmux) == c
  {
    var e := EncodeClient(c);
    var r := Zip(ClientVars(), e);
    ClientVarsDistinct();
    forall k | 0 <= k < 24
      ensures Get(r, ClientVar(k)) == Printed(ClientField(c, k))
    {
      ZipGet(ClientVars(), e, k);
    }
    ClientHoldsFrom0(c, r);
    ClientHoldsFrom4(c, r);
    ClientHoldsFrom8(c, r);
    ClientHoldsFrom12(c, r);
    ClientHoldsFrom16(c, r);
    ClientHoldsFrom20(c, r);
    ClientReads(c, r);
  }

  lemma ClientHoldsFrom0(c: Client, r: Record)
    requires forall k :: 0 <= k < 24 ==> Get(r, ClientVar(k)) == Printed(ClientField(c, k))
    ensures Get(r, ClientActivity) == c.activity
      && Get(r, ClientCellHeight) == Itoa(c.cellHeight)
      && Get(r, ClientCellWidth) == Itoa(c.cellWidth)
      && Get(r, ClientControlMode) == Flag(c.controlMode)
  {
    assert Get(r, ClientVar(0)) == Printed(ClientField(c, 0));
    assert Get(r, ClientVar(1)) == Printed(ClientField(c, 1));
    assert Get(r, ClientVar(2)) == Printed(ClientField(c, 2));
    assert Get(r, ClientVar(3)) == Printed(ClientField(c, 3));
  }

  lemma ClientHoldsFrom4(c: Client, r: Record)
    requires forall k :: 0 <= k < 24 ==> Get(r, ClientVar(k)) == Printed(ClientField(c, k))
    ensures Get(r, ClientCreated) == c.created
      && Get(r, ClientDiscarded) == c.discarded
      && Get(r, ClientFlags) == c.flags
      && Get(r, ClientHeight) == Itoa(c.height)
  {
    assert Get(r, ClientVar(4)) == Printed(ClientField(c, 4));
    assert Get(r, ClientVar(5)) == Printed(ClientField(c, 5));
    assert Get(r, ClientVar(6)) == Printed(ClientField(c, 6));
    assert Get(r, ClientVar(7)) == Printed(ClientField(c, 7));
  }

  lemma ClientHoldsFrom8(c: Client, r: Record)
    requires forall k :: 0 <= k < 24 ==> Get(r, ClientVar(k)) == Printed(ClientField(c, k))
    ensures Get(r, ClientKeyTable) == c.keyTable
      && Get(r, ClientLastSession) == c.lastSession
      && Get(r, ClientName) == c.name
      && Get(r, ClientPid) == Itoa(c.pid)
  {
    assert Get(r, ClientVar(8)) == Printed(ClientField(c, 8));
    assert Get(r, ClientVar(9)) == Printed(ClientField(c, 9));
    assert Get(r, ClientVar(10)) == Printed(ClientField(c, 10));
    assert Get(r, ClientVar(11)) == Printed(ClientField(c, 11));
  }

  lemma ClientHoldsFrom12(c: Client, r: Record)
    requires forall k :: 0 <= k < 24 ==> Get(r, ClientVar(k)) == Printed(ClientField(c, k))
    ensures Get(r, ClientPrefix) == Flag(c.prefix)
      && Get(r, ClientReadonly) == Flag(c.readonly)
      && Get(r, ClientSession) == c.session
      && Get(r, ClientTermname) == c.termname
  {
    assert Get(r, ClientVar(12)) == Printed(ClientField(c, 12));
    assert Get(r, ClientVar(13)) == Printed(ClientField(c, 13));
    assert Get(r, ClientVar(14)) == Printed(ClientField(c, 14));
    assert Get(r, ClientVar(15)) == Printed(ClientField(c, 15));
  }

  lemma ClientHoldsFrom16(c: Client, r: Record)
    requires forall k :: 0 <= k < 24 ==> Get(r, ClientVar(k)) == Printed(ClientField(c, k))
    ensures Get(r, ClientTermfeatures) == c.termfeatures
      && Get(r, ClientTermtype) == c.termtype
      && Get(r, ClientTty) == c.tty
      && Get(r, ClientUid) == Itoa(c.uid)
  {
    assert Get(r, ClientVar(16)) == Printed(ClientField(c, 16));
    assert Get(r, ClientVar(17)) == Printed(ClientField(c, 17));
    assert Get(r, ClientVar(18)) == Printed(ClientField(c, 18));
    assert Get(r, ClientVar(19)) == Printed(ClientField(c, 19));
  }

  lemma ClientHoldsFrom20(c: Client, r: Record)
    requires forall k :: 0 <= k < 24 ==> Get(r, ClientVar(k)) == Printed(ClientField(c, k))
    ensures Get(r, ClientUser) == c.user
      && Get(r, ClientUtf8) == Flag(c.utf8)
      && Get(r, ClientWidth) == Itoa(c.width)
      && Get(r, ClientWritten) == c.written
  {
    assert Get(r, ClientVar(20)) == Printed(ClientField(c, 20));
    assert Get(r, ClientVar(21)) == Printed(ClientField(c, 21));
    assert Get(r, ClientVar(22)) == Printed(ClientField(c, 22));
    assert Get(r, ClientVar(23)) == Printed(ClientField(c, 23));
  }

  /** A record holding what tmux prints for a readable client decodes to that client. */
  lemma ClientReads(c: Client, r: Record)
    requires ReadableClient(c) && HoldsClient(r, c)
    ensures ToClient(r, c.tmux) == c
  {
    ClientReadsFrom0(c, r);
    ClientReadsFrom6(c, r);
    ClientReadsFrom12(c, r);
    ClientReadsFrom18(c, r);
  }

  lemma ClientReadsFrom0(c: Client, r: Record)
    requires ReadableClient(c) && HoldsClient(r, c)
    ensures var d := ToClient(r, c.tmux);
      d.activity == c.activity && d.cellHeight == c.cellHeight && d.cellWidth == c.cellWidth
      && d.controlMode == c.controlMode && d.created == c.created && d.discarded == c.discarded
      && d.tmux == c.tmux
  {
    AtoiReadsBack(Get(r, ClientCellHeight), c.cellHeight);
    AtoiReadsBack(Get(r, ClientCellWidth), c.cellWidth);
  }

  lemma ClientReadsFrom6(c: Client, r: Record)
    requires ReadableClient(c) && HoldsClient(r, c)
    ensures var d := ToClient(r, c.tmux);
      d.flags == c.flags && d.height == c.height && d.keyTable == c.keyTable
      && d.lastSession == c.lastSession && d.name == c.name && d.pid == c.pid
  {
    AtoiReadsBack(Get(r, ClientHeight), c.height);
    Int32ReadsBack(Get(r, ClientPid), c.pid);
  }

  lemma ClientReadsFrom12(c: Client, r: Record)
    requires ReadableClient(c) && HoldsClient(r, c)
    ensures var d := ToClient(r, c.tmux);
      d.prefix == c.prefix && d.readonly == c.readonly && d.session == c.session
      && d.termname == c.termname && d.termfeatures == c.termfeatures && d.termtype == c.termtype
  {
  }

  lemma ClientReadsFrom18(c: Client, r: Record)
    requires ReadableClient(c) && HoldsClient(r, c)
    ensures var d := ToClient(r, c.tmux);
      d.tty == c.tty && d.uid == c.uid && d.user == c.user
      && d.utf8 == c.utf8 && d.width == c.width && d.written == c.written
  {
    Int32ReadsBack(Get(r, ClientUid), c.uid);
    AtoiReadsBack(Get(r, ClientWidth), c.width);
  }

  /** Decoding is total: a record holding none of the names gives the zero client. */
  lemma ClientDefaults(t: Tmux)
    ensures ToClient(map[], t) == Client("", 0, 0, false, "", "", "", 0, "", "", "", 0, false, false, "", "", "", "", "", 0, "", false, 0, "", t)
  {
  }

  /** How tmux prints a list of clients: one row per client. */
  function ClientRows(xs: seq<Client>): (rows: seq<seq<string>>)
    ensures |rows| == |xs|
    ensures forall i :: 0 <= i < |xs| ==> rows[i] == EncodeClient(xs[i])
  {
    seq(|xs|, i requires 0 <= i < |xs| => EncodeClient(xs[i]))
  }

  /** The decoder a listing through handle `t` applies to each record. */
  function ClientDecoder(t: Tmux): Record -> Client
  {
    r => ToClient(r, t)
  }

  /**
   Listing round trip: the rows tmux prints for readable clients, all read
   through handle `t`, decode back to those clients, in order.
   */
  lemma ClientsListed(xs: seq<Client>, t: Tmux)
    requires forall i :: 0 <= i < |xs| ==> ReadableClient(xs[i]) && xs[i].tmux == t
    ensures DecodeAll(Output(Table(ClientRows(xs)), ClientVars()), ClientDecoder(t)) == Ok(xs)
  {
    var rows := ClientRows(xs);
    forall k | 0 <= k < |rows|
      ensures |rows[k]| == |ClientVars()| && RowValues(rows[k])
      ensures ClientDecoder(t)(Zip(ClientVars(), rows[k])) == xs[k]
    {
      ClientRowValues(xs[k]);
      ClientRoundTrip(xs[k]);
    }
    DecodeTable(ClientVars(), rows, ClientDecoder(t), xs);
  }

  // ---------------------------------------------------------------------
  // Listing clients

  /** The query of `Tmux.ListClients`: `list-clients`, formatted with the client variables. */
  function ListClientsQuery(t: Tmux): (q: Query)
    ensures q.command == SocketPrefix(t) + ["list-clients"]
    ensures q.fArgs == [] && q.pArgs == []
    ensures q.variables == ClientVars()
  {
    Vars(Cmd(TmuxQuery(t), ["list-clients"]), ClientVars())
  }

  /** `Tmux.ListClients`: every client tmux lists, each decoded with handle `t`. */
  function ListClients(t: Tmux, run: Runner): (r: Result<seq<Client>>)
    ensures Run(ListClientsQuery(t), run).Failed? <==> r == Err(CommandFailed("failed to list clients"))
    ensures Run(ListClientsQuery(t), run).Ran? ==> r == DecodeAll(Output(Run(ListClientsQuery(t), run).stdout, ClientVars()), ClientDecoder(t))
  {
    ListOf(ListClientsQuery(t), run, "failed to list clients", ClientDecoder(t))
  }

  /** Listing the clients tmux printed gives back exactly those clients, in order. */
  lemma ListClientsReads(t: Tmux, cs: seq<Client>, run: Runner)
    requires forall i :: 0 <= i < |cs| ==> ReadableClient(cs[i]) && cs[i].tmux == t
    requires Run(ListClientsQuery(t), run) == Ran(Table(ClientRows(cs)))
    ensures ListClients(t, run) == Ok(cs)
  {
    ClientsListed(cs, t);
  }
}

=== FILE: flags.dfy ===
/**
 How tmux reads the flag arguments the binding assembles: each token is a
 flag; a flag that takes an argument consumes the next token as its value,
 and a later occurrence of a flag overrides an earlier one. This independent
 reading is what the per-operation argument lists are checked against.
 */
module Flags {
  import opened Outcomes
  import opened Queries

  /** Flags seen so far, each with its value (`""` for a switch). */
  type Settings = map<string, string>

  /**
   Reads `tokens` on top of `m`, left to right. `None` when a flag that
   takes an argument is the last token.
   */
  function ReadFrom(m: Settings, tokens: seq<string>, valued: set<string>): Option<Settings>
    decreases |tokens|
  {
    if |tokens| == 0 then Some(m)
    else if tokens[0] in valued then
      if |tokens| == 1 then None else ReadFrom(m[tokens[0] := tokens[1]], tokens[2..], valued)
    else
      ReadFrom(m[tokens[0] := ""], tokens[1..], valued)
  }

  function Read(tokens: seq<string>, valued: set<string>): Option<Settings>
  {
    ReadFrom(map[], tokens, valued)
  }

  /** Reading two lists in a row reads the second on top of what the first gave. */
  lemma {:induction false} ReadAppend(m: Settings, a: seq<string>, b: seq<string>, valued: set<string>)
    requires ReadFrom(m, a, valued).Some?
    ensures ReadFrom(m, a + b, valued) == ReadFrom(ReadFrom(m, a, valued).value, b, valued)
    decreases |a|
  {
    if |a| > 0 {
      assert (a + b)[0] == a[0];
      if a[0] in valued {
        assert (a + b)[2..] == a[2..] + b;
        ReadAppend(m[a[0] := a[1]], a[2..], b, valued);
      } else {
        assert (a + b)[1..] == a[1..] + b;
        ReadAppend(m[a[0] := ""], a[1..], b, valued);
      }
    } else {
      assert a + b == b;
    }
  }

  /** A flag with its value. */
  lemma ReadValued(m: Settings, flag: string, value: string, valued: set<string>)
    requires flag in valued
    ensures ReadFrom(m, [flag, value], valued) == Some(m[flag := value])
  {
    assert [flag, value][2..] == [];
  }

  /** A switch on its own. */
  lemma ReadSwitch(m: Settings, flag: string, valued: set<string>)
    requires flag !in valued
    ensures ReadFrom(m, [flag], valued) == Some(m[flag := ""])
  {
    assert [flag][1..] == [];
  }

  /** A block of flag tokens: nothing, a switch, or a flag followed by its value. */
  predicate Block(block: seq<string>, valued: set<string>)
  {
    || |block| == 0
    || (|block| == 1 && block[0] !in valued)
    || (|block| == 2 && block[0] in valued)
  }

  /** What reading a block adds to the settings. */
  function Apply(m: Settings, block: seq<string>): Settings
  {
    if |block| == 0 then m
    else if |block| == 1 then m[block[0] := ""]
    else m[block[0] := block[1]]
  }

  /** `m` with `flag` set to `value` when `given` holds, and unchanged otherwise. */
  function Flagged(m: Settings, given: bool, flag: string, value: string): Settings
  {
    if given then m[flag := value] else m
  }

  /** One more block read after a list that reads without error. */
  lemma ReadStep(m: Settings, a: seq<string>, block: seq<string>, valued: set<string>)
    requires ReadFrom(m, a, valued).Some?
    requires Block(block, valued)
    ensures ReadFrom(m, a + block, valued) == Some(Apply(ReadFrom(m, a, valued).value, block))
  {
    ReadAppend(m, a, block, valued);
    var m' := ReadFrom(m, a, valued).value;
    if |block| == 1 {
      ReadSwitch(m', block[0], valued);
      assert block == [block[0]];
    } else if |block| == 2 {
      ReadValued(m', block[0], block[1], valued);
      assert block == [block[0], block[1]];
    }
  }

  /** An option's flag and value, read when the option is given. */
  lemma ReadGiven(m: Settings, a: seq<string>, given: bool, flag: string, value: string, valued: set<string>)
    requires ReadFrom(m, a, valued).Some?
    requires flag in valued
    ensures ReadFrom(m, a + Given(given, [flag, value]), valued)
      == Some(Flagged(ReadFrom(m, a, valued).value, given, flag, value))
  {
    ReadStep(m, a, Given(given, [flag, value]), valued);
  }

  /** An option's switch, read when the option is given. */
  lemma ReadGivenSwitch(m: Settings, a: seq<string>, given: bool, flag: string, valued: set<string>)
    requires ReadFrom(m, a, valued).Some?
    requires flag !in valued
    ensures ReadFrom(m, a + Given(given, [flag]), valued)
      == Some(Flagged(ReadFrom(m, a, valued).value, given, flag, ""))
  {
    ReadStep(m, a, Given(given, [flag]), valued);
  }
}

=== FILE: format.dfy ===
/**
 The other side of the wire: how tmux expands the format argument the binding
 sends. tmux replaces each `#{name}` reference with the value of the variable
 `name` (nothing when it has no value) and copies every other character. Only
 this plain-reference subset of tmux's format language is modelled, which is
 all the binding ever sends. Together with the parser this closes the loop:
 render the format, let tmux expand it, collect the record.
 */
module TmuxFormat {
  import opened GoStrings
  import opened Queries
  import opened Outcomes

  /** Position of the first `}` in `s`, or `|s|` when there is none. */
  function CloseBrace(s: string): (r: nat)
    ensures r <= |s|
    ensures r < |s| ==> s[r] == '}'
    ensures forall k :: 0 <= k < r ==> s[k] != '}'
    decreases |s|
  {
    if |s| == 0 then 0 else if s[0] == '}' then 0 else 1 + CloseBrace(s[1..])
  }

  /** tmux's expansion of `#{name}` references against the variables `env`. */
  function Expand(s: string, env: map<string, string>): string
    decreases |s|
  {
    if |s| == 0 then ""
    else if |s| >= 2 && s[0] == '#' && s[1] == '{' && CloseBrace(s[2..]) < |s| - 2 then
      var n := CloseBrace(s[2..]);
      Get(env, s[2..2 + n]) + Expand(s[3 + n..], env)
    else
      [s[0]] + Expand(s[1..], env)
  }

  /** Text without `#` is copied unchanged. */
  lemma {:induction false} ExpandLiteral(a: string, b: string, env: map<string, string>)
    requires '#' !in a
    ensures Expand(a + b, env) == a + Expand(b, env)
    decreases |a|
  {
    if |a| > 0 {
      var s := a + b;
      assert a[0] in a;
      assert s[0] == a[0] != '#';
      assert Expand(s, env) == [a[0]] + Expand(s[1..], env);
      assert s[1..] == a[1..] + b;
      ExpandLiteral(a[1..], b, env);
      assert [a[0]] + (a[1..] + Expand(b, env)) == a + Expand(b, env);
    } else {
      assert a + b == b;
    }
  }

  /** A reference `#{v}` expands to the value of `v`. */
  lemma ExpandPlaceholder(v: string, b: string, env: map<string, string>)
    requires '}' !in v
    ensures Expand(Placeholder(v) + b, env) == Get(env, v) + Expand(b, env)
  {
    var s := Placeholder(v) + b;
    assert s[2..] == v + ("}" + b);
    CloseBraceAfter(v, "}" + b);
    assert s[2..2 + |v|] == v;
    assert s[3 + |v|..] == b;
  }

  lemma {:induction false} CloseBraceAfter(v: string, t: string)
    requires '}' !in v && |t| > 0 && t[0] == '}'
    ensures CloseBrace(v + t) == |v|
    decreases |v|
  {
    if |v| > 0 {
      assert v[0] in v;
      assert (v + t)[1..] == v[1..] + t;
      CloseBraceAfter(v[1..], t);
    }
  }

  lemma Associate(a: string, b: string, c: string, d: string)
    ensures a + b + c + d == a + (b + (c + d))
  {
  }

  /** A reference and a separator in front of text whose expansion is known. */
  lemma ExpandJoinCons(v: string, rest: string, values: string, tail: string, env: map<string, string>)
    requires '}' !in v
    requires Expand(rest + tail, env) == values + Expand(tail, env)
    ensures Expand(Placeholder(v) + (Sep + (rest + tail)), env) == Get(env, v) + (Sep + (values + Expand(tail, env)))
  {
    ExpandPlaceholder(v, Sep + (rest + tail), env);
    ExpandLiteral(Sep, rest + tail, env);
  }

  /** A name tmux can carry through the round trip: no brace, quote, newline or dash. */
  predicate VarName(v: string)
  {
    '}' !in v && '\'' !in v && '\n' !in v && '-' !in v
  }

  /** The values tmux substitutes for `vars`, in order. */
  function Values(vars: seq<string>, env: map<string, string>): (r: seq<string>)
    ensures |r| == |vars|
    ensures forall i :: 0 <= i < |vars| ==> r[i] == Get(env, vars[i])
  {
    seq(|vars|, i requires 0 <= i < |vars| => Get(env, vars[i]))
  }

  lemma {:induction false} ExpandJoin(vars: seq<string>, tail: string, env: map<string, string>)
    requires |vars| >= 1
    requires forall i :: 0 <= i < |vars| ==> '}' !in vars[i]
    ensures Expand(Join(Placeholders(vars), Sep) + tail, env) == Join(Values(vars, env), Sep) + Expand(tail, env)
    decreases |vars|
  {
    var v := vars[0];
    var ph := Placeholders(vars);
    var vs := Values(vars, env);
    if |vars| == 1 {
      assert Join(ph, Sep) == Placeholder(v);
      ExpandPlaceholder(v, tail, env);
    } else {
      assert ph[1..] == Placeholders(vars[1..]);
      assert vs[1..] == Values(vars[1..], env);
      var rest, values := Join(ph[1..], Sep), Join(vs[1..], Sep);
      Associate(Placeholder(v), Sep, rest, tail);
      Associate(vs[0], Sep, values, Expand(tail, env));
      ExpandJoin(vars[1..], tail, env);
      ExpandJoinCons(v, rest, values, tail, env);
    }
  }

  /** Expanding the rendered format yields exactly the row of the variables' values. */
  lemma ExpandFormatToken(vars: seq<string>, env: map<string, string>)
    requires |vars| >= 1
    requires forall i :: 0 <= i < |vars| ==> '}' !in vars[i]
    ensures Expand(FormatToken(vars), env) == Row(Values(vars, env))
  {
    var j := Join(Placeholders(vars), Sep);
    assert FormatToken(vars) == "'" + (j + "'");
    assert Row(Values(vars, env)) == "'" + (Join(Values(vars, env), Sep) + "'");
    ExpandLiteral("'", j + "'", env);
    ExpandJoin(vars, "'", env);
    ExpandLiteral("'", "", env);
    assert "'" + "" == "'";
  }

  /**
   The wire format read back by the binding itself, before tmux expands it:
   one field per requested variable, each its `#{name}` reference.
   */
  lemma FormatTokenFields(vars: seq<string>)
    requires |vars| >= 1
    requires forall i :: 0 <= i < |vars| ==> VarName(vars[i])
    ensures Fields(FormatToken(vars)) == Placeholders(vars)
  {
    var ph := Placeholders(vars);
    forall k | 0 <= k < |ph|
      ensures PrintableValue(ph[k]) && NoMatchAcross(ph[k], Sep) && !Contains(ph[k], Sep)
    {
      assert '-' !in ph[k] by {
        assert ph[k] == "#{" + vars[k] + "}";
      }
      NoMatchWithoutFirstChar(ph[k], Sep);
    }
    FieldsOfRow(ph);
  }

  /**
   End to end: tmux expands the rendered format against its variables and
   prints the line; `one` reads it back, and every requested name maps to the
   value tmux substituted for it.
   */
  lemma FormatRoundTrip(vars: seq<string>, env: map<string, string>)
    requires |vars| >= 1
    requires forall i :: 0 <= i < |vars| ==> '}' !in vars[i]
    requires RowValues(Values(vars, env))
    ensures One(Output(Expand(FormatToken(vars), env) + "\n", vars)) == Ok(Zip(vars, Values(vars, env)))
    ensures forall i :: 0 <= i < |vars| ==>
      Get(Zip(vars, Values(vars, env)), vars[i]) == Get(env, vars[i])
  {
    ExpandFormatToken(vars, env);
    OneRow(vars, Values(vars, env));
    var r := Zip(vars, Values(vars, env));
    forall i | 0 <= i < |vars|
      ensures Get(r, vars[i]) == Get(env, vars[i])
    {
      var last := LastIndex(vars, i);
      assert r[vars[i]] == Values(vars, env)[last];
    }
  }

  /** The last position holding the same name as position `i`. */
  function LastIndex(vars: seq<string>, i: int): (r: int)
    requires 0 <= i < |vars|
    ensures i <= r < |vars| && vars[r] == vars[i] && LastOccurrence(vars, r)
    decreases |vars| - i
  {
    if exists j :: i < j < |vars| && vars[j] == vars[i] then
      var j :| i < j < |vars| && vars[j] == vars[i];
      LastIndex(vars, j)
    else i
  }
}

=== FILE: handle.dfy ===
/**
 The entry handle every operation starts from: a tmux server reached either
 through the default socket or through an explicit socket path.
 */
module Handle {
  import opened Outcomes
  import opened Queries

  /** A tmux control socket, addressed by its path. */
  datatype Socket = Socket(path: string)

  /** The binding's handle; entities keep the handle they were read through. */
  datatype Tmux = Tmux(socket: Option<Socket>)

  /** The tokens the socket contributes in front of a command. */
  function SocketPrefix(t: Tmux): seq<string>
  {
    match t.socket
    case None => []
    case Some(s) => ["-S", s.path]
  }

  /**
   A fresh query for this handle. With a socket, the command starts with
   `-S path` so that every invocation addresses that server; everything else
   starts empty.
   */
  function TmuxQuery(t: Tmux): (q: Query)
    ensures t.socket.None? ==> q == NewQuery()
    ensures t.socket.Some? ==> q.command == ["-S", t.socket.value.path]
    ensures q.command == SocketPrefix(t)
    ensures q.fArgs == [] && q.pArgs == [] && q.variables == []
  {
    match t.socket
    case None => NewQuery()
    case Some(s) => Cmd(NewQuery(), ["-S", s.path])
  }

  /**
   A query for `command` on this handle renders as `tmux`, the socket prefix,
   then the command, whatever else is appended afterwards.
   */
  lemma RenderedPrefix(t: Tmux, command: seq<string>, flags: seq<string>, positionals: seq<string>)
    requires |command| > 0
    ensures var q := PArgs(FArgs(Cmd(TmuxQuery(t), command), flags), positionals);
      var r := Prepare(q);
      && r[..1 + |SocketPrefix(t)| + |command|] == ["tmux"] + SocketPrefix(t) + command
      && r[|r| - |positionals|..] == positionals
  {
    var q := PArgs(FArgs(Cmd(TmuxQuery(t), command), flags), positionals);
    assert q.command == SocketPrefix(t) + command;
    var r := Prepare(q);
    assert r[..1 + |q.command|] == [r[0]] + r[1..1 + |q.command|];
  }

  /**
   With the corrected rendering a socket selection is transparent: the
   command renders as it would on the default socket, with `-S path` in front.
   */
  lemma SocketTransparent(t: Tmux, q: Query)
    requires |q.command| > 0 && q.command[0] != "-S"
    ensures PrepareCorrected(q.(command := SocketPrefix(t) + q.command)) == ["tmux"] + SocketPrefix(t) + Prepare(q)[1..]
  {
    var s := q.(command := SocketPrefix(t) + q.command);
    var rest := FormatPair(q) + q.pArgs;
    assert s.command[CommandStart(s.command)..] == q.command;
    assert PrepareCorrected(s) == (["tmux"] + s.command + q.fArgs) + rest;
    Regroup("tmux", SocketPrefix(t), q.command, q.fArgs, rest);
    AfterFirst("tmux", q.command, q.fArgs, rest);
  }

  lemma Regroup<T>(a: T, b: seq<T>, c: seq<T>, d: seq<T>, x: seq<T>)
    ensures ([a] + (b + c) + d) + x == [a] + b + ((c + d) + x)
  {
  }

  lemma AfterFirst<T>(a: T, c: seq<T>, d: seq<T>, x: seq<T>)
    ensures (([a] + c + d) + x)[1..] == (c + d) + x
  {
  }

  /**
   tmux as the binding sees it: what running a query produces. Process
   execution is outside the model, so every operation takes tmux as this
   function and applies it to the query it builds; the argument vector tmux
   receives for query `q` is `Prepare(q)`.
   */
  type Runner = Query -> RunOutcome

  /** `q.run()`: tmux run on a query `prepare` can render. */
  function Run(q: Query, tmux: Runner): RunOutcome
    requires Renderable(q)
  {
    tmux(q)
  }

  /**
   The outcome of running a query whose output is read back. A failure
   becomes the operation's own error message; otherwise the output is paired
   with the query's variables.
   */
  function RunQuery(q: Query, tmux: Runner, failure: string): (r: Result<Output>)
    requires Renderable(q)
    ensures Run(q, tmux).Failed? <==> r == Err(CommandFailed(failure))
    ensures Run(q, tmux).Ran? ==> r == Ok(Output(Run(q, tmux).stdout, q.variables))
  {
    match Run(q, tmux)
    case Failed => Err(CommandFailed(failure))
    case Ran(stdout) => Ok(Output(stdout, q.variables))
  }

  /** The outcome of running a query whose output is discarded. */
  function RunDiscard(q: Query, tmux: Runner, failure: string): (r: Result<()>)
    requires Renderable(q)
    ensures r.Ok? <==> Run(q, tmux).Ran?
    ensures r.Err? ==> r.error == CommandFailed(failure)
  {
    match Run(q, tmux)
    case Failed => Err(CommandFailed(failure))
    case Ran(_) => Ok(())
  }
}

=== FILE: lists.dfy ===
/**
 The list plumbing every listing operation shares: decoding all records of an
 output, running a listing query, picking the first element that matches a
 key (the `Get…By…` lookups) and keeping the elements that match (the
 clients of a session).
 */
module Listing {
  import opened Outcomes
  import opened Queries
  import opened Handle

  /** Every record of the output decoded, in order; a malformed output fails as `collect` does. */
  function DecodeAll<T>(o: Output, decode: Record -> T): (r: Result<seq<T>>)
    ensures r.Err? <==> Collect(o).Err?
    ensures r.Err? ==> r.error == MalformedOutput
    ensures r.Ok? ==> |r.value| == |Collect(o).value|
    ensures r.Ok? ==> forall i :: 0 <= i < |r.value| ==> r.value[i] == decode(Collect(o).value[i])
  {
    match Collect(o)
    case Err(e) => Err(e)
    case Ok(records) => Ok(seq(|records|, i requires 0 <= i < |records| => decode(records[i])))
  }

  /**
   End to end for a listing: tmux prints one row per entity, and decoding every
   record gives back the entities, in order.
   */
  lemma {:induction false} DecodeTable<T>(vars: seq<string>, rows: seq<seq<string>>, decode: Record -> T, xs: seq<T>)
    requires |rows| == |xs|
    requires forall k :: 0 <= k < |rows| ==> |rows[k]| == |vars| && RowValues(rows[k])
    requires forall k :: 0 <= k < |rows| ==> decode(Zip(vars, rows[k])) == xs[k]
    ensures DecodeAll(Output(Table(rows), vars), decode) == Ok(xs)
  {
    var o := Output(Table(rows), vars);
    var records := ZipAll(vars, rows);
    CollectTable(vars, rows);
    assert forall k :: 0 <= k < |records| ==> decode(records[k]) == xs[k];
    DecodeRecords(o, decode, records, xs);
  }

  lemma {:induction false} DecodeRecords<T>(o: Output, decode: Record -> T, records: seq<Record>, xs: seq<T>)
    requires Collect(o) == Ok(records) && |records| == |xs|
    requires forall k :: 0 <= k < |records| ==> decode(records[k]) == xs[k]
    ensures DecodeAll(o, decode) == Ok(xs)
  {
    var r := DecodeAll(o, decode);
    assert r.Ok? && |r.value| == |xs|;
    forall k | 0 <= k < |xs|
      ensures r.value[k] == xs[k]
    {
      assert r.value[k] == decode(records[k]);
    }
    assert r.value == xs;
  }

  /**
   A listing operation: run the query, then decode each output line. A failed
   run reports the operation's own message.
   */
  function ListOf<T>(q: Query, tmux: Runner, failure: string, decode: Record -> T): (r: Result<seq<T>>)
    requires Renderable(q)
    ensures Run(q, tmux).Failed? <==> r == Err(CommandFailed(failure))
    ensures Run(q, tmux).Ran? ==> r == DecodeAll(Output(Run(q, tmux).stdout, q.variables), decode)
  {
    match RunQuery(q, tmux, failure)
    case Err(e) => Err(e)
    case Ok(o) => DecodeAll(o, decode)
  }

  /**
   An operation that reads back one entity: run the query, take the first
   record with `one`, decode it. An output without a record is an error
   (an index out of range in Go's `one`).
   */
  function OneOf<T>(q: Query, tmux: Runner, failure: string, decode: Record -> T): (r: Result<T>)
    requires Renderable(q)
    ensures Run(q, tmux).Failed? <==> r == Err(CommandFailed(failure))
    ensures Run(q, tmux).Ran? && One(Output(Run(q, tmux).stdout, q.variables)).Ok? ==>
      r == Ok(decode(One(Output(Run(q, tmux).stdout, q.variables)).value))
    ensures Run(q, tmux).Ran? && One(Output(Run(q, tmux).stdout, q.variables)).Err? ==>
      r == Err(One(Output(Run(q, tmux).stdout, q.variables)).error)
  {
    match RunQuery(q, tmux, failure)
    case Err(e) => Err(e)
    case Ok(o) =>
      match One(o)
      case Err(e) => Err(e)
      case Ok(record) => Ok(decode(record))
  }

  /** Position of the first element satisfying `p`, or `|xs|` when there is none. */
  function FirstIndex<T>(xs: seq<T>, p: T -> bool): (i: nat)
    ensures i <= |xs|
    ensures i < |xs| ==> p(xs[i])
    ensures forall j :: 0 <= j < i ==> !p(xs[j])
    decreases |xs|
  {
    if |xs| == 0 then 0 else if p(xs[0]) then 0 else 1 + FirstIndex(xs[1..], p)
  }

  /** `x` occurs in `xs`, and no element before that occurrence satisfies `p`. */
  ghost predicate FirstWith<T>(xs: seq<T>, p: T -> bool, x: T)
  {
    exists i :: 0 <= i < |xs| && xs[i] == x && forall j :: 0 <= j < i ==> !p(xs[j])
  }

  /**
   The loop of every `Get…By…` lookup: the first element whose key matches,
   or nothing (a nil result without an error) when none does.
   */
  function FirstMatch<T>(xs: seq<T>, p: T -> bool): (r: Option<T>)
    ensures r.None? <==> forall i :: 0 <= i < |xs| ==> !p(xs[i])
    ensures r.Some? ==> p(r.value) && r.value == xs[FirstIndex(xs, p)]
    ensures r.Some? ==> FirstWith(xs, p, r.value)
  {
    var i := FirstIndex(xs, p);
    if i < |xs| then Some(xs[i]) else None
  }

  /** The elements satisfying `p`, in their original order. */
  function Filter<T>(xs: seq<T>, p: T -> bool): (r: seq<T>)
    ensures |r| <= |xs|
    ensures forall i :: 0 <= i < |r| ==> p(r[i])
    decreases |xs|
  {
    if |xs| == 0 then []
    else (if p(xs[0]) then [xs[0]] else []) + Filter(xs[1..], p)
  }

  /** Filtering keeps exactly the matching elements: membership both ways. */
  lemma {:induction false} FilterMembers<T>(xs: seq<T>, p: T -> bool, x: T)
    ensures x in Filter(xs, p) <==> x in xs && p(x)
    decreases |xs|
  {
    if |xs| > 0 {
      FilterMembers(xs[1..], p, x);
      assert xs == [xs[0]] + xs[1..];
    }
  }

  /** Filtering a concatenation filters each part, so the original order is kept. */
  lemma {:induction false} FilterAppend<T>(a: seq<T>, b: seq<T>, p: T -> bool)
    ensures Filter(a + b, p) == Filter(a, p) + Filter(b, p)
    decreases |a|
  {
    if |a| == 0 {
      assert a + b == b;
    } else {
      assert (a + b)[0] == a[0];
      assert (a + b)[1..] == a[1..] + b;
      FilterAppend(a[1..], b, p);
    }
  }

  /** The first match is the head of the filtered list. */
  lemma {:induction false} FirstMatchFilter<T>(xs: seq<T>, p: T -> bool)
    ensures FirstMatch(xs, p) == if |Filter(xs, p)| == 0 then None else Some(Filter(xs, p)[0])
    decreases |xs|
  {
    if |xs| > 0 && !p(xs[0]) {
      FirstMatchFilter(xs[1..], p);
      assert Filter(xs, p) == Filter(xs[1..], p);
    }
  }
}

=== FILE: option.dfy ===
/**
 Option listings: `show-options` prints one `key value` line per option, and
 the binding turns each line that splits on spaces into exactly two parts
 into an option. Every other line is skipped.
 */
module Options {
  import opened GoStrings
  import opened Outcomes
  import opened Queries

  /** A tmux option: a key and its value. */
  datatype TmuxOption = TmuxOption(key: string, value: string)

  /** The option one output line describes, if it has exactly one space. */
  function LineOption(line: string): (r: Option<TmuxOption>)
    ensures r.Some? <==> CharCount(line, ' ') == 1
    ensures r.Some? ==> r.value.key + " " + r.value.value == line
    ensures r.Some? ==> ' ' !in r.value.key && ' ' !in r.value.value
  {
    var s := Split(line, " ");
    SplitCharCount(line, ' ');
    if |s| != 2 then None
    else
      JoinSplit(line, " ");
      ContainsChar(s[0], ' ');
      ContainsChar(s[1], ' ');
      Some(TmuxOption(s[0], s[1]))
  }

  /** The options of `lines`, one per line that describes one, in line order. */
  function OptionsOf(lines: seq<string>): (r: seq<TmuxOption>)
    ensures |r| <= |lines|
    ensures forall k :: 0 <= k < |r| ==> ' ' !in r[k].key && ' ' !in r[k].value
    decreases |lines|
  {
    if |lines| == 0 then []
    else
      match LineOption(lines[0])
      case Some(o) => [o] + OptionsOf(lines[1..])
      case None => OptionsOf(lines[1..])
  }

  /** `toOptions`: the options of the raw output, split into lines. */
  function ToOptions(o: Output): (r: seq<TmuxOption>)
    ensures |r| <= |Split(Raw(o), "\n")|
    ensures forall k :: 0 <= k < |r| ==>
      ' ' !in r[k].key && ' ' !in r[k].value && '\n' !in r[k].key && '\n' !in r[k].value
  {
    var lines := Split(Raw(o), "\n");
    var r := OptionsOf(lines);
    OptionsOfOrigin(lines);
    forall k | 0 <= k < |r|
      ensures '\n' !in r[k].key && '\n' !in r[k].value
    {
      assert Some(r[k]) in Described(lines);
      var j :| 0 <= j < |lines| && Described(lines)[j] == Some(r[k]);
      ContainsChar(lines[j], '\n');
      assert r[k].key + " " + r[k].value == lines[j];
    }
    r
  }

  /** What each line describes, line by line. */
  function Described(lines: seq<string>): (r: seq<Option<TmuxOption>>)
    ensures |r| == |lines|
    ensures forall j :: 0 <= j < |lines| ==> r[j] == LineOption(lines[j])
  {
    seq(|lines|, j requires 0 <= j < |lines| => LineOption(lines[j]))
  }

  /** Every option comes from a line of the input that describes it. */
  lemma {:induction false} OptionsOfOrigin(lines: seq<string>)
    ensures forall k :: 0 <= k < |OptionsOf(lines)| ==> Some(OptionsOf(lines)[k]) in Described(lines)
    decreases |lines|
  {
    if |lines| > 0 {
      OptionsOfOrigin(lines[1..]);
      var d := Described(lines);
      assert d == [d[0]] + Described(lines[1..]);
    }
  }

  /** Options keep the order of their lines: the options of two blocks are the options of each, in turn. */
  lemma {:induction false} OptionsOfAppend(a: seq<string>, b: seq<string>)
    ensures OptionsOf(a + b) == OptionsOf(a) + OptionsOf(b)
    decreases |a|
  {
    if |a| == 0 {
      assert a + b == b;
    } else {
      assert (a + b)[1..] == a[1..] + b;
      assert (a + b)[0] == a[0];
      OptionsOfAppend(a[1..], b);
    }
  }

  /** A value holding a space makes its line split into three or more parts, so the line is skipped. */
  lemma ValueWithSpaceDropped(key: string, value: string)
    requires ' ' in value
    ensures LineOption(key + " " + value) == None
  {
    CharCountAppend(key + " ", value, ' ');
    CharCountAppend(key, " ", ' ');
    CharCountPresent(value, ' ');
  }

  /** How `show-options` prints one option. */
  function OptionLine(o: TmuxOption): string
  {
    o.key + " " + o.value
  }

  /** An option tmux can print so that it reads back: no space or newline in its key or value. */
  predicate Listable(o: TmuxOption)
  {
    ' ' !in o.key && ' ' !in o.value && '\n' !in o.key && '\n' !in o.value
  }

  function OptionLines(opts: seq<TmuxOption>): (r: seq<string>)
    ensures |r| == |opts|
    ensures forall k :: 0 <= k < |opts| ==> r[k] == OptionLine(opts[k])
  {
    seq(|opts|, k requires 0 <= k < |opts| => OptionLine(opts[k]))
  }

  lemma LineOptionOfLine(o: TmuxOption)
    requires ' ' !in o.key && ' ' !in o.value
    ensures LineOption(OptionLine(o)) == Some(o)
  {
    assert Join([o.key, o.value], " ") == OptionLine(o);
    NoMatchWithoutFirstChar(o.key, " ");
    NoMatchWithoutFirstChar(o.value, " ");
    SplitJoin([o.key, o.value], " ");
  }

  lemma {:induction false} OptionsOfLines(opts: seq<TmuxOption>)
    requires forall k :: 0 <= k < |opts| ==> ' ' !in opts[k].key && ' ' !in opts[k].value
    ensures OptionsOf(OptionLines(opts)) == opts
    decreases |opts|
  {
    if |opts| > 0 {
      var lines := OptionLines(opts);
      assert lines[1..] == OptionLines(opts[1..]);
      LineOptionOfLine(opts[0]);
      OptionsOfLines(opts[1..]);
    }
  }

  /** Round trip: a listing of listable options reads back as exactly those options, in order. */
  lemma ListingRoundTrip(opts: seq<TmuxOption>, vars: seq<string>)
    requires forall k :: 0 <= k < |opts| ==> Listable(opts[k])
    ensures ToOptions(Output(Lines(OptionLines(opts)), vars)) == opts
  {
    var lines := OptionLines(opts);
    forall k | 0 <= k < |lines|
      ensures '\n' !in lines[k]
    {
      assert lines[k] == opts[k].key + " " + opts[k].value;
    }
    SplitLines(lines);
    OptionsOfAppend(lines, [""]);
    OptionsOfLines(opts);
    SplitCharCount("", ' ');
  }
}

=== FILE: outcomes.dfy ===
/**
 Failure-carrying values shared by the whole model. Go reports failures of the
 binding in three ways: an `error` return, a `log.Panicln`, and an index out of
 range; each becomes an `Err` here.
 */
module Outcomes {

  datatype Option<+T> = None | Some(value: T)

  /** The value of `op`, or `default` when there is none: a nil options argument behaves as the zero options. */
  function GetOr<T>(op: Option<T>, default: T): T
  {
    match op
    case None => default
    case Some(v) => v
  }

  datatype Error =
    /** A session name rejected before any command is built. */
    | InvalidSessionName
    /** A non-empty output line whose field count differs from the requested variables. */
    | MalformedOutput
    /** `one()` on an output that holds no record. */
    | EmptyOutput
    /** The tmux process failed; the message is the operation's own. */
    | CommandFailed(message: string)
    /** The tmux process failed and its own error is passed on unchanged. */
    | ProcessFailed

  datatype Result<+T> = Ok(value: T) | Err(error: Error)

  /**
   What running a rendered command produced: its standard output, or a failure
   (non-zero exit, or tmux could not be started).
   */
  datatype RunOutcome = Ran(stdout: string) | Failed
}

=== FILE: pane.dfy ===
/**
 Panes: the variables the binding requests for a tmux pane, the decoding
 of one record into a pane, and the pane operations.
 */
module Panes {
  import opened GoStrings
  import opened Outcomes
  import opened Queries
  import opened Parsing
  import opened Handle
  import opened TmuxFormat
  import opened Listing
  import opened Flags

  // ---------------------------------------------------------------------
  // Variables

  const PaneActive := "pane_active"
  const PaneAtBottom := "pane_at_bottom"
  const PaneAtLeft := "pane_at_left"
  const PaneAtRight := "pane_at_right"
  const PaneAtTop := "pane_at_top"
  const PaneBg := "pane_bg"
  const PaneBottom := "pane_bottom"
  const PaneCurrentCommand := "pane_current_command"
  const PaneCurrentPath := "pane_current_path"
  const PaneDead := "pane_dead"
  const PaneDeadSignal := "pane_dead_signal"
  const PaneDeadStatus := "pane_dead_status"
  const PaneDeadTime := "pane_dead_time"
  const PaneFg := "pane_fg"
  const PaneFormat := "pane_format"
  const PaneHeight := "pane_height"
  const PaneId := "pane_id"
  const PaneInMode := "pane_in_mode"
  const PaneIndex := "pane_index"
  const PaneInputOff := "pane_input_off"
  const PaneLast := "pane_last"
  const PaneLeft := "pane_left"
  const PaneMarked := "pane_marked"
  const PaneMarkedSet := "pane_marked_set"
  const PaneMode := "pane_mode"
  const PanePath := "pane_path"
  const PanePid := "pane_pid"
  const PanePipe := "pane_pipe"
  const PaneRight := "pane_right"
  const PaneSearchString := "pane_search_string"
  const PaneStartCommand := "pane_start_command"
  const PaneStartPath := "pane_start_path"
  const PaneSynchronized := "pane_synchronized"
  const PaneTabs := "pane_tabs"
  const PaneTitle := "pane_title"
  const PaneTop := "pane_top"
  const PaneTty := "pane_tty"
  const PaneUnseenChanges := "pane_unseen_changes"
  const PaneWidth := "pane_width"

  /** The position-`k` variable requested for a tmux pane. */
  function PaneVar(k: int): string
    requires 0 <= k < 39
  {
    if k == 0 then PaneActive
    else if k == 1 then PaneAtBottom
    else if k == 2 then PaneAtLeft
    else if k == 3 then PaneAtRight
    else if k == 4 then PaneAtTop
    else if k == 5 then PaneBg
    else if k == 6 then PaneBottom
    else if k == 7 then PaneCurrentCommand
    else if k == 8 then PaneCurrentPath
    else if k == 9 then PaneDead
    else if k == 10 then PaneDeadSignal
    else if k == 11 then PaneDeadStatus
    else if k == 12 then PaneDeadTime
    else if k == 13 then PaneFg
    else if k == 14 then PaneFormat
    else if k == 15 then PaneHeight
    else if k == 16 then PaneId
    else if k == 17 then PaneInMode
    else if k == 18 then PaneIndex
    else if k == 19 then PaneInputOff
    else if k == 20 then PaneLast
    else if k == 21 then PaneLeft
    else if k == 22 then PaneMarked
    else if k == 23 then PaneMarkedSet
    else if k == 24 then PaneMode
    else if k == 25 then PanePath
    else if k == 26 then PanePid
    else if k == 27 then PanePipe
    else if k == 28 then PaneRight
    else if k == 29 then PaneSearchString
    else if k == 30 then PaneStartCommand
    else if k == 31 then PaneStartPath
    else if k == 32 then PaneSynchronized
    else if k == 33 then PaneTabs
    else if k == 34 then PaneTitle
    else if k == 35 then PaneTop
    else if k == 36 then PaneTty
    else if k == 37 then PaneUnseenChanges
    else PaneWidth
  }

  /** The variables requested for a tmux pane, in request order. */
  function PaneVars(): seq<string>
  {
    seq(39, k requires 0 <= k < 39 => PaneVar(k))
  }

  /** 39 variables, no name requested twice. */
  lemma PaneVarsDistinct()
    ensures |PaneVars()| == 39
    ensures forall i :: 0 <= i < |PaneVars()| ==> LastOccurrence(PaneVars(), i)
  {
    forall i | 0 <= i < |PaneVars()|
      ensures LastOccurrence(PaneVars(), i)
    {
      if i < 6 {
        PaneVarsDistinctFrom0(i);
      } else if i < 12 {
        PaneVarsDistinctFrom6(i);
      } else if i < 18 {
        PaneVarsDistinctFrom12(i);
      } else if i < 24 {
        PaneVarsDistinctFrom18(i);
      } else if i < 30 {
        PaneVarsDistinctFrom24(i);
      } else if i < 36 {
        PaneVarsDistinctFrom30(i);
      } else {
        PaneVarsDistinctFrom36(i);
      }
    }
  }

  lemma PaneVarsDistinctFrom0(i: int)
    requires 0 <= i < 6
    ensures LastOccurrence(PaneVars(), i)
  {
  }

  lemma PaneVarsDistinctFrom6(i: int)
    requires 6 <= i < 12
    ensures LastOccurrence(PaneVars(), i)
  {
  }

  lemma PaneVarsDistinctFrom12(i: int)
    requires 12 <= i < 18
    ensures LastOccurrence(PaneVars(), i)
  {
  }

  lemma PaneVarsDistinctFrom18(i: int)
    requires 18 <= i < 24
    ensures LastOccurrence(PaneVars(), i)
  {
  }

  lemma PaneVarsDistinctFrom24(i: int)
    requires 24 <= i < 30
    ensures LastOccurrence(PaneVars(), i)
  {
  }

  lemma PaneVarsDistinctFrom30(i: int)
    requires 30 <= i < 36
    ensures LastOccurrence(PaneVars(), i)
  {
  }

  lemma PaneVarsDistinctFrom36(i: int)
    requires 36 <= i < 39
    ensures LastOccurrence(PaneVars(), i)
  {
  }

  /** No requested name contains `}`, so each `#{name}` reference closes where it should. */
  lemma PaneVarsBraceFree()
    ensures forall i :: 0 <= i < |PaneVars()| ==> '}' !in PaneVars()[i]
  {
    forall i | 0 <= i < |PaneVars()|
      ensures '}' !in PaneVars()[i]
    {
      if i < 6 {
        PaneVarsBraceFreeFrom0(i);
      } else if i < 12 {
        PaneVarsBraceFreeFrom6(i);
      } else if i < 18 {
        PaneVarsBraceFreeFrom12(i);
      } else if i < 24 {
        PaneVarsBraceFreeFrom18(i);
      } else if i < 30 {
        PaneVarsBraceFreeFrom24(i);
      } else if i < 36 {
        PaneVarsBraceFreeFrom30(i);
      } else {
        PaneVarsBraceFreeFrom36(i);
      }
    }
  }

  lemma PaneVarsBraceFreeFrom0(i: int)
    requires 0 <= i < 6
    ensures '}' !in PaneVars()[i]
  {
  }

  lemma PaneVarsBraceFreeFrom6(i: int)
    requires 6 <= i < 12
    ensures '}' !in PaneVars()[i]
  {
  }

  lemma PaneVarsBraceFreeFrom12(i: int)
    requires 12 <= i < 18
    ensures '}' !in PaneVars()[i]
  {
  }

  lemma PaneVarsBraceFreeFrom18(i: int)
    requires 18 <= i < 24
    ensures '}' !in PaneVars()[i]
  {
  }

  lemma PaneVarsBraceFreeFrom24(i: int)
    requires 24 <= i < 30
    ensures '}' !in PaneVars()[i]
  {
  }

  lemma PaneVarsBraceFreeFrom30(i: int)
    requires 30 <= i < 36
    ensures '}' !in PaneVars()[i]
  {
  }

  lemma PaneVarsBraceFreeFrom36(i: int)
    requires 36 <= i < 39
    ensures '}' !in PaneVars()[i]
  {
  }

  /** A tmux pane, as the binding reads it; `tmux` is the handle it was read through. */
  datatype Pane = Pane(
    active: bool,
    atBottom: bool,
    atLeft: bool,
    atRight: bool,
    atTop: bool,
    bg: string,
    bottom: string,
    currentCommand: string,
    currentPath: string,
    dead: bool,
    deadSignal: int,
    deadStatus: int,
    deadTime: string,
    fg: string,
    format: bool,
    height: int,
    id: string,
    inMode: bool,
    index: int,
    inputOff: bool,
    last: bool,
    left: string,
    marked: bool,
    markedSet: bool,
    mode: string,
    path: string,
    pid: int,
    pipe: bool,
    right: string,
    searchString: string,
    startCommand: string,
    startPath: string,
    synchronized: bool,
    tabs: string,
    title: string,
    top: string,
    tty: string,
    unseenChanges: bool,
    width: int,
    tmux: Tmux)

  /**
   `toPane`: reads each field from its variable. Numbers that do not parse
   read as 0, booleans are true only for `1`, and text is taken verbatim;
   a missing variable reads as the empty value.
   */
  function ToPane(r: Record, t: Tmux): (p: Pane)
    ensures p.active <==> Get(r, PaneActive) == "1"
    ensures p.atBottom <==> Get(r, PaneAtBottom) == "1"
    ensures p.atLeft <==> Get(r, PaneAtLeft) == "1"
    ensures p.atRight <==> Get(r, PaneAtRight) == "1"
    ensures p.atTop <==> Get(r, PaneAtTop) == "1"
    ensures p.bg == Get(r, PaneBg)
    ensures p.bottom == Get(r, PaneBottom)
    ensures p.currentCommand == Get(r, PaneCurrentCommand)
    ensures p.currentPath == Get(r, PaneCurrentPath)
    ensures p.dead <==> Get(r, PaneDead) == "1"
    ensures !IsDecimal(Get(r, PaneDeadSignal)) ==> p.deadSignal == 0
    ensures IsDecimal(Get(r, PaneDeadSignal)) && InInt64(SignedValue(Get(r, PaneDeadSignal))) ==> p.deadSignal == SignedValue(Get(r, PaneDeadSignal))
    ensures !IsDecimal(Get(r, PaneDeadStatus)) ==> p.deadStatus == 0
    ensures IsDecimal(Get(r, PaneDeadStatus)) && InInt64(SignedValue(Get(r, PaneDeadStatus))) ==> p.deadStatus == SignedValue(Get(r, PaneDeadStatus))
    ensures p.deadTime == Get(r, PaneDeadTime)
    ensures p.fg == Get(r, PaneFg)
    ensures p.format <==> Get(r, PaneFormat) == "1"
    ensures !IsDecimal(Get(r, PaneHeight)) ==> p.height == 0
    ensures IsDecimal(Get(r, PaneHeight)) && InInt64(SignedValue(Get(r, PaneHeight))) ==> p.height == SignedValue(Get(r, PaneHeight))
    ensures p.id == Get(r, PaneId)
    ensures p.inMode <==> Get(r, PaneInMode) == "1"
    ensures !IsDecimal(Get(r, PaneIndex)) ==> p.index == 0
    ensures IsDecimal(Get(r, PaneIndex)) && InInt64(SignedValue(Get(r, PaneIndex))) ==> p.index == SignedValue(Get(r, PaneIndex))
    ensures p.inputOff <==> Get(r, PaneInputOff) == "1"
    ensures p.last <==> Get(r, PaneLast) == "1"
    ensures p.left == Get(r, PaneLeft)
    ensures p.marked <==> Get(r, PaneMarked) == "1"
    ensures p.markedSet <==> Get(r, PaneMarkedSet) == "1"
    ensures p.mode == Get(r, PaneMode)
    ensures p.path == Get(r, PanePath)
    ensures InInt32(p.pid) && (!IsDecimal(Get(r, PanePid)) ==> p.pid == 0)
    ensures IsDecimal(Get(r, PanePid)) && InInt32(SignedValue(Get(r, PanePid))) ==> p.pid == SignedValue(Get(r, PanePid))
    ensures p.pipe <==> Get(r, PanePipe) == "1"
    ensures p.right == Get(r, PaneRight)
    ensures p.searchString == Get(r, PaneSearchString)
    ensures p.startCommand == Get(r, PaneStartCommand)
    ensures p.startPath == Get(r, PaneStartPath)
    ensures p.synchronized <==> Get(r, PaneSynchronized) == "1"
    ensures p.tabs == Get(r, PaneTabs)
    ensures p.title == Get(r, PaneTitle)
    ensures p.top == Get(r, PaneTop)
    ensures p.tty == Get(r, PaneTty)
    ensures p.unseenChanges <==> Get(r, PaneUnseenChanges) == "1"
    ensures !IsDecimal(Get(r, PaneWidth)) ==> p.width == 0
    ensures IsDecimal(Get(r, PaneWidth)) && InInt64(SignedValue(Get(r, PaneWidth))) ==> p.width == SignedValue(Get(r, PaneWidth))
    ensures p.tmux == t
  {
    Pane(
      IsOne(Get(r, PaneActive)),
      IsOne(Get(r, PaneAtBottom)),
      IsOne(Get(r, PaneAtLeft)),
      IsOne(Get(r, PaneAtRight)),
      IsOne(Get(r, PaneAtTop)),
      Get(r, PaneBg),
      Get(r, PaneBottom),
      Get(r, PaneCurrentCommand),
      Get(r, PaneCurrentPath),
      IsOne(Get(r, PaneDead)),
      Atoi(Get(r, PaneDeadSignal)),
      Atoi(Get(r, PaneDeadStatus)),
      Get(r, PaneDeadTime),
      Get(r, PaneFg),
      IsOne(Get(r, PaneFormat)),
      Atoi(Get(r, PaneHeight)),
      Get(r, PaneId),
      IsOne(Get(r, PaneInMode)),
      Atoi(Get(r, PaneIndex)),
      IsOne(Get(r, PaneInputOff)),
      IsOne(Get(r, PaneLast)),
      Get(r, PaneLeft),
      IsOne(Get(r, PaneMarked)),
      IsOne(Get(r, PaneMarkedSet)),
      Get(r, PaneMode),
      Get(r, PanePath),
      Int32(Atoi(Get(r, PanePid))),
      IsOne(Get(r, PanePipe)),
      Get(r, PaneRight),
      Get(r, PaneSearchString),
      Get(r, PaneStartCommand),
      Get(r, PaneStartPath),
      IsOne(Get(r, PaneSynchronized)),
      Get(r, PaneTabs),
      Get(r, PaneTitle),
      Get(r, PaneTop),
      Get(r, PaneTty),
      IsOne(Get(r, PaneUnseenChanges)),
      Atoi(Get(r, PaneWidth)),
      t)
  }

  /** The value of the position-`k` variable of a tmux pane. */
  function PaneField(p: Pane, k: int): Value
    requires 0 <= k < 39
  {
    if k == 0 then Switch(p.active)
    else if k == 1 then Switch(p.atBottom)
    else if k == 2 then Switch(p.atLeft)
    else if k == 3 then Switch(p.atRight)
    else if k == 4 then Switch(p.atTop)
    else if k == 5 then Text(p.bg)
    else if k == 6 then Text(p.bottom)
    else if k == 7 then Text(p.currentCommand)
    else if k == 8 then Text(p.currentPath)
    else if k == 9 then Switch(p.dead)
    else if k == 10 then Number(p.deadSignal)
    else if k == 11 then Number(p.deadStatus)
    else if k == 12 then Text(p.deadTime)
    else if k == 13 then Text(p.fg)
    else if k == 14 then Switch(p.format)
    else if k == 15 then Number(p.height)
    else if k == 16 then Text(p.id)
    else if k == 17 then Switch(p.inMode)
    else if k == 18 then Number(p.index)
    else if k == 19 then Switch(p.inputOff)
    else if k == 20 then Switch(p.last)
    else if k == 21 then Text(p.left)
    else if k == 22 then Switch(p.marked)
    else if k == 23 then Switch(p.markedSet)
    else if k == 24 then Text(p.mode)
    else if k == 25 then Text(p.path)
    else if k == 26 then Number(p.pid)
    else if k == 27 then Switch(p.pipe)
    else if k == 28 then Text(p.right)
    else if k == 29 then Text(p.searchString)
    else if k == 30 then Text(p.startCommand)
    else if k == 31 then Text(p.startPath)
    else if k == 32 then Switch(p.synchronized)
    else if k == 33 then Text(p.tabs)
    else if k == 34 then Text(p.title)
    else if k == 35 then Text(p.top)
    else if k == 36 then Text(p.tty)
    else if k == 37 then Switch(p.unseenChanges)
    else Number(p.width)
  }

  /** How tmux prints a tmux pane's variables, in request order. */
  function EncodePane(p: Pane): (e: seq<string>)
    ensures |e| == |PaneVars()|
  {
    seq(39, k requires 0 <= k < 39 => Printed(PaneField(p, k)))
  }

  /** A tmux pane tmux can print so that it reads back unchanged. */
  predicate ReadablePane(p: Pane)
  {
    && Plain(p.bg)
    && Plain(p.bottom)
    && Plain(p.currentCommand)
    && Plain(p.currentPath)
    && InInt64(p.deadSignal)
    && InInt64(p.deadStatus)
    && Plain(p.deadTime)
    && Plain(p.fg)
    && InInt64(p.height)
    && Plain(p.id)
    && InInt64(p.index)
    && Plain(p.left)
    && Plain(p.mode)
    && Plain(p.path)
    && InInt32(p.pid)
    && Plain(p.right)
    && Plain(p.searchString)
    && Plain(p.startCommand)
    && Plain(p.startPath)
    && Plain(p.tabs)
    && Plain(p.title)
    && Plain(p.top)
    && Plain(p.tty)
    && InInt64(p.width)
  }

  /** The printed row of a readable pane splits back into its values. */
  lemma PaneRowValues(p: Pane)
    requires ReadablePane(p)
    ensures RowValues(EncodePane(p))
  {
    var e := EncodePane(p);
    PanePlainFrom0(p);
    PanePlainFrom3(p);
    PanePlainFrom6(p);
    PanePlainFrom9(p);
    PanePlainFrom12(p);
    PanePlainFrom15(p);
    PanePlainFrom18(p);
    PanePlainFrom21(p);
    PanePlainFrom24(p);
    PanePlainFrom27(p);
    PanePlainFrom30(p);
    PanePlainFrom33(p);
    PanePlainFrom36(p);
    PlainRow(e);
  }

  lemma PanePlainFrom0(p: Pane)
    requires ReadablePane(p)
    ensures forall k :: 0 <= k < 3 ==> Plain(EncodePane(p)[k])
  {
  }

  lemma PanePlainFrom3(p: Pane)
    requires ReadablePane(p)
    ensures forall k :: 3 <= k < 6 ==> Plain(EncodePane(p)[k])
  {
  }

  lemma PanePlainFrom6(p: Pane)
    requires ReadablePane(p)
    ensures forall k :: 6 <= k < 9 ==> Plain(EncodePane(p)[k])
  {
  }

  lemma PanePlainFrom9(p: Pane)
    requires ReadablePane(p)
    ensures forall k :: 9 <= k < 12 ==> Plain(EncodePane(p)[k])
  {
  }

  lemma PanePlainFrom12(p: Pane)
    requires ReadablePane(p)
    ensures forall k :: 12 <= k < 15 ==> Plain(EncodePane(p)[k])
  {
  }

  lemma PanePlainFrom15(p: Pane)
    requires ReadablePane(p)
    ensures forall k :: 15 <= k < 18 ==> Plain(EncodePane(p)[k])
  {
  }

  lemma PanePlainFrom18(p: Pane)
    requires ReadablePane(p)
    ensures forall k :: 18 <= k < 21 ==> Plain(EncodePane(p)[k])
  {
  }

  lemma PanePlainFrom21(p: Pane)
    requires ReadablePane(p)
    ensures forall k :: 21 <= k < 24 ==> Plain(EncodePane(p)[k])
  {
  }

  lemma PanePlainFrom24(p: Pane)
    requires ReadablePane(p)
    ensures forall k :: 24 <= k < 27 ==> Plain(EncodePane(p)[k])
  {
  }

  lemma PanePlainFrom27(p: Pane)
    requires ReadablePane(p)
    ensures forall k :: 27 <= k < 30 ==> Plain(EncodePane(p)[k])
  {
  }

  lemma PanePlainFrom30(p: Pane)
    requires ReadablePane(p)
    ensures forall k :: 30 <= k < 33 ==> Plain(EncodePane(p)[k])
  {
  }

  lemma PanePlainFrom33(p: Pane)
    requires ReadablePane(p)
    ensures forall k :: 33 <= k < 36 ==> Plain(EncodePane(p)[k])
  {
  }

  lemma PanePlainFrom36(p: Pane)
    requires ReadablePane(p)
    ensures forall k :: 36 <= k < 39 ==> Plain(EncodePane(p)[k])
  {
  }

  /** `r` holds, under each requested name, what tmux prints for that variable of `p`. */
  predicate HoldsPane(r: Record, p: Pane)
  {
    && Get(r, PaneActive) == Flag(p.active)
    && Get(r, PaneAtBottom) == Flag(p.atBottom)
    && Get(r, PaneAtLeft) == Flag(p.atLeft)
    && Get(r, PaneAtRight) == Flag(p.atRight)
    && Get(r, PaneAtTop) == Flag(p.atTop)
    && Get(r, PaneBg) == p.bg
    && Get(r, PaneBottom) == p.bottom
    && Get(r, PaneCurrentCommand) == p.currentCommand
    && Get(r, PaneCurrentPath) == p.currentPath
    && Get(r, PaneDead) == Flag(p.dead)
    && Get(r, PaneDeadSignal) == Itoa(p.deadSignal)
    && Get(r, PaneDeadStatus) == Itoa(p.deadStatus)
    && Get(r, PaneDeadTime) == p.deadTime
    && Get(r, PaneFg) == p.fg
    && Get(r, PaneFormat) == Flag(p.format)
    && Get(r, PaneHeight) == Itoa(p.height)
    && Get(r, PaneId) == p.id
    && Get(r, PaneInMode) == Flag(p.inMode)
    && Get(r, PaneIndex) == Itoa(p.index)
    && Get(r, PaneInputOff) == Flag(p.inputOff)
    && Get(r, PaneLast) == Flag(p.last)
    && Get(r, PaneLeft) == p.left
    && Get(r, PaneMarked) == Flag(p.marked)
    && Get(r, PaneMarkedSet) == Flag(p.markedSet)
    && Get(r, PaneMode) == p.mode
    && Get(r, PanePath) == p.path
    && Get(r, PanePid) == Itoa(p.pid)
    && Get(r, PanePipe) == Flag(p.pipe)
    && Get(r, PaneRight) == p.right
    && Get(r, PaneSearchString) == p.searchString
    && Get(r, PaneStartCommand) == p.startCommand
    && Get(r, PaneStartPath) == p.startPath
    && Get(r, PaneSynchronized) == Flag(p.synchronized)
    && Get(r, PaneTabs) == p.tabs
    && Get(r, PaneTitle) == p.title
    && Get(r, PaneTop) == p.top
    && Get(r, PaneTty) == p.tty
    && Get(r, PaneUnseenChanges) == Flag(p.unseenChanges)
    && Get(r, PaneWidth) == Itoa(p.width)
  }

  /** Round trip: a readable pane, printed by tmux and zipped to its names, decodes to itself. */
  lemma PaneRoundTrip(p: Pane)
    requires ReadablePane(p)
    ensures ToPane(Zip(PaneVars(), EncodePane(p)), p.tmux) == p
  {
    var e := EncodePane(p);
    var r := Zip(PaneVars(), e);
    PaneVarsDistinct();
    forall k | 0 <= k < 39
      ensures Get(r, PaneVar(k)) == Printed(PaneField(p, k))
    {
      ZipGet(PaneVars(), e, k);
    }
    PaneHoldsFrom0(p, r);
    PaneHoldsFrom4(p, r);
    PaneHoldsFrom8(p, r);
    PaneHoldsFrom12(p, r);
    PaneHoldsFrom16(p, r);
    PaneHoldsFrom20(p, r);
    PaneHoldsFrom24(p, r);
    PaneHoldsFrom28(p, r);
    PaneHoldsFrom32(p, r);
    PaneHoldsFrom36(p, r);
    PaneReads(p, r);
  }

  lemma PaneHoldsFrom0(p: Pane, r: Record)
    requires forall k :: 0 <= k < 39 ==> Get(r, PaneVar(k)) == Printed(PaneField(p, k))
    ensures Get(r, PaneActive) == Flag(p.active)
      && Get(r, PaneAtBottom) == Flag(p.atBottom)
      && Get(r, PaneAtLeft) == Flag(p.atLeft)
      && Get(r, PaneAtRight) == Flag(p.atRight)
  {
    assert Get(r, PaneVar(0)) == Printed(PaneField(p, 0));
    assert Get(r, PaneVar(1)) == Printed(PaneField(p, 1));
    assert Get(r, PaneVar(2)) == Printed(PaneField(p, 2));
    assert Get(r, PaneVar(3)) == Printed(PaneField(p, 3));
  }

  lemma PaneHoldsFrom4(p: Pane, r: Record)
    requires forall k :: 0 <= k < 39 ==> Get(r, PaneVar(k)) == Printed(PaneField(p, k))
    ensures Get(r, PaneAtTop) == Flag(p.atTop)
      && Get(r, PaneBg) == p.bg
      && Get(r, PaneBottom) == p.bottom
      && Get(r, PaneCurrentCommand) == p.currentCommand
  {
    assert Get(r, PaneVar(4)) == Printed(PaneField(p, 4));
    assert Get(r, PaneVar(5)) == Printed(PaneField(p, 5));
    assert Get(r, PaneVar(6)) == Printed(PaneField(p, 6));
    assert Get(r, PaneVar(7)) == Printed(PaneField(p, 7));
  }

  lemma PaneHoldsFrom8(p: Pane, r: Record)
    requires forall k :: 0 <= k < 39 ==> Get(r, PaneVar(k)) == Printed(PaneField(p, k))
    ensures Get(r, PaneCurrentPath) == p.currentPath
      && Get(r, PaneDead) == Flag(p.dead)
      && Get(r, PaneDeadSignal) == Itoa(p.deadSignal)
      && Get(r, PaneDeadStatus) == Itoa(p.deadStatus)
  {
    assert Get(r, PaneVar(8)) == Printed(PaneField(p, 8));
    assert Get(r, PaneVar(9)) == Printed(PaneField(p, 9));
    assert Get(r, PaneVar(10)) == Printed(PaneField(p, 10));
    assert Get(r, PaneVar(11)) == Printed(PaneField(p, 11));
  }

  lemma PaneHoldsFrom12(p: Pane, r: Record)
    requires forall k :: 0 <= k < 39 ==> Get(r, PaneVar(k)) == Printed(PaneField(p, k))
    ensures Get(r, PaneDeadTime) == p.deadTime
      && Get(r, PaneFg) == p.fg
      && Get(r, PaneFormat) == Flag(p.format)
      && Get(r, PaneHeight) == Itoa(p.height)
  {
    assert Get(r, PaneVar(12)) == Printed(PaneField(p, 12));
    assert Get(r, PaneVar(13)) == Printed(PaneField(p, 13));
    assert Get(r, PaneVar(14)) == Printed(PaneField(p, 14));
    assert Get(r, PaneVar(15)) == Printed(PaneField(p, 15));
  }

  lemma PaneHoldsFrom16(p: Pane, r: Record)
    requires forall k :: 0 <= k < 39 ==> Get(r, PaneVar(k)) == Printed(PaneField(p, k))
    ensures Get(r, PaneId) == p.id
      && Get(r, PaneInMode) == Flag(p.inMode)
      && Get(r, PaneIndex) == Itoa(p.index)
      && Get(r, PaneInputOff) == Flag(p.inputOff)
  {
    assert Get(r, PaneVar(16)) == Printed(PaneField(p, 16));
    assert Get(r, PaneVar(17)) == Printed(PaneField(p, 17));
    assert Get(r, PaneVar(18)) == Printed(PaneField(p, 18));
    assert Get(r, PaneVar(19)) == Printed(PaneField(p, 19));
  }

  lemma PaneHoldsFrom20(p: Pane, r: Record)
    requires forall k :: 0 <= k < 39 ==> Get(r, PaneVar(k)) == Printed(PaneField(p, k))
    ensures Get(r, PaneLast) == Flag(p.last)
      && Get(r, PaneLeft) == p.left
      && Get(r, PaneMarked) == Flag(p.marked)
      && Get(r, PaneMarkedSet) == Flag(p.markedSet)
  {
    assert Get(r, PaneVar(20)) == Printed(PaneField(p, 20));
    assert Get(r, PaneVar(21)) == Printed(PaneField(p, 21));
    assert Get(r, PaneVar(22)) == Printed(PaneField(p, 22));
    assert Get(r, PaneVar(23)) == Printed(PaneField(p, 23));
  }

  lemma PaneHoldsFrom24(p: Pane, r: Record)
    requires forall k :: 0 <= k < 39 ==> Get(r, PaneVar(k)) == Printed(PaneField(p, k))
    ensures Get(r, PaneMode) == p.mode
      && Get(r, PanePath) == p.path
      && Get(r, PanePid) == Itoa(p.pid)
      && Get(r, PanePipe) == Flag(p.pipe)
  {
    assert Get(r, PaneVar(24)) == Printed(PaneField(p, 24));
    assert Get(r, PaneVar(25)) == Printed(PaneField(p, 25));
    assert Get(r, PaneVar(26)) == Printed(PaneField(p, 26));
    assert Get(r, PaneVar(27)) == Printed(PaneField(p, 27));
  }

  lemma PaneHoldsFrom28(p: Pane, r: Record)
    requires forall k :: 0 <= k < 39 ==> Get(r, PaneVar(k)) == Printed(PaneField(p, k))
    ensures Get(r, PaneRight) == p.right
      && Get(r, PaneSearchString) == p.searchString
      && Get(r, PaneStartCommand) == p.startCommand
      && Get(r, PaneStartPath) == p.startPath
  {
    assert Get(r, PaneVar(28)) == Printed(PaneField(p, 28));
    assert Get(r, PaneVar(29)) == Printed(PaneField(p, 29));
    assert Get(r, PaneVar(30)) == Printed(PaneField(p, 30));
    assert Get(r, PaneVar(31)) == Printed(PaneField(p, 31));
  }

  lemma PaneHoldsFrom32(p: Pane, r: Record)
    requires forall k :: 0 <= k < 39 ==> Get(r, PaneVar(k)) == Printed(PaneField(p, k))
    ensures Get(r, PaneSynchronized) == Flag(p.synchronized)
      && Get(r, PaneTabs) == p.tabs
      && Get(r, PaneTitle) == p.title
      && Get(r, PaneTop) == p.top
  {
    assert Get(r, PaneVar(32)) == Printed(PaneField(p, 32));
    assert Get(r, PaneVar(33)) == Printed(PaneField(p, 33));
    assert Get(r, PaneVar(34)) == Printed(PaneField(p, 34));
    assert Get(r, PaneVar(35)) == Printed(PaneField(p, 35));
  }

  lemma PaneHoldsFrom36(p: Pane, r: Record)
    requires forall k :: 0 <= k < 39 ==> Get(r, PaneVar(k)) == Printed(PaneField(p, k))
    ensures Get(r, PaneTty) == p.tty
      && Get(r, PaneUnseenChanges) == Flag(p.unseenChanges)
      && Get(r, PaneWidth) == Itoa(p.width)
  {
    assert Get(r, PaneVar(36)) == Printed(PaneField(p, 36));
    assert Get(r, PaneVar(37)) == Printed(PaneField(p, 37));
    assert Get(r, PaneVar(38)) == Printed(PaneField(p, 38));
  }

  /** A record holding what tmux prints for a readable pane decodes to that pane. */
  lemma PaneReads(p: Pane, r: Record)
    requires ReadablePane(p) && HoldsPane(r, p)
    ensures ToPane(r, p.tmux) == p
  {
    PaneReadsFrom0(p, r);
    PaneReadsFrom6(p, r);
    PaneReadsFrom12(p, r);
    PaneReadsFrom18(p, r);
    PaneReadsFrom24(p, r);
    PaneReadsFrom30(p, r);
    PaneReadsFrom36(p, r);
  }

  lemma PaneReadsFrom0(p: Pane, r: Record)
    requires ReadablePane(p) && HoldsPane(r, p)
    ensures var d := ToPane(r, p.tmux);
      d.active == p.active && d.atBottom == p.atBottom && d.atLeft == p.atLeft
      && d.atRight == p.atRight && d.atTop == p.atTop && d.bg == p.bg
      && d.tmux == p.tmux
  {
  }

  lemma PaneReadsFrom6(p: Pane, r: Record)
    requires ReadablePane(p) && HoldsPane(r, p)
    ensures var d := ToPane(r, p.tmux);
      d.bottom == p.bottom && d.currentCommand == p.currentCommand && d.currentPath == p.currentPath
      && d.dead == p.dead && d.deadSignal == p.deadSignal && d.deadStatus == p.deadStatus
  {
    AtoiReadsBack(Get(r, PaneDeadSignal), p.deadSignal);
    AtoiReadsBack(Get(r, PaneDeadStatus), p.deadStatus);
  }

  lemma PaneReadsFrom12(p: Pane, r: Record)
    requires ReadablePane(p) && HoldsPane(r, p)
    ensures var d := ToPane(r, p.tmux);
      d.deadTime == p.deadTime && d.fg == p.fg && d.format == p.format
      && d.height == p.height && d.id == p.id && d.inMode == p.inMode
  {
    AtoiReadsBack(Get(r, PaneHeight), p.height);
  }

  lemma PaneReadsFrom18(p: Pane, r: Record)
    requires ReadablePane(p) && HoldsPane(r, p)
    ensures var d := ToPane(r, p.tmux);
      d.index == p.index && d.inputOff == p.inputOff && d.last == p.last
      && d.left == p.left && d.marked == p.marked && d.markedSet == p.markedSet
  {
    AtoiReadsBack(Get(r, PaneIndex), p.index);
  }

  lemma PaneReadsFrom24(p: Pane, r: Record)
    requires ReadablePane(p) && HoldsPane(r, p)
    ensures var d := ToPane(r, p.tmux);
      d.mode == p.mode && d.path == p.path && d.pid == p.pid
      && d.pipe == p.pipe && d.right == p.right && d.searchString == p.searchString
  {
    Int32ReadsBack(Get(r, PanePid), p.pid);
  }

  lemma PaneReadsFrom30(p: Pane, r: Record)
    requires ReadablePane(p) && HoldsPane(r, p)
    ensures var d := ToPane(r, p.tmux);
      d.startCommand == p.startCommand && d.startPath == p.startPath && d.synchronized == p.synchronized
      && d.tabs == p.tabs && d.title == p.title && d.top == p.top
  {
  }

  lemma PaneReadsFrom36(p: Pane, r: Record)
    requires ReadablePane(p) && HoldsPane(r, p)
    ensures var d := ToPane(r, p.tmux);
      d.tty == p.tty && d.unseenChanges == p.unseenChanges && d.width == p.width
  {
    AtoiReadsBack(Get(r, PaneWidth), p.width);
  }

  /** Decoding is total: a record holding none of the names gives the zero pane. */
  lemma PaneDefaults(t: Tmux)
    ensures ToPane(map[], t) == Pane(false, false, false, false, false, "", "", "", "", false, 0, 0, "", "", false, 0, "", false, 0, false, false, "", false, false, "", "", 0, false, "", "", "", "", false, "", "", "", "", false, 0, t)
  {
  }

  /** How tmux prints a list of panes: one row per pane. */
  function PaneRows(xs: seq<Pane>): (rows: seq<seq<string>>)
    ensures |rows| == |xs|
    ensures forall i :: 0 <= i < |xs| ==> rows[i] == EncodePane(xs[i])
  {
    seq(|xs|, i requires 0 <= i < |xs| => EncodePane(xs[i]))
  }

  /** The decoder a listing through handle `t` applies to each record. */
  function PaneDecoder(t: Tmux): Record -> Pane
  {
    r => ToPane(r, t)
  }

  /**
   Listing round trip: the rows tmux prints for readable panes, all read
   through handle `t`, decode back to those panes, in order.
   */
  lemma PanesListed(xs: seq<Pane>, t: Tmux)
    requires forall i :: 0 <= i < |xs| ==> ReadablePane(xs[i]) && xs[i].tmux == t
    ensures DecodeAll(Output(Table(PaneRows(xs)), PaneVars()), PaneDecoder(t)) == Ok(xs)
  {
    var rows := PaneRows(xs);
    forall k | 0 <= k < |rows|
      ensures |rows[k]| == |PaneVars()| && RowValues(rows[k])
      ensures PaneDecoder(t)(Zip(PaneVars(), rows[k])) == xs[k]
    {
      PaneRowValues(xs[k]);
      PaneRoundTrip(xs[k]);
    }
    DecodeTable(PaneVars(), rows, PaneDecoder(t), xs);
  }

  // ---------------------------------------------------------------------
  // Listing panes

  /** The query of `Tmux.ListAllPanes`: `list-panes -a`, formatted with the pane variables. */
  function ListAllPanesQuery(t: Tmux): (q: Query)
    ensures q.command == SocketPrefix(t) + ["list-panes"]
    ensures q.fArgs == ["-a"] && q.pArgs == []
    ensures q.variables == PaneVars()
  {
    Vars(FArgs(Cmd(TmuxQuery(t), ["list-panes"]), ["-a"]), PaneVars())
  }

  /** `Tmux.ListAllPanes`: the panes of the whole server, each decoded with handle `t`. */
  function ListAllPanes(t: Tmux, run: Runner): (r: Result<seq<Pane>>)
    ensures Run(ListAllPanesQuery(t), run).Failed? <==> r == Err(CommandFailed("failed to list all panes"))
    ensures Run(ListAllPanesQuery(t), run).Ran? ==> r == DecodeAll(Output(Run(ListAllPanesQuery(t), run).stdout, PaneVars()), PaneDecoder(t))
  {
    ListOf(ListAllPanesQuery(t), run, "failed to list all panes", PaneDecoder(t))
  }

  /** Listing all the panes tmux printed gives back exactly those panes, in order. */
  lemma ListAllPanesReads(t: Tmux, ps: seq<Pane>, run: Runner)
    requires forall i :: 0 <= i < |ps| ==> ReadablePane(ps[i]) && ps[i].tmux == t
    requires Run(ListAllPanesQuery(t), run) == Ran(Table(PaneRows(ps)))
    ensures ListAllPanes(t, run) == Ok(ps)
  {
    PanesListed(ps, t);
  }

  // ---------------------------------------------------------------------
  // Selecting a pane

  /** A relative position, as the binding's `PanePosition` string type: the flag itself. */
  type PanePosition = string

  const PanePositionUp: PanePosition := "-U"
  const PanePositionRight: PanePosition := "-R"
  const PanePositionDown: PanePosition := "-D"
  const PanePositionLeft: PanePosition := "-L"

  /** No position, or one of the four named ones. */
  predicate KnownPosition(pos: PanePosition)
  {
    pos in {"", PanePositionUp, PanePositionRight, PanePositionDown, PanePositionLeft}
  }

  /** Options of `Pane.SelectPane`. */
  datatype SelectPaneOptions = SelectPaneOptions(targetPosition: PanePosition)

  const NoSelectPaneOptions := SelectPaneOptions("")

  /** The query of `Pane.SelectPane`: target the pane, then the position flag when one is given. */
  function SelectPaneQuery(p: Pane, op: Option<SelectPaneOptions>): (q: Query)
    ensures q.command == SocketPrefix(p.tmux) + ["select-pane"]
    ensures var o := GetOr(op, NoSelectPaneOptions);
      q.fArgs == ["-t", p.id] + (if o.targetPosition != "" then [o.targetPosition] else [])
    ensures op.None? ==> q.fArgs == ["-t", p.id]
    ensures q.pArgs == [] && q.variables == []
  {
    var q := FArgs(Cmd(TmuxQuery(p.tmux), ["select-pane"]), ["-t", p.id]);
    match op
    case None => q
    case Some(o) => if o.targetPosition != "" then FArgs(q, [o.targetPosition]) else q
  }

  /** tmux reads the target and, for a named position, that position as a switch. */
  lemma SelectPaneFlags(p: Pane, op: Option<SelectPaneOptions>)
    requires KnownPosition(GetOr(op, NoSelectPaneOptions).targetPosition)
    ensures var pos := GetOr(op, NoSelectPaneOptions).targetPosition;
      Read(SelectPaneQuery(p, op).fArgs, {"-t"}) == Some(Flagged(map["-t" := p.id], pos != "", pos, ""))
  {
    var pos := GetOr(op, NoSelectPaneOptions).targetPosition;
    var a := ["-t", p.id];
    var b := if pos != "" then [pos] else [];
    ReadStep(map[], [], a, {"-t"});
    assert [] + a == a;
    ReadStep(map[], a, b, {"-t"});
  }

  /** `Pane.SelectPane`. */
  function SelectPane(p: Pane, op: Option<SelectPaneOptions>, run: Runner): (r: Result<()>)
    ensures r.Ok? <==> Run(SelectPaneQuery(p, op), run).Ran?
    ensures r.Err? ==> r.error == CommandFailed("failed to select pane")
  {
    RunDiscard(SelectPaneQuery(p, op), run, "failed to select pane")
  }

  /** The query of `Pane.Select`: `SelectPane`'s with nil options, so only the target. */
  function SelectQuery(p: Pane): (q: Query)
    ensures q == SelectPaneQuery(p, None)
    ensures q.fArgs == ["-t", p.id]
    ensures Read(q.fArgs, {"-t"}) == Some(map["-t" := p.id])
  {
    SelectPaneFlags(p, None);
    SelectPaneQuery(p, None)
  }

  /** `Pane.Select`: selecting with the default options. */
  function Select(p: Pane, run: Runner): (r: Result<()>)
    ensures r.Ok? <==> Run(SelectQuery(p), run).Ran?
    ensures r == SelectPane(p, None, run)
  {
    SelectPane(p, None, run)
  }

  // ---------------------------------------------------------------------
  // Splitting

  /** A split direction, as the binding's `PaneSplitDirection` string type: the flag itself. */
  type PaneSplitDirection = string

  const PaneSplitDirectionHorizontal: PaneSplitDirection := "-h"
  const PaneSplitDirectionVertical: PaneSplitDirection := "-v"

  /** Options of `Pane.SplitWindow`. */
  datatype SplitWindowOptions = SplitWindowOptions(splitDirection: PaneSplitDirection, startDirectory: string, shellCommand: string)

  const NoSplitWindowOptions := SplitWindowOptions("", "", "")

  /**
   The query of `Pane.SplitWindow`: target the pane, then the direction and
   `-c dir` when given; a shell command becomes the single positional,
   wrapped in single quotes.
   */
  function SplitWindowQuery(p: Pane, op: Option<SplitWindowOptions>): (q: Query)
    ensures q.command == SocketPrefix(p.tmux) + ["split-window"]
    ensures var o := GetOr(op, NoSplitWindowOptions);
      && q.fArgs == ["-t", p.id]
        + (if o.splitDirection != "" then [o.splitDirection] else [])
        + (if o.startDirectory != "" then ["-c", o.startDirectory] else [])
      && q.pArgs == (if o.shellCommand != "" then ["'" + o.shellCommand + "'"] else [])
    ensures q.variables == []
  {
    var q := FArgs(Cmd(TmuxQuery(p.tmux), ["split-window"]), ["-t", p.id]);
    match op
    case None => q
    case Some(o) =>
      var q := if o.splitDirection != "" then FArgs(q, [o.splitDirection]) else q;
      var q := if o.startDirectory != "" then FArgs(q, ["-c", o.startDirectory]) else q;
      if o.shellCommand != "" then PArgs(q, ["'" + o.shellCommand + "'"]) else q
  }

  /** tmux reads the target, the named direction as a switch and the start directory. */
  lemma SplitWindowFlags(p: Pane, op: Option<SplitWindowOptions>)
    requires GetOr(op, NoSplitWindowOptions).splitDirection in {"", PaneSplitDirectionHorizontal, PaneSplitDirectionVertical}
    ensures var o := GetOr(op, NoSplitWindowOptions);
      Read(SplitWindowQuery(p, op).fArgs, {"-t", "-c"})
        == Some(Flagged(Flagged(map["-t" := p.id], o.splitDirection != "", o.splitDirection, ""),
             o.startDirectory != "", "-c", o.startDirectory))
  {
    var o := GetOr(op, NoSplitWindowOptions);
    var V: set<string> := {"-t", "-c"};
    var a := ["-t", p.id];
    var b := if o.splitDirection != "" then [o.splitDirection] else [];
    var c := if o.startDirectory != "" then ["-c", o.startDirectory] else [];
    ReadStep(map[], [], a, V);
    assert [] + a == a;
    ReadStep(map[], a, b, V);
    ReadStep(map[], a + b, c, V);
  }

  /** `Pane.SplitWindow`. */
  function SplitWindow(p: Pane, op: Option<SplitWindowOptions>, run: Runner): (r: Result<()>)
    ensures r.Ok? <==> Run(SplitWindowQuery(p, op), run).Ran?
    ensures r.Err? ==> r.error == CommandFailed("failed to split pane")
  {
    RunDiscard(SplitWindowQuery(p, op), run, "failed to split pane")
  }

  // ---------------------------------------------------------------------
  // Choose-tree mode

  /** Options of `Pane.ChooseTree`. */
  datatype ChooseTreeOptions = ChooseTreeOptions(sessionsCollapsed: bool, windowsCollapsed: bool)

  const NoChooseTreeOptions := ChooseTreeOptions(false, false)

  /** The query of `Pane.ChooseTree`: target the pane, then `-s` and `-w` for collapsed sessions and windows. */
  function ChooseTreeQuery(p: Pane, op: Option<ChooseTreeOptions>): (q: Query)
    ensures q.command == SocketPrefix(p.tmux) + ["choose-tree"]
    ensures var o := GetOr(op, NoChooseTreeOptions);
      q.fArgs == ["-t", p.id]
        + (if o.sessionsCollapsed then ["-s"] else [])
        + (if o.windowsCollapsed then ["-w"] else [])
    ensures q.pArgs == [] && q.variables == []
  {
    var q := FArgs(Cmd(TmuxQuery(p.tmux), ["choose-tree"]), ["-t", p.id]);
    match op
    case None => q
    case Some(o) =>
      var q := if o.sessionsCollapsed then FArgs(q, ["-s"]) else q;
      if o.windowsCollapsed then FArgs(q, ["-w"]) else q
  }

  /** tmux reads the target and one switch per collapsed level. */
  lemma ChooseTreeFlags(p: Pane, op: Option<ChooseTreeOptions>)
    ensures var o := GetOr(op, NoChooseTreeOptions);
      Read(ChooseTreeQuery(p, op).fArgs, {"-t"})
        == Some(Flagged(Flagged(map["-t" := p.id], o.sessionsCollapsed, "-s", ""), o.windowsCollapsed, "-w", ""))
  {
    var o := GetOr(op, NoChooseTreeOptions);
    var a := ["-t", p.id];
    var b := if o.sessionsCollapsed then ["-s"] else [];
    var c := if o.windowsCollapsed then ["-w"] else [];
    ReadStep(map[], [], a, {"-t"});
    assert [] + a == a;
    ReadStep(map[], a, b, {"-t"});
    ReadStep(map[], a + b, c, {"-t"});
  }

  /** `Pane.ChooseTree`. */
  function ChooseTree(p: Pane, op: Option<ChooseTreeOptions>, run: Runner): (r: Result<()>)
    ensures r.Ok? <==> Run(ChooseTreeQuery(p, op), run).Ran?
    ensures r.Err? ==> r.error == CommandFailed("failed to put the pane in choose tree mode")
  {
    RunDiscard(ChooseTreeQuery(p, op), run, "failed to put the pane in choose tree mode")
  }

  // ---------------------------------------------------------------------
  // Capturing

  /** Options of `Pane.CapturePane`. */
  datatype CaptureOptions = CaptureOptions(
    escTxtNBgAttr: bool,
    escNonPrintables: bool,
    ignoreTrailing: bool,
    preserveTrailing: bool,
    preserveAndJoin: bool)

  const NoCaptureOptions := CaptureOptions(false, false, false, false, false)

  /** The switches every capture starts with: target the pane, print to standard output. */
  function CaptureStart(p: Pane): (q: Query)
    ensures q.command == SocketPrefix(p.tmux) + ["capture-pane"]
    ensures q.fArgs == ["-t", p.id, "-p"] && q.pArgs == [] && q.variables == []
  {
    FArgs(FArgs(Cmd(TmuxQuery(p.tmux), ["capture-pane"]), ["-t", p.id]), ["-p"])
  }

  /** The escape and trimming switches `-e`, `-C`, `-T`, shared by both versions below. */
  function CaptureEscapes(q: Query, o: CaptureOptions): (r: Query)
    ensures r.command == q.command && r.pArgs == q.pArgs && r.variables == q.variables
    ensures r.fArgs == q.fArgs + Given(o.escTxtNBgAttr, ["-e"]) + Given(o.escNonPrintables, ["-C"])
      + Given(o.ignoreTrailing, ["-T"])
  {
    FArgsIf(FArgsIf(FArgsIf(q, o.escTxtNBgAttr, ["-e"]), o.escNonPrintables, ["-C"]), o.ignoreTrailing, ["-T"])
  }

  /**
   The query `Pane.CapturePane` builds as written: the test guarding `-J`
   reads `PreserveTrailing` a second time, so `PreserveTrailing` adds both
   `-N` and `-J` and `PreserveAndJoin` adds nothing.
   */
  function CapturePaneQueryAsWritten(p: Pane, op: Option<CaptureOptions>): (q: Query)
    ensures q.command == SocketPrefix(p.tmux) + ["capture-pane"]
    ensures q.pArgs == [] && q.variables == []
    ensures var o := GetOr(op, NoCaptureOptions);
      q.fArgs == ["-t", p.id, "-p"] + Given(o.escTxtNBgAttr, ["-e"]) + Given(o.escNonPrintables, ["-C"])
        + Given(o.ignoreTrailing, ["-T"]) + Given(o.preserveTrailing, ["-N"]) + Given(o.preserveTrailing, ["-J"])
  {
    var q := CaptureStart(p);
    match op
    case None => q
    case Some(o) =>
      FArgsIf(FArgsIf(CaptureEscapes(q, o), o.preserveTrailing, ["-N"]), o.preserveTrailing, ["-J"])
  }

  /**
   As written, `PreserveAndJoin` changes nothing in the query, and
   `PreserveTrailing` alone asks tmux to join wrapped lines as well.
   */
  lemma CaptureJoinAsWritten(p: Pane, o: CaptureOptions)
    ensures CapturePaneQueryAsWritten(p, Some(o.(preserveAndJoin := true)))
      == CapturePaneQueryAsWritten(p, Some(o.(preserveAndJoin := false)))
    ensures CapturePaneQueryAsWritten(p, Some(NoCaptureOptions.(preserveAndJoin := true))).fArgs == ["-t", p.id, "-p"]
    ensures CapturePaneQueryAsWritten(p, Some(NoCaptureOptions.(preserveTrailing := true))).fArgs
      == ["-t", p.id, "-p", "-N", "-J"]
  {
  }

  /**
   The query `Pane.CapturePane` evidently means to build, each option adding its own switch:
   `-e`, `-C`, `-T`, then `-N` for `PreserveTrailing` and `-J` for
   `PreserveAndJoin`.
   */
  function CapturePaneQuery(p: Pane, op: Option<CaptureOptions>): (q: Query)
    ensures q.command == SocketPrefix(p.tmux) + ["capture-pane"]
    ensures var o := GetOr(op, NoCaptureOptions);
      q.fArgs == ["-t", p.id, "-p"] + Given(o.escTxtNBgAttr, ["-e"]) + Given(o.escNonPrintables, ["-C"])
        + Given(o.ignoreTrailing, ["-T"]) + Given(o.preserveTrailing, ["-N"]) + Given(o.preserveAndJoin, ["-J"])
    ensures q.pArgs == [] && q.variables == []
  {
    var q := CaptureStart(p);
    match op
    case None => q
    case Some(o) =>
      FArgsIf(FArgsIf(CaptureEscapes(q, o), o.preserveTrailing, ["-N"]), o.preserveAndJoin, ["-J"])
  }

  /** Corrected, each of the two options adds exactly its own switch. */
  lemma CaptureJoinCorrected(p: Pane)
    ensures CapturePaneQuery(p, Some(NoCaptureOptions.(preserveAndJoin := true))).fArgs == ["-t", p.id, "-p", "-J"]
    ensures CapturePaneQuery(p, Some(NoCaptureOptions.(preserveTrailing := true))).fArgs == ["-t", p.id, "-p", "-N"]
  {
  }

  /** tmux reads one switch per option that is set, and nothing for the others. */
  lemma CapturePaneFlags(p: Pane, op: Option<CaptureOptions>)
    ensures var o := GetOr(op, NoCaptureOptions);
      Read(CapturePaneQuery(p, op).fArgs, {"-t"})
        == Some(Flagged(Flagged(Flagged(Flagged(Flagged(map["-t" := p.id, "-p" := ""],
             o.escTxtNBgAttr, "-e", ""),
             o.escNonPrintables, "-C", ""),
             o.ignoreTrailing, "-T", ""),
             o.preserveTrailing, "-N", ""),
             o.preserveAndJoin, "-J", ""))
  {
    var o := GetOr(op, NoCaptureOptions);
    var V: set<string> := {"-t"};
    var a, b := ["-t", p.id], ["-p"];
    var c := Given(o.escTxtNBgAttr, ["-e"]);
    var d := Given(o.escNonPrintables, ["-C"]);
    var e := Given(o.ignoreTrailing, ["-T"]);
    var f := Given(o.preserveTrailing, ["-N"]);
    var g := Given(o.preserveAndJoin, ["-J"]);
    ReadStep(map[], [], a, V);
    assert [] + a == a;
    ReadStep(map[], a, b, V);
    ReadStep(map[], a + b, c, V);
    ReadStep(map[], a + b + c, d, V);
    ReadStep(map[], a + b + c + d, e, V);
    ReadStep(map[], a + b + c + d + e, f, V);
    ReadStep(map[], a + b + c + d + e + f, g, V);
    assert a + b == ["-t", p.id, "-p"];
  }

  /**
   `Pane.CapturePane`: runs the query as written and returns the unparsed
   output as the captured text.
   */
  function CapturePane(p: Pane, op: Option<CaptureOptions>, run: Runner): (r: Result<string>)
    ensures Run(CapturePaneQueryAsWritten(p, op), run).Failed? <==> r == Err(CommandFailed("failed to capture pane"))
    ensures Run(CapturePaneQueryAsWritten(p, op), run).Ran? ==> r == Ok(Run(CapturePaneQueryAsWritten(p, op), run).stdout)
  {
    match RunQuery(CapturePaneQueryAsWritten(p, op), run, "failed to capture pane")
    case Err(e) => Err(e)
    case Ok(o) => Ok(Raw(o))
  }

  /** The options `Pane.Capture` passes: escape sequences for text and background attributes only. */
  const CaptureDefaults := NoCaptureOptions.(escTxtNBgAttr := true)

  /** `Pane.Capture`: `CapturePane` with only the escape option set, so the flags are `-t <id> -p -e`. */
  function Capture(p: Pane, run: Runner): (r: Result<string>)
    ensures r == CapturePane(p, Some(CaptureDefaults), run)
    ensures CapturePaneQueryAsWritten(p, Some(CaptureDefaults)).fArgs == ["-t", p.id, "-p", "-e"]
  {
    CapturePane(p, Some(CaptureDefaults), run)
  }
}

=== FILE: parsing.dfy ===
/**
 The coercions that turn tmux's textual variable values into typed fields,
 and the session-name check applied before a session is created.
 */
module Parsing {
  import opened GoStrings
  import opened Queries

  /** tmux prints booleans as `1` and `0`; only `1` reads as true. */
  function IsOne(s: string): (r: bool)
    ensures r <==> s == "1"
  {
    s == "1"
  }

  /** How tmux prints a boolean variable. */
  function Flag(b: bool): string
  {
    if b then "1" else "0"
  }

  /** Reading back a printed boolean gives the boolean. */
  lemma IsOneFlag(b: bool)
    ensures IsOne(Flag(b)) == b
    ensures Flag(IsOne(Flag(b))) == Flag(b)
  {
  }

  /**
   Splits a comma-separated list value. Every comma starts a new element, so
   the empty value is one empty element rather than no element.
   */
  function ParseList(l: string): (r: seq<string>)
    ensures |r| == CharCount(l, ',') + 1
    ensures forall k :: 0 <= k < |r| ==> ',' !in r[k]
    ensures Join(r, ",") == l
  {
    var r := Split(l, ",");
    SplitCharCount(l, ',');
    JoinSplit(l, ",");
    forall k | 0 <= k < |r|
      ensures ',' !in r[k]
    {
      ContainsChar(r[k], ',');
    }
    r
  }

  /** A list printed with commas between comma-free elements reads back as those elements. */
  lemma ParseListJoin(parts: seq<string>)
    requires |parts| >= 1
    requires forall k :: 0 <= k < |parts| ==> ',' !in parts[k]
    ensures ParseList(Join(parts, ",")) == parts
  {
    forall k | 0 <= k < |parts|
      ensures NoMatchAcross(parts[k], ",") && !Contains(parts[k], ",")
    {
      NoMatchWithoutFirstChar(parts[k], ",");
    }
    SplitJoin(parts, ",");
  }

  /** The empty value and a value without commas. */
  lemma ParseListSingle(l: string)
    requires ',' !in l
    ensures ParseList(l) == [l]
  {
    ParseListJoin([l]);
  }

  /** A list tmux can print as one value that reads back: at least one element, each plain and comma-free. */
  predicate PlainList(l: seq<string>)
  {
    |l| >= 1 && forall k :: 0 <= k < |l| ==> Plain(l[k]) && ',' !in l[k]
  }

  /** A plain list prints as a plain value and reads back as itself. */
  lemma PlainListJoin(l: seq<string>)
    requires PlainList(l)
    ensures Plain(Join(l, ","))
    ensures ParseList(Join(l, ",")) == l
  {
    JoinAvoids(l, ",", '\'');
    JoinAvoids(l, ",", '\n');
    JoinAvoids(l, ",", ':');
    ParseListJoin(l);
  }

  /** A field holding the printed form of a plain list reads back as that list. */
  lemma ParseListReadsBack(s: string, l: seq<string>)
    requires PlainList(l) && s == Join(l, ",")
    ensures ParseList(s) == l
  {
    PlainListJoin(l);
  }

  /** The typed value of one variable: text, a number, a boolean or a comma-separated list. */
  datatype Value = Text(text: string) | Number(number: int) | Switch(on: bool) | Items(items: seq<string>)

  /** How tmux prints a value. */
  function Printed(v: Value): string
  {
    match v
    case Text(s) => s
    case Number(n) => Itoa(n)
    case Switch(b) => Flag(b)
    case Items(l) => Join(l, ",")
  }

  /**
   A session name tmux accepts as a target: not empty, and free of `:` and
   `.`, which separate session, window and pane in a target.
   */
  function CheckSessionName(name: string): (ok: bool)
    ensures ok <==> |name| > 0 && ':' !in name && '.' !in name
  {
    ContainsChar(name, ':');
    ContainsChar(name, '.');
    if |name| == 0 then false
    else if Contains(name, ":") then false
    else if Contains(name, ".") then false
    else true
  }
}

=== FILE: query.dfy ===
/**
 The query builder and result parser (gotmux/query.go): a `Query` collects
 command tokens, flag arguments, positional arguments and requested format
 variables; `Prepare` renders it into the argument vector of a tmux
 invocation; `Collect`/`One`/`Get` decode the delimited text tmux prints back.
 */
module Queries {
  import opened GoStrings
  import opened Outcomes

  /** The private separator placed between the requested variables. */
  const Sep: string := "-:-"

  datatype Query = Query(
    command: seq<string>,
    fArgs: seq<string>,
    pArgs: seq<string>,
    variables: seq<string>)

  /** `newQuery`: every list starts empty. */
  function NewQuery(): Query
  {
    Query([], [], [], [])
  }

  /** `cmd`: appends command tokens; the other lists are untouched. */
  function Cmd(q: Query, c: seq<string>): (r: Query)
    ensures |r.command| == |q.command| + |c|
    ensures r.command[..|q.command|] == q.command && r.command[|q.command|..] == c
    ensures r.fArgs == q.fArgs && r.pArgs == q.pArgs && r.variables == q.variables
  {
    q.(command := q.command + c)
  }

  /** `fargs`: appends flag arguments; the other lists are untouched. */
  function FArgs(q: Query, a: seq<string>): (r: Query)
    ensures |r.fArgs| == |q.fArgs| + |a|
    ensures r.fArgs[..|q.fArgs|] == q.fArgs && r.fArgs[|q.fArgs|..] == a
    ensures r.command == q.command && r.pArgs == q.pArgs && r.variables == q.variables
  {
    q.(fArgs := q.fArgs + a)
  }

  /** `pargs`: appends positional arguments; the other lists are untouched. */
  function PArgs(q: Query, a: seq<string>): (r: Query)
    ensures |r.pArgs| == |q.pArgs| + |a|
    ensures r.pArgs[..|q.pArgs|] == q.pArgs && r.pArgs[|q.pArgs|..] == a
    ensures r.command == q.command && r.fArgs == q.fArgs && r.variables == q.variables
  {
    q.(pArgs := q.pArgs + a)
  }

  /** `vars`: replaces the requested variables outright. */
  function Vars(q: Query, v: seq<string>): (r: Query)
    ensures r.variables == v
    ensures r.command == q.command && r.fArgs == q.fArgs && r.pArgs == q.pArgs
  {
    q.(variables := v)
  }

  /** The arguments `args` when `on`, nothing otherwise: an option that adds its flags only when set. */
  function Given(on: bool, args: seq<string>): seq<string>
  {
    if on then args else []
  }

  /** `fargs` called only when `on`, as the operations do for each option that is set. */
  function FArgsIf(q: Query, on: bool, args: seq<string>): (r: Query)
    ensures r.fArgs == q.fArgs + Given(on, args)
    ensures r.command == q.command && r.pArgs == q.pArgs && r.variables == q.variables
  {
    if on then FArgs(q, args) else q
  }

  /** Two appends in a row are one append of both lists, in call order: nothing is deduplicated. */
  lemma AppendsCompose(q: Query, a: seq<string>, b: seq<string>)
    ensures Cmd(Cmd(q, a), b) == Cmd(q, a + b)
    ensures FArgs(FArgs(q, a), b) == FArgs(q, a + b)
    ensures PArgs(PArgs(q, a), b) == PArgs(q, a + b)
  {
    assert (q.command + a) + b == q.command + (a + b);
    assert (q.fArgs + a) + b == q.fArgs + (a + b);
    assert (q.pArgs + a) + b == q.pArgs + (a + b);
  }

  /** The last `vars` call wins, and it commutes with the appending calls. */
  lemma VarsLastWins(q: Query, a: seq<string>, b: seq<string>, c: seq<string>)
    ensures Vars(Vars(q, a), b) == Vars(q, b)
    ensures Vars(FArgs(q, c), a) == FArgs(Vars(q, a), c)
    ensures Vars(PArgs(q, c), a) == PArgs(Vars(q, a), c)
    ensures Vars(Cmd(q, c), a) == Cmd(Vars(q, a), c)
  {
  }

  // ---------------------------------------------------------------------
  // Rendering

  /** How one requested variable is written in the format: `#{name}`. */
  function Placeholder(v: string): string
  {
    "#{" + v + "}"
  }

  function Placeholders(vars: seq<string>): (r: seq<string>)
    ensures |r| == |vars|
    ensures forall i :: 0 <= i < |vars| ==> r[i] == Placeholder(vars[i])
  {
    seq(|vars|, i requires 0 <= i < |vars| => Placeholder(vars[i]))
  }

  /** The format argument: the placeholders joined by the separator, in single quotes. */
  function FormatToken(vars: seq<string>): string
  {
    "'" + Join(Placeholders(vars), Sep) + "'"
  }

  /** The formatting flag: `-p` when the first command token is `display-message`, `-F` otherwise. */
  function FormatFlag(command: seq<string>): (r: string)
    requires |command| > 0
    ensures r == "-p" <==> command[0] == "display-message"
    ensures r == "-p" || r == "-F"
  {
    if command[0] == "display-message" then "-p" else "-F"
  }

  /** `prepare` indexes `command[0]` whenever variables are requested. */
  predicate Renderable(q: Query)
  {
    |q.variables| == 0 || |q.command| > 0
  }

  /**
   `prepare`: the argument vector `tmux <command> <flags> [<fmt flag> <format>] <positionals>`.
   The format pair is present exactly when variables are requested.
   */
  function Prepare(q: Query): (r: seq<string>)
    requires Renderable(q)
    ensures |r| == 1 + |q.command| + |q.fArgs| + |q.pArgs| + (if |q.variables| == 0 then 0 else 2)
    ensures r[0] == "tmux"
    ensures r[1..1 + |q.command|] == q.command
    ensures r[1 + |q.command|..1 + |q.command| + |q.fArgs|] == q.fArgs
    ensures r[|r| - |q.pArgs|..] == q.pArgs
    ensures |q.variables| > 0 ==>
      && r[1 + |q.command| + |q.fArgs|] == FormatFlag(q.command)
      && r[2 + |q.command| + |q.fArgs|] == FormatToken(q.variables)
  {
    var r := (["tmux"] + q.command + q.fArgs) + (FormatPair(q) + q.pArgs);
    assert r[1..1 + |q.command|] == q.command;
    assert r[1 + |q.command|..1 + |q.command| + |q.fArgs|] == q.fArgs;
    r
  }

  /** The format pair of `prepare`: flag and format, or nothing when no variable is requested. */
  function FormatPair(q: Query): (r: seq<string>)
    requires Renderable(q)
    ensures |r| == if |q.variables| == 0 then 0 else 2
  {
    if |q.variables| == 0 then [] else [FormatFlag(q.command), FormatToken(q.variables)]
  }

  /** Inserting `a` where `h` and `t` were joined. */
  lemma InsertAt<T>(h: seq<T>, a: seq<T>, t: seq<T>)
    ensures (h + a) + t == (h + t)[..|h|] + a + (h + t)[|h|..]
  {
    assert (h + t)[..|h|] == h && (h + t)[|h|..] == t;
  }

  /**
   Flags appended by a later `fargs` call land right after the earlier flags,
   ahead of the format pair and the positionals, wherever the call happens in
   the chain.
   */
  lemma PrepareAppendedFlags(q: Query, a: seq<string>)
    requires Renderable(q)
    ensures var n := 1 + |q.command| + |q.fArgs|;
      Prepare(FArgs(q, a)) == Prepare(q)[..n] + a + Prepare(q)[n..]
  {
    var head := ["tmux"] + q.command + q.fArgs;
    var tail := FormatPair(q) + q.pArgs;
    assert ["tmux"] + q.command + (q.fArgs + a) == head + a;
    InsertAt(head, a, tail);
  }

  /**
   Where the tmux command itself starts in `command`: after a leading
   `-S path` socket selection, if there is one.
   */
  function CommandStart(command: seq<string>): (i: nat)
    ensures i < |command| || |command| == 0
    ensures i == 2 <==> |command| >= 3 && command[0] == "-S"
    ensures i == 0 || i == 2
  {
    if |command| >= 3 && command[0] == "-S" then 2 else 0
  }

  /** The formatting flag chosen by the tmux command, the socket selection skipped. */
  function CommandFormatFlag(command: seq<string>): (r: string)
    requires |command| > 0
    ensures r == "-p" <==> command[CommandStart(command)] == "display-message"
    ensures r == "-p" || r == "-F"
  {
    FormatFlag(command[CommandStart(command)..])
  }

  /**
   `prepare` with the formatting flag chosen by the tmux command rather than
   by the first token, which is `-S` whenever a socket is selected.
   */
  function PrepareCorrected(q: Query): (r: seq<string>)
    requires Renderable(q)
    ensures |r| == |Prepare(q)|
    ensures forall k :: 0 <= k < |r| && k != 1 + |q.command| + |q.fArgs| ==> r[k] == Prepare(q)[k]
    ensures |q.variables| > 0 ==> r[1 + |q.command| + |q.fArgs|] == CommandFormatFlag(q.command)
  {
    var head := ["tmux"] + q.command + q.fArgs;
    var pair := if |q.variables| == 0 then [] else [CommandFormatFlag(q.command), FormatToken(q.variables)];
    assert |pair| == |FormatPair(q)| && forall j :: 1 <= j < |pair| ==> pair[j] == FormatPair(q)[j];
    head + (pair + q.pArgs)
  }

  /**
   The corrected rendering is `prepare`'s exactly when no variable is
   requested or both choose the same formatting flag.
   */
  lemma PrepareCorrectedAgrees(q: Query)
    requires Renderable(q)
    ensures PrepareCorrected(q) == Prepare(q)
      <==> |q.variables| == 0 || CommandFormatFlag(q.command) == FormatFlag(q.command)
  {
    var r, p := PrepareCorrected(q), Prepare(q);
    var i := 1 + |q.command| + |q.fArgs|;
    if |q.variables| > 0 {
      assert p[i] == FormatFlag(q.command);
      if r == p {
        assert r[i] == p[i];
      }
    }
    if |q.variables| == 0 || CommandFormatFlag(q.command) == FormatFlag(q.command) {
      assert forall k :: 0 <= k < |r| ==> r[k] == p[k];
    }
  }

  /** Without a socket selection in front, the corrected rendering is `prepare`'s. */
  lemma PrepareCorrectedWithoutSocket(q: Query)
    requires Renderable(q)
    requires |q.command| == 0 || q.command[0] != "-S"
    ensures PrepareCorrected(q) == Prepare(q)
  {
    PrepareCorrectedAgrees(q);
    if |q.variables| > 0 {
      assert q.command[CommandStart(q.command)..] == q.command;
    }
  }

  // ---------------------------------------------------------------------
  // Parsing

  /** The raw output of a finished query, with the variables it requested. */
  datatype Output = Output(result: string, variables: seq<string>)

  /** One decoded line: variable name to raw value. */
  type Record = map<string, string>

  /** The fields of one output line: quotes stripped from both ends, then split on the separator. */
  function Fields(line: string): (r: seq<string>)
    ensures |r| >= 1
  {
    Split(Trim(line, '\''), Sep)
  }

  /** No later position of `vars` holds the name at position `i`. */
  predicate LastOccurrence(vars: seq<string>, i: int)
    requires 0 <= i < |vars|
  {
    forall j :: i < j < |vars| ==> vars[j] != vars[i]
  }

  /**
   Zips names to values in order. A name that is requested twice keeps the
   value of its last position, as repeated map assignment does.
   */
  function Zip(vars: seq<string>, fields: seq<string>): (r: Record)
    requires |vars| == |fields|
    ensures forall v :: v in r <==> v in vars
    ensures forall i :: 0 <= i < |vars| && LastOccurrence(vars, i) ==> r[vars[i]] == fields[i]
    decreases |vars|
  {
    if |vars| == 0 then map[]
    else
      var n := |vars| - 1;
      var front := Zip(vars[..n], fields[..n]);
      ZipStep(vars, fields, front);
      front[vars[n] := fields[n]]
  }

  /** Assigning the last name on top of the zip of the others zips all of them. */
  lemma ZipStep(vars: seq<string>, fields: seq<string>, front: Record)
    requires |vars| == |fields| > 0
    requires forall v :: v in front <==> v in vars[..|vars| - 1]
    requires forall i :: 0 <= i < |vars| - 1 && LastOccurrence(vars[..|vars| - 1], i) ==> front[vars[i]] == fields[i]
    ensures var r := front[vars[|vars| - 1] := fields[|vars| - 1]];
      && (forall v :: v in r <==> v in vars)
      && (forall i :: 0 <= i < |vars| && LastOccurrence(vars, i) ==> r[vars[i]] == fields[i])
  {
    var n := |vars| - 1;
    var r := front[vars[n] := fields[n]];
    assert vars == vars[..n] + [vars[n]];
    forall i | 0 <= i < n && LastOccurrence(vars, i)
      ensures r[vars[i]] == fields[i]
    {
      assert vars[i] != vars[n];
      assert LastOccurrence(vars[..n], i);
    }
  }

  /** `queryResult.get`: the value for `key`, or the empty string when it is missing. */
  function Get(r: Record, key: string): (v: string)
    ensures key !in r ==> v == ""
    ensures key in r ==> v == r[key]
  {
    if key in r then r[key] else ""
  }

  /** Reading back a name at its last position gives the value zipped to it. */
  lemma ZipGet(vars: seq<string>, fields: seq<string>, i: int)
    requires |vars| == |fields| && 0 <= i < |vars|
    requires LastOccurrence(vars, i)
    ensures Get(Zip(vars, fields), vars[i]) == fields[i]
  {
    assert vars[i] in Zip(vars, fields).Keys;
  }

  /** The lines that are not empty, in order. */
  function NonEmpty(lines: seq<string>): (r: seq<string>)
    ensures |r| <= |lines|
    ensures forall k :: 0 <= k < |r| ==> r[k] != ""
    decreases |lines|
  {
    if |lines| == 0 then []
    else if lines[0] == "" then NonEmpty(lines[1..])
    else [lines[0]] + NonEmpty(lines[1..])
  }

  /** Dropping the empty lines keeps every other line: membership both ways. */
  lemma {:induction false} NonEmptyMembers(lines: seq<string>, x: string)
    ensures x in NonEmpty(lines) <==> x in lines && x != ""
    decreases |lines|
  {
    if |lines| > 0 {
      NonEmptyMembers(lines[1..], x);
      assert lines == [lines[0]] + lines[1..];
    }
  }

  /** A line `collect` accepts: empty, or holding exactly one field per requested variable. */
  predicate LineFits(line: string, vars: seq<string>)
  {
    line == "" || |Fields(line)| == |vars|
  }

  /**
   The loop of `collect` over already split lines. Any non-empty line with the
   wrong field count fails the whole call (`log.Panicln` in `collect`); no
   partial list is returned.
   */
  function CollectLines(lines: seq<string>, vars: seq<string>): (r: Result<seq<Record>>)
    ensures r.Err? ==> r.error == MalformedOutput
    decreases |lines|
  {
    if |lines| == 0 then Ok([])
    else if lines[0] == "" then CollectLines(lines[1..], vars)
    else
      var fields := Fields(lines[0]);
      if |fields| != |vars| then Err(MalformedOutput)
      else
        match CollectLines(lines[1..], vars)
        case Err(e) => Err(e)
        case Ok(rest) => Ok([Zip(vars, fields)] + rest)
  }

  /** `collect` succeeds exactly when every line fits the requested variables. */
  lemma {:induction false} CollectLinesSucceeds(lines: seq<string>, vars: seq<string>)
    ensures CollectLines(lines, vars).Ok? <==> forall k :: 0 <= k < |lines| ==> LineFits(lines[k], vars)
    decreases |lines|
  {
    if |lines| > 0 {
      CollectLinesSucceeds(lines[1..], vars);
      assert forall k :: 1 <= k < |lines| ==> lines[k] == lines[1..][k - 1];
    }
  }

  /** On success, record `k` is the zip of the `k`-th non-empty line, and there is one record per such line. */
  lemma {:induction false} CollectLinesRecords(lines: seq<string>, vars: seq<string>)
    requires CollectLines(lines, vars).Ok?
    ensures Pairwise(NonEmpty(lines), CollectLines(lines, vars).value, Decodes(vars))
    decreases |lines|
  {
    if |lines| > 0 {
      assert CollectLines(lines[1..], vars).Ok?;
      CollectLinesRecords(lines[1..], vars);
      if lines[0] != "" {
        var record := Zip(vars, Fields(lines[0]));
        assert Decodes(vars)(lines[0], record);
        PairwiseFront(lines[0], NonEmpty(lines[1..]), record, CollectLines(lines[1..], vars).value, Decodes(vars));
      }
    }
  }

  /** The record `collect` makes of a non-empty line. */
  predicate RecordOf(line: string, record: Record, vars: seq<string>)
  {
    |Fields(line)| == |vars| && record == Zip(vars, Fields(line))
  }

  /** `RecordOf` for fixed variables, as a relation between a line and a record. */
  function Decodes(vars: seq<string>): (string, Record) -> bool
  {
    (line: string, record: Record) => RecordOf(line, record, vars)
  }

  /** Two lists of the same length, related position by position. */
  predicate Pairwise<L, R>(xs: seq<L>, ys: seq<R>, p: (L, R) -> bool)
  {
    |xs| == |ys| && forall k :: 0 <= k < |xs| ==> p(xs[k], ys[k])
  }

  /** Putting a related pair in front keeps two lists related. */
  lemma PairwiseFront<L, R>(x: L, xs: seq<L>, y: R, ys: seq<R>, p: (L, R) -> bool)
    requires p(x, y) && Pairwise(xs, ys, p)
    ensures Pairwise([x] + xs, [y] + ys, p)
  {
    var xs', ys' := [x] + xs, [y] + ys;
    forall k | 1 <= k < |xs'|
      ensures p(xs'[k], ys'[k])
    {
      assert xs'[k] == xs[k - 1] && ys'[k] == ys[k - 1];
    }
  }

  /** `queryOutput.collect`: one record per non-empty output line, in line order. */
  function Collect(o: Output): Result<seq<Record>>
  {
    CollectLines(Split(o.result, "\n"), o.variables)
  }

  /** `queryOutput.one`: the first record; an output with no record is an error. */
  function One(o: Output): (r: Result<Record>)
    ensures Collect(o).Err? ==> r == Err(Collect(o).error)
    ensures Collect(o) == Ok([]) ==> r == Err(EmptyOutput)
    ensures Collect(o).Ok? && |Collect(o).value| > 0 ==> r == Ok(Collect(o).value[0])
  {
    match Collect(o)
    case Err(e) => Err(e)
    case Ok(rs) => if |rs| == 0 then Err(EmptyOutput) else Ok(rs[0])
  }

  /** `queryOutput.raw`: the unparsed output. */
  function Raw(o: Output): string
  {
    o.result
  }

  // ---------------------------------------------------------------------
  // Round trip

  /** A value tmux may print inside a record line without breaking it. */
  predicate PrintableValue(v: string)
  {
    '\'' !in v && '\n' !in v
  }

  /**
   A value that never disturbs a record line: printable, and without a colon,
   so that no separator can form inside it or across its boundaries.
   */
  predicate Plain(v: string)
  {
    PrintableValue(v) && ':' !in v
  }

  /** Without a colon, a value neither contains the separator nor forms one with it. */
  lemma NoColonSeparated(v: string)
    requires ':' !in v
    ensures NoMatchAcross(v, Sep) && !Contains(v, Sep)
  {
    var w := v + Sep[..|Sep| - 1];
    forall j | 0 <= j <= |w|
      ensures !OccursAt(w, Sep, j)
    {
      if j + |Sep| <= |w| {
        assert w[j..j + |Sep|][1] == w[j + 1];
        if j + 1 < |v| {
          assert w[j + 1] == v[j + 1];
        } else {
          assert w[j + 1] == '-';
        }
      }
    }
    forall j | 0 <= j <= |v|
      ensures !OccursAt(v, Sep, j)
    {
      if j + |Sep| <= |v| {
        assert v[j..j + |Sep|][1] == v[j + 1];
      }
    }
  }

  /** Plain values always make a readable row. */
  lemma PlainRow(values: seq<string>)
    requires |values| >= 1
    requires forall k :: 0 <= k < |values| ==> Plain(values[k])
    ensures RowValues(values)
  {
    forall k | 0 <= k < |values|
      ensures NoMatchAcross(values[k], Sep) && !Contains(values[k], Sep)
    {
      NoColonSeparated(values[k]);
    }
  }

  /** The line tmux prints for one record: the values joined by the separator, in single quotes. */
  function Row(values: seq<string>): string
  {
    "'" + Join(values, Sep) + "'"
  }

  /** The lines of the rows, in order. */
  function RowLines(rows: seq<seq<string>>): (r: seq<string>)
    ensures |r| == |rows|
    ensures forall k :: 0 <= k < |rows| ==> r[k] == Row(rows[k])
    decreases |rows|
  {
    if |rows| == 0 then [] else [Row(rows[0])] + RowLines(rows[1..])
  }

  /** A whole output: one row per record, each ended by a newline. */
  function Table(rows: seq<seq<string>>): string
  {
    Lines(RowLines(rows))
  }

  /** The values of a row can be recovered from it. */
  predicate RowValues(values: seq<string>)
  {
    && Separable(values, Sep)
    && forall k :: 0 <= k < |values| ==> PrintableValue(values[k])
  }

  /** The records one expects for `rows`. */
  function ZipAll(vars: seq<string>, rows: seq<seq<string>>): (r: seq<Record>)
    requires forall k :: 0 <= k < |rows| ==> |rows[k]| == |vars|
    ensures |r| == |rows|
    ensures forall k :: 0 <= k < |rows| ==> r[k] == Zip(vars, rows[k])
    decreases |rows|
  {
    if |rows| == 0 then [] else [Zip(vars, rows[0])] + ZipAll(vars, rows[1..])
  }

  lemma JoinPrintable(values: seq<string>)
    requires forall k :: 0 <= k < |values| ==> PrintableValue(values[k])
    ensures PrintableValue(Join(values, Sep))
    decreases |values|
  {
    if |values| > 1 {
      JoinPrintable(values[1..]);
    }
  }

  lemma RowPrintable(values: seq<string>)
    requires RowValues(values)
    ensures '\n' !in Row(values)
  {
    JoinPrintable(values);
  }

  /** Stripping the quotes of a row and splitting it gives back its values. */
  lemma {:induction false} FieldsOfRow(values: seq<string>)
    requires RowValues(values)
    ensures Fields(Row(values)) == values
  {
    var j := Join(values, Sep);
    JoinPrintable(values);
    assert j == "" || (j[0] in j && j[|j| - 1] in j);
    assert Repeat('\'', 1) + j + Repeat('\'', 1) == Row(values);
    TrimSurrounded(j, '\'', 1, 1);
    SplitJoin(values, Sep);
  }

  /** The newline split of a table is its rows followed by one empty string. */
  lemma SplitTable(rows: seq<seq<string>>)
    requires forall k :: 0 <= k < |rows| ==> RowValues(rows[k])
    ensures Split(Table(rows), "\n") == RowLines(rows) + [""]
  {
    var lines := RowLines(rows);
    forall k | 0 <= k < |lines|
      ensures '\n' !in lines[k]
    {
      RowPrintable(rows[k]);
    }
    SplitLines(lines);
  }

  /**
   Round trip: tmux prints one row per record, `collect` recovers every
   record in order, each mapping the i-th variable to the i-th value.
   */
  lemma {:induction false} CollectTable(vars: seq<string>, rows: seq<seq<string>>)
    requires forall k :: 0 <= k < |rows| ==> |rows[k]| == |vars| && RowValues(rows[k])
    ensures Collect(Output(Table(rows), vars)) == Ok(ZipAll(vars, rows))
  {
    SplitTable(rows);
    CollectRows(vars, rows);
  }

  lemma {:induction false} CollectRows(vars: seq<string>, rows: seq<seq<string>>)
    requires forall k :: 0 <= k < |rows| ==> |rows[k]| == |vars| && RowValues(rows[k])
    ensures CollectLines(RowLines(rows) + [""], vars) == Ok(ZipAll(vars, rows))
    decreases |rows|
  {
    var lines := RowLines(rows) + [""];
    if |rows| == 0 {
      assert lines == [""];
      assert CollectLines(lines[1..], vars) == Ok([]);
    } else {
      CollectRows(vars, rows[1..]);
      CollectRowsStep(vars, rows[0], rows[1..]);
      assert rows == [rows[0]] + rows[1..];
    }
  }

  /** One more row in front of a table `collect` reads back. */
  lemma CollectRowsStep(vars: seq<string>, row: seq<string>, rest: seq<seq<string>>)
    requires |row| == |vars| && RowValues(row)
    requires forall k :: 0 <= k < |rest| ==> |rest[k]| == |vars|
    requires CollectLines(RowLines(rest) + [""], vars) == Ok(ZipAll(vars, rest))
    ensures CollectLines(RowLines([row] + rest) + [""], vars) == Ok(ZipAll(vars, [row] + rest))
  {
    FieldsOfRow(row);
    RowLinesCons(row, rest);
    ZipAllCons(vars, row, rest);
    CollectCons(Row(row), RowLines(rest) + [""], vars);
  }

  lemma RowLinesCons(row: seq<string>, rest: seq<seq<string>>)
    ensures RowLines([row] + rest) + [""] == [Row(row)] + (RowLines(rest) + [""])
  {
    assert ([row] + rest)[1..] == rest;
  }

  lemma ZipAllCons(vars: seq<string>, row: seq<string>, rest: seq<seq<string>>)
    requires |row| == |vars|
    requires forall k :: 0 <= k < |rest| ==> |rest[k]| == |vars|
    ensures ZipAll(vars, [row] + rest) == [Zip(vars, row)] + ZipAll(vars, rest)
  {
    assert ([row] + rest)[1..] == rest;
  }

  /** A fitting non-empty line in front adds its record in front. */
  lemma CollectCons(line: string, lines: seq<string>, vars: seq<string>)
    requires line != "" && |Fields(line)| == |vars|
    requires CollectLines(lines, vars).Ok?
    ensures CollectLines([line] + lines, vars) == Ok([Zip(vars, Fields(line))] + CollectLines(lines, vars).value)
  {
    assert ([line] + lines)[1..] == lines;
  }

  /** The one-record case: a single row read back through `one`, value by value. */
  lemma OneRow(vars: seq<string>, values: seq<string>)
    requires |values| == |vars| && RowValues(values)
    ensures One(Output(Row(values) + "\n", vars)) == Ok(Zip(vars, values))
    ensures forall i :: 0 <= i < |vars| && vars[i] !in vars[i + 1..] ==>
      Get(Zip(vars, values), vars[i]) == values[i]
  {
    assert RowLines([values]) == [Row(values)];
    LinesSingle(Row(values));
    CollectTable(vars, [values]);
  }

  /** A row with a different number of values than requested variables is rejected. */
  lemma MismatchRejected(vars: seq<string>, values: seq<string>)
    requires |values| != |vars| && RowValues(values)
    ensures Collect(Output(Row(values) + "\n", vars)) == Err(MalformedOutput)
  {
    assert RowLines([values]) == [Row(values)];
    LinesSingle(Row(values));
    SplitTable([values]);
    FieldsOfRow(values);
  }
}

=== FILE: session.dfy ===
/**
 Sessions: the variables the binding requests for a tmux session, the
 decoding of one record into a session, and the session operations.
 */
module Sessions {
  import opened GoStrings
  import opened Outcomes
  import opened Queries
  import opened Parsing
  import opened Handle
  import opened TmuxFormat
  import opened Listing
  import opened Flags
  import opened Clients
  import opened Windows

  // ---------------------------------------------------------------------
  // Variables

  const SessionActivity := "session_activity"
  const SessionAlerts := "session_alerts"
  const SessionAttached := "session_attached"
  const SessionAttachedList := "session_attached_list"
  const SessionCreated := "session_created"
  const SessionFormat := "session_format"
  const SessionGroup := "session_group"
  const SessionGroupAttached := "session_group_attached"
  const SessionGroupAttachedList := "session_group_attached_list"
  const SessionGroupList := "session_group_list"
  const SessionGroupManyAttached := "session_group_many_attached"
  const SessionGroupSize := "session_group_size"
  const SessionGrouped := "session_grouped"
  const SessionId := "session_id"
  const SessionLastAttached := "session_last_attached"
  const SessionManyAttached := "session_many_attached"
  const SessionMarked := "session_marked"
  const SessionName := "session_name"
  const SessionPath := "session_path"
  const SessionStack := "session_stack"
  const SessionWindows := "session_windows"

  /** The position-`k` variable requested for a tmux session. */
  function SessionVar(k: int): string
    requires 0 <= k < 21
  {
    if k == 0 then SessionActivity
    else if k == 1 then SessionAlerts
    else if k == 2 then SessionAttached
    else if k == 3 then SessionAttachedList
    else if k == 4 then SessionCreated
    else if k == 5 then SessionFormat
    else if k == 6 then SessionGroup
    else if k == 7 then SessionGroupAttached
    else if k == 8 then SessionGroupAttachedList
    else if k == 9 then SessionGroupList
    else if k == 10 then SessionGroupManyAttached
    else if k == 11 then SessionGroupSize
    else if k == 12 then SessionGrouped
    else if k == 13 then SessionId
    else if k == 14 then SessionLastAttached
    else if k == 15 then SessionManyAttached
    else if k == 16 then SessionMarked
    else if k == 17 then SessionName
    else if k == 18 then SessionPath
    else if k == 19 then SessionStack
    else SessionWindows
  }

  /** The variables requested for a tmux session, in request order. */
  function SessionVars(): seq<string>
  {
    seq(21, k requires 0 <= k < 21 => SessionVar(k))
  }

  /** 21 variables, no name requested twice. */
  lemma SessionVarsDistinct()
    ensures |SessionVars()| == 21
    ensures forall i :: 0 <= i < |SessionVars()| ==> LastOccurrence(SessionVars(), i)
  {
    forall i | 0 <= i < |SessionVars()|
      ensures LastOccurrence(SessionVars(), i)
    {
      if i < 6 {
        SessionVarsDistinctFrom0(i);
      } else if i < 12 {
        SessionVarsDistinctFrom6(i);
      } else if i < 18 {
        SessionVarsDistinctFrom12(i);
      } else {
        SessionVarsDistinctFrom18(i);
      }
    }
  }

  lemma SessionVarsDistinctFrom0(i: int)
    requires 0 <= i < 6
    ensures LastOccurrence(SessionVars(), i)
  {
  }

  lemma SessionVarsDistinctFrom6(i: int)
    requires 6 <= i < 12
    ensures LastOccurrence(SessionVars(), i)
  {
  }

  lemma SessionVarsDistinctFrom12(i: int)
    requires 12 <= i < 18
    ensures LastOccurrence(SessionVars(), i)
  {
  }

  lemma SessionVarsDistinctFrom18(i: int)
    requires 18 <= i < 21
    ensures LastOccurrence(SessionVars(), i)
  {
  }

  /** No requested name contains `}`, so each `#{name}` reference closes where it should. */
  lemma SessionVarsBraceFree()
    ensures forall i :: 0 <= i < |SessionVars()| ==> '}' !in SessionVars()[i]
  {
    forall i | 0 <= i < |SessionVars()|
      ensures '}' !in SessionVars()[i]
    {
      if i < 6 {
        SessionVarsBraceFreeFrom0(i);
      } else if i < 12 {
        SessionVarsBraceFreeFrom6(i);
      } else if i < 18 {
        SessionVarsBraceFreeFrom12(i);
      } else {
        SessionVarsBraceFreeFrom18(i);
      }
    }
  }

  lemma SessionVarsBraceFreeFrom0(i: int)
    requires 0 <= i < 6
    ensures '}' !in SessionVars()[i]
  {
  }

  lemma SessionVarsBraceFreeFrom6(i: int)
    requires 6 <= i < 12
    ensures '}' !in SessionVars()[i]
  {
  }

  lemma SessionVarsBraceFreeFrom12(i: int)
    requires 12 <= i < 18
    ensures '}' !in SessionVars()[i]
  {
  }

  lemma SessionVarsBraceFreeFrom18(i: int)
    requires 18 <= i < 21
    ensures '}' !in SessionVars()[i]
  {
  }

  /** A tmux session, as the binding reads it; `tmux` is the handle it was read through. */
  datatype Session = Session(
    activity: string,
    alerts: string,
    attached: int,
    attachedList: seq<string>,
    created: string,
    format: bool,
    group: string,
    groupAttached: int,
    groupAttachedList: seq<string>,
    groupList: seq<string>,
    groupManyAttached: bool,
    groupSize: int,
    grouped: bool,
    id: string,
    lastAttached: string,
    manyAttached: bool,
    marked: bool,
    name: string,
    path: string,
    stack: string,
    windows: int,
    tmux: Tmux)

  /**
   `toSession`: reads each field from its variable. Numbers that do not parse
   read as 0, booleans are true only for `1`, lists split on commas, and
   text is taken verbatim; a missing variable reads as the empty value.
   */
  function ToSession(r: Record, t: Tmux): (s: Session)
    ensures s.activity == Get(r, SessionActivity)
    ensures s.alerts == Get(r, SessionAlerts)
    ensures !IsDecimal(Get(r, SessionAttached)) ==> s.attached == 0
    ensures IsDecimal(Get(r, SessionAttached)) && InInt64(SignedValue(Get(r, SessionAttached))) ==> s.attached == SignedValue(Get(r, SessionAttached))
    ensures Join(s.attachedList, ",") == Get(r, SessionAttachedList) && forall k :: 0 <= k < |s.attachedList| ==> ',' !in s.attachedList[k]
    ensures s.created == Get(r, SessionCreated)
    ensures s.format <==> Get(r, SessionFormat) == "1"
    ensures s.group == Get(r, SessionGroup)
    ensures !IsDecimal(Get(r, SessionGroupAttached)) ==> s.groupAttached == 0
    ensures IsDecimal(Get(r, SessionGroupAttached)) && InInt64(SignedValue(Get(r, SessionGroupAttached))) ==> s.groupAttached == SignedValue(Get(r, SessionGroupAttached))
    ensures Join(s.groupAttachedList, ",") == Get(r, SessionGroupAttachedList) && forall k :: 0 <= k < |s.groupAttachedList| ==> ',' !in s.groupAttachedList[k]
    ensures Join(s.groupList, ",") == Get(r, SessionGroupList) && forall k :: 0 <= k < |s.groupList| ==> ',' !in s.groupList[k]
    ensures s.groupManyAttached <==> Get(r, SessionGroupManyAttached) == "1"
    ensures !IsDecimal(Get(r, SessionGroupSize)) ==> s.groupSize == 0
    ensures IsDecimal(Get(r, SessionGroupSize)) && InInt64(SignedValue(Get(r, SessionGroupSize))) ==> s.groupSize == SignedValue(Get(r, SessionGroupSize))
    ensures s.grouped <==> Get(r, SessionGrouped) == "1"
    ensures s.id == Get(r, SessionId)
    ensures s.lastAttached == Get(r, SessionLastAttached)
    ensures s.manyAttached <==> Get(r, SessionManyAttached) == "1"
    ensures s.marked <==> Get(r, SessionMarked) == "1"
    ensures s.name == Get(r, SessionName)
    ensures s.path == Get(r, SessionPath)
    ensures s.stack == Get(r, SessionStack)
    ensures !IsDecimal(Get(r, SessionWindows)) ==> s.windows == 0
    ensures IsDecimal(Get(r, SessionWindows)) && InInt64(SignedValue(Get(r, SessionWindows))) ==> s.windows == SignedValue(Get(r, SessionWindows))
    ensures s.tmux == t
  {
    Session(
      Get(r, SessionActivity),
      Get(r, SessionAlerts),
      Atoi(Get(r, SessionAttached)),
      ParseList(Get(r, SessionAttachedList)),
      Get(r, SessionCreated),
      IsOne(Get(r, SessionFormat)),
      Get(r, SessionGroup),
      Atoi(Get(r, SessionGroupAttached)),
      ParseList(Get(r, SessionGroupAttachedList)),
      ParseList(Get(r, SessionGroupList)),
      IsOne(Get(r, SessionGroupManyAttached)),
      Atoi(Get(r, SessionGroupSize)),
      IsOne(Get(r, SessionGrouped)),
      Get(r, SessionId),
      Get(r, SessionLastAttached),
      IsOne(Get(r, SessionManyAttached)),
      IsOne(Get(r, SessionMarked)),
      Get(r, SessionName),
      Get(r, SessionPath),
      Get(r, SessionStack),
      Atoi(Get(r, SessionWindows)),
      t)
  }

  /** The value of the position-`k` variable of a tmux session. */
  function SessionField(s: Session, k: int): Value
    requires 0 <= k < 21
  {
    if k == 0 then Text(s.activity)
    else if k == 1 then Text(s.alerts)
    else if k == 2 then Number(s.attached)
    else if k == 3 then Items(s.attachedList)
    else if k == 4 then Text(s.created)
    else if k == 5 then Switch(s.format)
    else if k == 6 then Text(s.group)
    else if k == 7 then Number(s.groupAttached)
    else if k == 8 then Items(s.groupAttachedList)
    else if k == 9 then Items(s.groupList)
    else if k == 10 then Switch(s.groupManyAttached)
    else if k == 11 then Number(s.groupSize)
    else if k == 12 then Switch(s.grouped)
    else if k == 13 then Text(s.id)
    else if k == 14 then Text(s.lastAttached)
    else if k == 15 then Switch(s.manyAttached)
    else if k == 16 then Switch(s.marked)
    else if k == 17 then Text(s.name)
    else if k == 18 then Text(s.path)
    else if k == 19 then Text(s.stack)
    else Number(s.windows)
  }

  /** How tmux prints a tmux session's variables, in request order. */
  function EncodeSession(s: Session): (e: seq<string>)
    ensures |e| == |SessionVars()|
  {
    seq(21, k requires 0 <= k < 21 => Printed(SessionField(s, k)))
  }

  /** A tmux session tmux can print so that it reads back unchanged. */
  predicate ReadableSession(s: Session)
  {
    && Plain(s.activity)
    && Plain(s.alerts)
    && InInt64(s.attached)
    && PlainList(s.attachedList)
    && Plain(s.created)
    && Plain(s.group)
    && InInt64(s.groupAttached)
    && PlainList(s.groupAttachedList)
    && PlainList(s.groupList)
    && InInt64(s.groupSize)
    && Plain(s.id)
    && Plain(s.lastAttached)
    && Plain(s.name)
    && Plain(s.path)
    && Plain(s.stack)
    && InInt64(s.windows)
  }

  /** The printed row of a readable session splits back into its values. */
  lemma SessionRowValues(s: Session)
    requires ReadableSession(s)
    ensures RowValues(EncodeSession(s))
  {
    var e := EncodeSession(s);
    SessionPlainFrom0(s);
    SessionPlainFrom3(s);
    SessionPlainFrom6(s);
    SessionPlainFrom9(s);
    SessionPlainFrom12(s);
    SessionPlainFrom15(s);
    SessionPlainFrom18(s);
    PlainRow(e);
  }

  lemma SessionPlainFrom0(s: Session)
    requires ReadableSession(s)
    ensures forall k :: 0 <= k < 3 ==> Plain(EncodeSession(s)[k])
  {
  }

  lemma SessionPlainFrom3(s: Session)
    requires ReadableSession(s)
    ensures forall k :: 3 <= k < 6 ==> Plain(EncodeSession(s)[k])
  {
    PlainListJoin(s.attachedList);
  }

  lemma SessionPlainFrom6(s: Session)
    requires ReadableSession(s)
    ensures forall k :: 6 <= k < 9 ==> Plain(EncodeSession(s)[k])
  {
    PlainListJoin(s.groupAttachedList);
  }

  lemma SessionPlainFrom9(s: Session)
    requires ReadableSession(s)
    ensures forall k :: 9 <= k < 12 ==> Plain(EncodeSession(s)[k])
  {
    PlainListJoin(s.groupList);
  }

  lemma SessionPlainFrom12(s: Session)
    requires ReadableSession(s)
    ensures forall k :: 12 <= k < 15 ==> Plain(EncodeSession(s)[k])
  {
  }

  lemma SessionPlainFrom15(s: Session)
    requires ReadableSession(s)
    ensures forall k :: 15 <= k < 18 ==> Plain(EncodeSession(s)[k])
  {
  }

  lemma SessionPlainFrom18(s: Session)
    requires ReadableSession(s)
    ensures forall k :: 18 <= k < 21 ==> Plain(EncodeSession(s)[k])
  {
  }

  /** `r` holds, under each requested name, what tmux prints for that variable of `s`. */
  predicate HoldsSession(r: Record, s: Session)
  {
    && Get(r, SessionActivity) == s.activity
    && Get(r, SessionAlerts) == s.alerts
    && Get(r, SessionAttached) == Itoa(s.attached)
    && Get(r, SessionAttachedList) == Join(s.attachedList, ",")
    && Get(r, SessionCreated) == s.created
    && Get(r, SessionFormat) == Flag(s.format)
    && Get(r, SessionGroup) == s.group
    && Get(r, SessionGroupAttached) == Itoa(s.groupAttached)
    && Get(r, SessionGroupAttachedList) == Join(s.groupAttachedList, ",")
    && Get(r, SessionGroupList) == Join(s.groupList, ",")
    && Get(r, SessionGroupManyAttached) == Flag(s.groupManyAttached)
    && Get(r, SessionGroupSize) == Itoa(s.groupSize)
    && Get(r, SessionGrouped) == Flag(s.grouped)
    && Get(r, SessionId) == s.id
    && Get(r, SessionLastAttached) == s.lastAttached
    && Get(r, SessionManyAttached) == Flag(s.manyAttached)
    && Get(r, SessionMarked) == Flag(s.marked)
    && Get(r, SessionName) == s.name
    && Get(r, SessionPath) == s.path
    && Get(r, SessionStack) == s.stack
    && Get(r, SessionWindows) == Itoa(s.windows)
  }

  /** Round trip: a readable session, printed by tmux and zipped to its names, decodes to itself. */
  lemma SessionRoundTrip(s: Session)
    requires ReadableSession(s)
    ensures ToSession(Zip(SessionVars(), EncodeSession(s)), s.tmux) == s
  {
    var e := EncodeSession(s);
    var r := Zip(SessionVars(), e);
    SessionVarsDistinct();
    forall k | 0 <= k < 21
      ensures Get(r, SessionVar(k)) == Printed(SessionField(s, k))
    {
      ZipGet(SessionVars(), e, k);
    }
    SessionHoldsFrom0(s, r);
    SessionHoldsFrom4(s, r);
    SessionHoldsFrom8(s, r);
    SessionHoldsFrom12(s, r);
    SessionHoldsFrom16(s, r);
    SessionHoldsFrom20(s, r);
    SessionReads(s, r);
  }

  lemma SessionHoldsFrom0(s: Session, r: Record)
    requires forall k :: 0 <= k < 21 ==> Get(r, SessionVar(k)) == Printed(SessionField(s, k))
    ensures Get(r, SessionActivity) == s.activity
      && Get(r, SessionAlerts) == s.alerts
      && Get(r, SessionAttached) == Itoa(s.attached)
      && Get(r, SessionAttachedList) == Join(s.attachedList, ",")
  {
    assert Get(r, SessionVar(0)) == Printed(SessionField(s, 0));
    assert Get(r, SessionVar(1)) == Printed(SessionField(s, 1));
    assert Get(r, SessionVar(2)) == Printed(SessionField(s, 2));
    assert Get(r, SessionVar(3)) == Printed(SessionField(s, 3));
  }

  lemma SessionHoldsFrom4(s: Session, r: Record)
    requires forall k :: 0 <= k < 21 ==> Get(r, SessionVar(k)) == Printed(SessionField(s, k))
    ensures Get(r, SessionCreated) == s.created
      && Get(r, SessionFormat) == Flag(s.format)
      && Get(r, SessionGroup) == s.group
      && Get(r, SessionGroupAttached) == Itoa(s.groupAttached)
  {
    assert Get(r, SessionVar(4)) == Printed(SessionField(s, 4));
    assert Get(r, SessionVar(5)) == Printed(SessionField(s, 5));
    assert Get(r, SessionVar(6)) == Printed(SessionField(s, 6));
    assert Get(r, SessionVar(7)) == Printed(SessionField(s, 7));
  }

  lemma SessionHoldsFrom8(s: Session, r: Record)
    requires forall k :: 0 <= k < 21 ==> Get(r, SessionVar(k)) == Printed(SessionField(s, k))
    ensures Get(r, SessionGroupAttachedList) == Join(s.groupAttachedList, ",")
      && Get(r, SessionGroupList) == Join(s.groupList, ",")
      && Get(r, SessionGroupManyAttached) == Flag(s.groupManyAttached)
      && Get(r, SessionGroupSize) == Itoa(s.groupSize)
  {
    assert Get(r, SessionVar(8)) == Printed(SessionField(s, 8));
    assert Get(r, SessionVar(9)) == Printed(SessionField(s, 9));
    assert Get(r, SessionVar(10)) == Printed(SessionField(s, 10));
    assert Get(r, SessionVar(11)) == Printed(SessionField(s, 11));
  }

  lemma SessionHoldsFrom12(s: Session, r: Record)
    requires forall k :: 0 <= k < 21 ==> Get(r, SessionVar(k)) == Printed(SessionField(s, k))
    ensures Get(r, SessionGrouped) == Flag(s.grouped)
      && Get(r, SessionId) == s.id
      && Get(r, SessionLastAttached) == s.lastAttached
      && Get(r, SessionManyAttached) == Flag(s.manyAttached)
  {
    assert Get(r, SessionVar(12)) == Printed(SessionField(s, 12));
    assert Get(r, SessionVar(13)) == Printed(SessionField(s, 13));
    assert Get(r, SessionVar(14)) == Printed(SessionField(s, 14));
    assert Get(r, SessionVar(15)) == Printed(SessionField(s, 15));
  }

  lemma SessionHoldsFrom16(s: Session, r: Record)
    requires forall k :: 0 <= k < 21 ==> Get(r, SessionVar(k)) == Printed(SessionField(s, k))
    ensures Get(r, SessionMarked) == Flag(s.marked)
      && Get(r, SessionName) == s.name
      && Get(r, SessionPath) == s.path
      && Get(r, SessionStack) == s.stack
  {
    assert Get(r, SessionVar(16)) == Printed(SessionField(s, 16));
    assert Get(r, SessionVar(17)) == Printed(SessionField(s, 17));
    assert Get(r, SessionVar(18)) == Printed(SessionField(s, 18));
    assert Get(r, SessionVar(19)) == Printed(SessionField(s, 19));
  }

  lemma SessionHoldsFrom20(s: Session, r: Record)
    requires forall k :: 0 <= k < 21 ==> Get(r, SessionVar(k)) == Printed(SessionField(s, k))
    ensures Get(r, SessionWindows) == Itoa(s.windows)
  {
    assert Get(r, SessionVar(20)) == Printed(SessionField(s, 20));
  }

  /** A record holding what tmux prints for a readable session decodes to that session. */
  lemma SessionReads(s: Session, r: Record)
    requires ReadableSession(s) && HoldsSession(r, s)
    ensures ToSession(r, s.tmux) == s
  {
    SessionReadsFrom0(s, r);
    SessionReadsFrom6(s, r);
    SessionReadsFrom12(s, r);
    SessionReadsFrom18(s, r);
  }

  lemma SessionReadsFrom0(s: Session, r: Record)
    requires ReadableSession(s) && HoldsSession(r, s)
    ensures var d := ToSession(r, s.tmux);
      d.activity == s.activity && d.alerts == s.alerts && d.attached == s.attached
      && d.attachedList == s.attachedList && d.created == s.created && d.format == s.format
      && d.tmux == s.tmux
  {
    AtoiReadsBack(Get(r, SessionAttached), s.attached);
    ParseListReadsBack(Get(r, SessionAttachedList), s.attachedList);
  }

  lemma SessionReadsFrom6(s: Session, r: Record)
    requires ReadableSession(s) && HoldsSession(r, s)
    ensures var d := ToSession(r, s.tmux);
      d.group == s.group && d.groupAttached == s.groupAttached && d.groupAttachedList == s.groupAttachedList
      && d.groupList == s.groupList && d.groupManyAttached == s.groupManyAttached && d.groupSize == s.groupSize
  {
    AtoiReadsBack(Get(r, SessionGroupAttached), s.groupAttached);
    ParseListReadsBack(Get(r, SessionGroupAttachedList), s.groupAttachedList);
    ParseListReadsBack(Get(r, SessionGroupList), s.groupList);
    AtoiReadsBack(Get(r, SessionGroupSize), s.groupSize);
  }

  lemma SessionReadsFrom12(s: Session, r: Record)
    requires ReadableSession(s) && HoldsSession(r, s)
    ensures var d := ToSession(r, s.tmux);
      d.grouped == s.grouped && d.id == s.id && d.lastAttached == s.lastAttached
      && d.manyAttached == s.manyAttached && d.marked == s.marked && d.name == s.name
  {
  }

  lemma SessionReadsFrom18(s: Session, r: Record)
    requires ReadableSession(s) && HoldsSession(r, s)
    ensures var d := ToSession(r, s.tmux);
      d.path == s.path && d.stack == s.stack && d.windows == s.windows
  {
    AtoiReadsBack(Get(r, SessionWindows), s.windows);
  }

  /** Decoding is total: a record holding none of the names gives the zero session. */
  lemma SessionDefaults(t: Tmux)
    ensures ToSession(map[], t) == Session("", "", 0, [""], "", false, "", 0, [""], [""], false, 0, false, "", "", false, false, "", "", "", 0, t)
  {
    ParseListSingle("");
  }

  /** How tmux prints a list of sessions: one row per session. */
  function SessionRows(xs: seq<Session>): (rows: seq<seq<string>>)
    ensures |rows| == |xs|
    ensures forall i :: 0 <= i < |xs| ==> rows[i] == EncodeSession(xs[i])
  {
    seq(|xs|, i requires 0 <= i < |xs| => EncodeSession(xs[i]))
  }

  /** The decoder a listing through handle `t` applies to each record. */
  function SessionDecoder(t: Tmux): Record -> Session
  {
    r => ToSession(r, t)
  }

  /**
   Listing round trip: the rows tmux prints for readable sessions, all read
   through handle `t`, decode back to those sessions, in order.
   */
  lemma SessionsListed(xs: seq<Session>, t: Tmux)
    requires forall i :: 0 <= i < |xs| ==> ReadableSession(xs[i]) && xs[i].tmux == t
    ensures DecodeAll(Output(Table(SessionRows(xs)), SessionVars()), SessionDecoder(t)) == Ok(xs)
  {
    var rows := SessionRows(xs);
    forall k | 0 <= k < |rows|
      ensures |rows[k]| == |SessionVars()| && RowValues(rows[k])
      ensures SessionDecoder(t)(Zip(SessionVars(), rows[k])) == xs[k]
    {
      SessionRowValues(xs[k]);
      SessionRoundTrip(xs[k]);
    }
    DecodeTable(SessionVars(), rows, SessionDecoder(t), xs);
  }

  // ---------------------------------------------------------------------
  // Listing sessions

  /** The query of `Tmux.ListSessions`: `list-sessions`, formatted with the session variables. */
  function ListSessionsQuery(t: Tmux): (q: Query)
    ensures q.command == SocketPrefix(t) + ["list-sessions"]
    ensures q.fArgs == [] && q.pArgs == []
    ensures q.variables == SessionVars()
  {
    Vars(Cmd(TmuxQuery(t), ["list-sessions"]), SessionVars())
  }

  /** `Tmux.ListSessions`: every session tmux lists, each decoded with handle `t`. */
  function ListSessions(t: Tmux, run: Runner): (r: Result<seq<Session>>)
    ensures Run(ListSessionsQuery(t), run).Failed? <==> r == Err(CommandFailed("failed to list sessions"))
    ensures Run(ListSessionsQuery(t), run).Ran? ==> r == DecodeAll(Output(Run(ListSessionsQuery(t), run).stdout, SessionVars()), SessionDecoder(t))
  {
    ListOf(ListSessionsQuery(t), run, "failed to list sessions", SessionDecoder(t))
  }

  /** Listing the sessions tmux printed gives back exactly those sessions, in order. */
  lemma ListSessionsReads(t: Tmux, ss: seq<Session>, run: Runner)
    requires forall i :: 0 <= i < |ss| ==> ReadableSession(ss[i]) && ss[i].tmux == t
    requires Run(ListSessionsQuery(t), run) == Ran(Table(SessionRows(ss)))
    ensures ListSessions(t, run) == Ok(ss)
  {
    SessionsListed(ss, t);
  }

  // ---------------------------------------------------------------------
  // The clients of a session

  /** Whether a client is attached to session `s`. */
  function AttachedTo(s: Session): Client -> bool
  {
    (c: Client) => c.session == s.name
  }

  /** The clients attached to `s`, in the order they were listed. */
  function SessionClients(s: Session, clients: seq<Client>): (r: seq<Client>)
    ensures |r| <= |clients|
    ensures forall i :: 0 <= i < |r| ==> r[i].session == s.name
  {
    Filter(clients, AttachedTo(s))
  }

  /**
   Exactly the listed clients attached to `s` are kept, and listing order is
   kept: the clients of a concatenation are those of each part, in turn.
   */
  lemma SessionClientsExactly(s: Session, clients: seq<Client>, more: seq<Client>, c: Client)
    ensures c in SessionClients(s, clients) <==> c in clients && c.session == s.name
    ensures SessionClients(s, clients + more) == SessionClients(s, clients) + SessionClients(s, more)
  {
    FilterMembers(clients, AttachedTo(s), c);
    FilterAppend(clients, more, AttachedTo(s));
  }

  /** `Session.ListClients`: list every client, keep those attached to `s`; a listing error is passed on. */
  function ListSessionClients(s: Session, run: Runner): (r: Result<seq<Client>>)
    ensures r.Err? <==> ListClients(s.tmux, run).Err?
    ensures r.Err? ==> r.error == ListClients(s.tmux, run).error
    ensures r.Ok? ==> forall c :: c in r.value <==> c in ListClients(s.tmux, run).value && c.session == s.name
  {
    match ListClients(s.tmux, run)
    case Err(e) => Err(e)
    case Ok(clients) =>
      var r := SessionClients(s, clients);
      assert forall c :: c in r <==> c in clients && c.session == s.name by {
        forall c ensures c in r <==> c in clients && c.session == s.name {
          SessionClientsExactly(s, clients, [], c);
        }
      }
      Ok(r)
  }

  // ---------------------------------------------------------------------
  // Attaching and detaching

  /** Options of `Session.AttachSession`. */
  datatype AttachSessionOptions = AttachSessionOptions(workingDir: string, detachClients: bool)

  /** The zero options, which a nil options argument behaves as. */
  const NoAttachSessionOptions := AttachSessionOptions("", false)

  /** The flags tmux's `attach-session` reads a value for. */
  const AttachSessionValued: set<string> := {"-t", "-c"}

  /**
   The query of `Session.AttachSession`: target the session by name, then
   `-d` when other clients are to be detached, then `-c dir` when a working
   directory is given, in that order.
   */
  function AttachSessionQuery(s: Session, op: Option<AttachSessionOptions>): (q: Query)
    ensures q.command == SocketPrefix(s.tmux) + ["attach-session"]
    ensures var o := GetOr(op, NoAttachSessionOptions);
      q.fArgs == ["-t", s.name]
        + (if o.detachClients then ["-d"] else [])
        + (if o.workingDir != "" then ["-c", o.workingDir] else [])
    ensures q.pArgs == [] && q.variables == []
  {
    var q := FArgs(Cmd(TmuxQuery(s.tmux), ["attach-session"]), ["-t", s.name]);
    match op
    case None => q
    case Some(o) =>
      var q := if o.detachClients then FArgs(q, ["-d"]) else q;
      if o.workingDir != "" then FArgs(q, ["-c", o.workingDir]) else q
  }

  /** What tmux reads from the attach flags: the target, and each option that was given. */
  lemma AttachSessionFlags(s: Session, op: Option<AttachSessionOptions>)
    ensures var o := GetOr(op, NoAttachSessionOptions);
      Read(AttachSessionQuery(s, op).fArgs, AttachSessionValued)
        == Some(Flagged(Flagged(map["-t" := s.name], o.detachClients, "-d", ""), o.workingDir != "", "-c", o.workingDir))
  {
    var o := GetOr(op, NoAttachSessionOptions);
    var a := ["-t", s.name];
    var b := if o.detachClients then ["-d"] else [];
    var c := if o.workingDir != "" then ["-c", o.workingDir] else [];
    ReadStep(map[], [], a, AttachSessionValued);
    assert [] + a == a;
    ReadStep(map[], a, b, AttachSessionValued);
    ReadStep(map[], a + b, c, AttachSessionValued);
  }

  /** `Session.AttachSession`: the command takes over the terminal; only its failure is reported. */
  function AttachSession(s: Session, op: Option<AttachSessionOptions>, run: Runner): (r: Result<()>)
    ensures r.Ok? <==> Run(AttachSessionQuery(s, op), run).Ran?
    ensures r.Err? ==> r.error == CommandFailed("failed to attach session")
  {
    RunDiscard(AttachSessionQuery(s, op), run, "failed to attach session")
  }

  /** The query of `Session.Attach`: `AttachSession`'s with nil options, so only the target. */
  function AttachQuery(s: Session): (q: Query)
    ensures q == AttachSessionQuery(s, None)
    ensures q.fArgs == ["-t", s.name]
    ensures Read(q.fArgs, AttachSessionValued) == Some(map["-t" := s.name])
  {
    AttachSessionFlags(s, None);
    AttachSessionQuery(s, None)
  }

  /** `Session.Attach`: attaching with the default options. */
  function Attach(s: Session, run: Runner): (r: Result<()>)
    ensures r.Ok? <==> Run(AttachQuery(s), run).Ran?
    ensures r == AttachSession(s, None, run)
  {
    AttachSession(s, None, run)
  }

  /** The query of `Session.Detach`: `detach-client -s <name>`, detaching every client of the session. */
  function DetachQuery(s: Session): (q: Query)
    ensures q.command == SocketPrefix(s.tmux) + ["detach-client"]
    ensures q.fArgs == ["-s", s.name]
    ensures q.pArgs == [] && q.variables == []
  {
    FArgs(Cmd(TmuxQuery(s.tmux), ["detach-client"]), ["-s", s.name])
  }

  /** `Session.Detach`. */
  function Detach(s: Session, run: Runner): (r: Result<()>)
    ensures r.Ok? <==> Run(DetachQuery(s), run).Ran?
    ensures r.Err? ==> r.error == CommandFailed("failed to detach session")
  {
    RunDiscard(DetachQuery(s), run, "failed to detach session")
  }

  // ---------------------------------------------------------------------
  // Renaming

  /** The query of `Session.Rename`: target the current name, the new name as the only positional. */
  function RenameSessionQuery(s: Session, name: string): (q: Query)
    ensures q.command == SocketPrefix(s.tmux) + ["rename-session"]
    ensures q.fArgs == ["-t", s.name]
    ensures q.pArgs == [name] && q.variables == []
  {
    PArgs(FArgs(Cmd(TmuxQuery(s.tmux), ["rename-session"]), ["-t", s.name]), [name])
  }

  /**
   `Session.Rename`: the session afterwards, and the outcome. The name changes
   only when tmux succeeded; nothing else about the session changes.
   */
  function RenameSession(s: Session, name: string, run: Runner): (res: (Session, Result<()>))
    ensures res.1.Ok? <==> Run(RenameSessionQuery(s, name), run).Ran?
    ensures res.1.Err? ==> res.1.error == CommandFailed("failed to rename session")
    ensures res.0.name == (if Run(RenameSessionQuery(s, name), run).Ran? then name else s.name)
    ensures res.0.(name := s.name) == s
  {
    match RunDiscard(RenameSessionQuery(s, name), run, "failed to rename session")
    case Err(e) => (s, Err(e))
    case Ok(_) => (s.(name := name), Ok(()))
  }

  /** After a successful rename, the next command on the session targets the new name. */
  lemma RenameThenTarget(s: Session, name: string, run: Runner, next: string)
    requires Run(RenameSessionQuery(s, name), run).Ran?
    ensures RenameSessionQuery(RenameSession(s, name, run).0, next).fArgs == ["-t", name]
  {
  }

  // ---------------------------------------------------------------------
  // Windows of a session

  /** The query of `Session.ListWindows`: `list-windows -t <name>`, formatted with the window variables. */
  function ListWindowsQuery(s: Session): (q: Query)
    ensures q.command == SocketPrefix(s.tmux) + ["list-windows"]
    ensures q.fArgs == ["-t", s.name] && q.pArgs == []
    ensures q.variables == WindowVars()
  {
    Vars(FArgs(Cmd(TmuxQuery(s.tmux), ["list-windows"]), ["-t", s.name]), WindowVars())
  }

  /** `Session.ListWindows`: the windows tmux lists for the session, decoded with the session's handle. */
  function ListWindows(s: Session, run: Runner): (r: Result<seq<Window>>)
    ensures Run(ListWindowsQuery(s), run).Failed? <==> r == Err(CommandFailed("failed to list windows"))
    ensures Run(ListWindowsQuery(s), run).Ran? ==> r == DecodeAll(Output(Run(ListWindowsQuery(s), run).stdout, WindowVars()), WindowDecoder(s.tmux))
  {
    ListOf(ListWindowsQuery(s), run, "failed to list windows", WindowDecoder(s.tmux))
  }

  /** Listing the windows tmux printed gives back exactly those windows, in order. */
  lemma ListWindowsReads(s: Session, ws: seq<Window>, run: Runner)
    requires forall i :: 0 <= i < |ws| ==> ReadableWindow(ws[i]) && ws[i].tmux == s.tmux
    requires Run(ListWindowsQuery(s), run) == Ran(Table(WindowRows(ws)))
    ensures ListWindows(s, run) == Ok(ws)
  {
    WindowsListed(ws, s.tmux);
  }

  /** Options of `Session.NewWindow`. */
  datatype NewWindowOptions = NewWindowOptions(startDirectory: string, windowName: string, doNotAttach: bool)

  const NoNewWindowOptions := NewWindowOptions("", "", false)

  /** The flags tmux's `new-window` reads a value for. */
  const NewWindowValued: set<string> := {"-t", "-c", "-n"}

  /**
   The query of `Session.NewWindow`: print the new window (`-P`) in the
   session, then `-c dir`, `-n name` and `-d`, each only when given, in that
   order; formatted with the window variables.
   */
  function NewWindowQuery(s: Session, op: Option<NewWindowOptions>): (q: Query)
    ensures q.command == SocketPrefix(s.tmux) + ["new-window"]
    ensures var o := GetOr(op, NoNewWindowOptions);
      q.fArgs == ["-P", "-t", s.name] + Given(o.startDirectory != "", ["-c", o.startDirectory])
        + Given(o.windowName != "", ["-n", o.windowName]) + Given(o.doNotAttach, ["-d"])
    ensures q.pArgs == [] && q.variables == WindowVars()
  {
    var q := Vars(FArgs(Cmd(TmuxQuery(s.tmux), ["new-window"]), ["-P", "-t", s.name]), WindowVars());
    match op
    case None => q
    case Some(o) =>
      FArgsIf(FArgsIf(FArgsIf(q, o.startDirectory != "", ["-c", o.startDirectory]),
        o.windowName != "", ["-n", o.windowName]), o.doNotAttach, ["-d"])
  }

  /** What tmux reads from the new-window flags. */
  lemma NewWindowFlags(s: Session, op: Option<NewWindowOptions>)
    ensures var o := GetOr(op, NoNewWindowOptions);
      Read(NewWindowQuery(s, op).fArgs, NewWindowValued)
        == Some(Flagged(Flagged(Flagged(map["-P" := "", "-t" := s.name],
             o.startDirectory != "", "-c", o.startDirectory),
             o.windowName != "", "-n", o.windowName),
             o.doNotAttach, "-d", ""))
  {
    WindowFlagsRead(s.name, GetOr(op, NoNewWindowOptions));
  }

  lemma WindowFlagsRead(name: string, o: NewWindowOptions)
    ensures Read(["-P", "-t", name] + Given(o.startDirectory != "", ["-c", o.startDirectory])
        + Given(o.windowName != "", ["-n", o.windowName]) + Given(o.doNotAttach, ["-d"]), NewWindowValued)
      == Some(Flagged(Flagged(Flagged(map["-P" := "", "-t" := name],
           o.startDirectory != "", "-c", o.startDirectory),
           o.windowName != "", "-n", o.windowName),
           o.doNotAttach, "-d", ""))
  {
    var V := NewWindowValued;
    var a := ["-P", "-t", name];
    assert Read(a, V) == Some(map["-P" := "", "-t" := name]) by {
      ReadStep(map[], ["-P"], ["-t", name], V);
    }
    var b := a + Given(o.startDirectory != "", ["-c", o.startDirectory]);
    ReadGiven(map[], a, o.startDirectory != "", "-c", o.startDirectory, V);
    var c := b + Given(o.windowName != "", ["-n", o.windowName]);
    ReadGiven(map[], b, o.windowName != "", "-n", o.windowName, V);
    ReadGivenSwitch(map[], c, o.doNotAttach, "-d", V);
  }

  /** `Session.NewWindow`: the window tmux printed, decoded with the session's handle. */
  function NewWindow(s: Session, op: Option<NewWindowOptions>, run: Runner): (r: Result<Window>)
    ensures Run(NewWindowQuery(s, op), run).Failed? <==> r == Err(CommandFailed("failed to create window"))
    ensures Run(NewWindowQuery(s, op), run).Ran? && One(Output(Run(NewWindowQuery(s, op), run).stdout, WindowVars())).Ok? ==>
      r == Ok(ToWindow(One(Output(Run(NewWindowQuery(s, op), run).stdout, WindowVars())).value, s.tmux))
    ensures Run(NewWindowQuery(s, op), run).Ran? && One(Output(Run(NewWindowQuery(s, op), run).stdout, WindowVars())).Err? ==> r == Err(One(Output(Run(NewWindowQuery(s, op), run).stdout, WindowVars())).error)
  {
    OneOf(NewWindowQuery(s, op), run, "failed to create window", WindowDecoder(s.tmux))
  }

  /** The window tmux prints for the new window is the window `NewWindow` returns. */
  lemma NewWindowReads(s: Session, op: Option<NewWindowOptions>, w: Window, run: Runner)
    requires ReadableWindow(w) && w.tmux == s.tmux
    requires Run(NewWindowQuery(s, op), run) == Ran(Row(EncodeWindow(w)) + "\n")
    ensures NewWindow(s, op, run) == Ok(w)
  {
    WindowRowValues(w);
    OneRow(WindowVars(), EncodeWindow(w));
    WindowRoundTrip(w);
  }
}

=== FILE: strings.dfy ===
/**
 The handful of Go standard-library string primitives the binding leans on,
 defined from scratch over `seq<char>`: `strings.Index`, `strings.Contains`,
 `strings.Split` (non-empty separator), `strings.Join`, `strings.Trim` with a
 one-character cutset, `strconv.Atoi` and `strconv.Itoa`, and the
 conversion of a 64-bit `int` to `int32`.
 */
module GoStrings {

  /** True when `sep` occurs in `s` starting at position `i`. */
  predicate OccursAt(s: string, sep: string, i: int)
  {
    0 <= i && i + |sep| <= |s| && s[i..i + |sep|] == sep
  }

  /** `strings.Contains`. */
  predicate Contains(s: string, sep: string)
  {
    exists i :: 0 <= i <= |s| && OccursAt(s, sep, i)
  }

  /** `strings.Index`: the position of the first occurrence of `sep`, or -1. */
  function Index(s: string, sep: string): (r: int)
    ensures -1 <= r <= |s|
    ensures r >= 0 ==> OccursAt(s, sep, r)
    ensures r >= 0 ==> forall i :: 0 <= i < r ==> !OccursAt(s, sep, i)
    ensures r == -1 <==> !Contains(s, sep)
    decreases |s|
  {
    if |s| < |sep| then
      assert forall i :: !OccursAt(s, sep, i);
      -1
    else if s[..|sep|] == sep then
      assert OccursAt(s, sep, 0);
      0
    else
      var k := Index(s[1..], sep);
      ShiftOccurrence(s, sep);
      assert !OccursAt(s, sep, 0);
      if k < 0 then
        assert forall i :: 1 <= i ==> !OccursAt(s, sep, i);
        -1
      else
        assert forall i :: 0 <= i < k ==> !OccursAt(s[1..], sep, i);
        k + 1
  }

  /** Occurrences in `s[1..]` are the occurrences in `s` shifted by one. */
  lemma ShiftOccurrence(s: string, sep: string)
    requires |s| > 0
    ensures forall i :: 1 <= i ==> (OccursAt(s, sep, i) <==> OccursAt(s[1..], sep, i - 1))
  {
    forall i | 1 <= i
      ensures OccursAt(s, sep, i) <==> OccursAt(s[1..], sep, i - 1)
    {
      if i + |sep| <= |s| {
        assert s[1..][i - 1..i - 1 + |sep|] == s[i..i + |sep|];
      }
    }
  }

  /** `Index` is the unique first occurrence. */
  lemma IndexIs(s: string, sep: string, i: int)
    requires OccursAt(s, sep, i)
    requires forall j :: 0 <= j < i ==> !OccursAt(s, sep, j)
    ensures Index(s, sep) == i
  {
  }

  /** `strings.Split` with a non-empty separator. */
  function Split(s: string, sep: string): (r: seq<string>)
    requires |sep| > 0
    ensures |r| >= 1
    ensures forall k :: 0 <= k < |r| ==> !Contains(r[k], sep)
    decreases |s|
  {
    var i := Index(s, sep);
    if i < 0 then
      [s]
    else
      PrefixBeforeFirst(s, sep, i);
      [s[..i]] + Split(s[i + |sep|..], sep)
  }

  /** The text before the first occurrence of `sep` does not contain `sep`. */
  lemma PrefixBeforeFirst(s: string, sep: string, i: int)
    requires |sep| > 0
    requires 0 <= i <= |s|
    requires forall j :: 0 <= j < i ==> !OccursAt(s, sep, j)
    ensures !Contains(s[..i], sep)
  {
    forall j | 0 <= j <= i
      ensures !OccursAt(s[..i], sep, j)
    {
      if j + |sep| <= i {
        assert s[..i][j..j + |sep|] == s[j..j + |sep|];
        assert !OccursAt(s, sep, j);
      }
    }
  }

  /** `strings.Join`. */
  function Join(parts: seq<string>, sep: string): string
    decreases |parts|
  {
    if |parts| == 0 then ""
    else if |parts| == 1 then parts[0]
    else parts[0] + sep + Join(parts[1..], sep)
  }

  /** A character in neither the pieces nor the separator is not in their join. */
  lemma {:induction false} JoinAvoids(parts: seq<string>, sep: string, c: char)
    requires c !in sep
    requires forall k :: 0 <= k < |parts| ==> c !in parts[k]
    ensures c !in Join(parts, sep)
    decreases |parts|
  {
    if |parts| > 1 {
      JoinAvoids(parts[1..], sep, c);
    }
  }

  /** Joining the pieces of a split gives back the original text, for every input. */
  lemma {:induction false} JoinSplit(s: string, sep: string)
    requires |sep| > 0
    ensures Join(Split(s, sep), sep) == s
    decreases |s|
  {
    var i := Index(s, sep);
    if i >= 0 {
      var rest := s[i + |sep|..];
      JoinSplit(rest, sep);
      SplitAtFirst(s, sep);
      JoinCons(s[..i], Split(rest, sep), sep);
    }
  }

  /** Split cuts at the first occurrence, and the text is the piece before it, the separator and the rest. */
  lemma SplitAtFirst(s: string, sep: string)
    requires |sep| > 0 && Index(s, sep) >= 0
    ensures var i := Index(s, sep);
      && Split(s, sep) == [s[..i]] + Split(s[i + |sep|..], sep)
      && s == s[..i] + sep + s[i + |sep|..]
  {
    var i := Index(s, sep);
    Around(s, i, i + |sep|);
  }

  lemma Around(s: string, i: int, j: int)
    requires 0 <= i <= j <= |s|
    ensures s == s[..i] + s[i..j] + s[j..]
  {
  }

  /** Joining a piece in front of at least one other puts the separator between them. */
  lemma JoinCons(a: string, tail: seq<string>, sep: string)
    requires |tail| >= 1
    ensures Join([a] + tail, sep) == a + sep + Join(tail, sep)
  {
    assert ([a] + tail)[1..] == tail;
  }

  /**
   A value `v` followed by a separator does not create a match of `sep`
   anywhere before the separator itself.
   */
  predicate NoMatchAcross(v: string, sep: string)
    requires |sep| > 0
  {
    !Contains(v + sep[..|sep| - 1], sep)
  }

  /**
   The pieces `parts` survive being joined and split again: no piece followed
   by the separator creates an earlier match, and the last piece holds none.
   */
  predicate Separable(parts: seq<string>, sep: string)
    requires |sep| > 0
  {
    && |parts| >= 1
    && (forall k :: 0 <= k < |parts| - 1 ==> NoMatchAcross(parts[k], sep))
    && !Contains(parts[|parts| - 1], sep)
  }

  /** Splitting a join of separable pieces gives back exactly those pieces. */
  lemma {:induction false} SplitJoin(parts: seq<string>, sep: string)
    requires |sep| > 0
    requires Separable(parts, sep)
    ensures Split(Join(parts, sep), sep) == parts
    decreases |parts|
  {
    if |parts| == 1 {
      assert Index(parts[0], sep) == -1;
    } else {
      SeparableTail(parts, sep);
      SplitJoin(parts[1..], sep);
      SplitFront(parts[0], sep, Join(parts[1..], sep));
    }
  }

  lemma SeparableTail(parts: seq<string>, sep: string)
    requires |sep| > 0
    requires Separable(parts, sep) && |parts| >= 2
    ensures Separable(parts[1..], sep)
    ensures NoMatchAcross(parts[0], sep)
    ensures Join(parts, sep) == parts[0] + sep + Join(parts[1..], sep)
  {
  }

  /** Splitting `v + sep + rest` cuts at the separator written after `v`. */
  lemma SplitFront(v: string, sep: string, rest: string)
    requires |sep| > 0
    requires NoMatchAcross(v, sep)
    ensures Split(v + sep + rest, sep) == [v] + Split(rest, sep)
  {
    var s := v + sep + rest;
    assert s[|v|..|v| + |sep|] == sep;
    var w := v + sep[..|sep| - 1];
    assert s[..|w|] == w;
    forall j | 0 <= j < |v|
      ensures !OccursAt(s, sep, j)
    {
      assert j + |sep| <= |w|;
      assert s[j..j + |sep|] == w[j..j + |sep|] by {
        assert s[..|w|][j..j + |sep|] == s[j..j + |sep|];
      }
      assert !OccursAt(w, sep, j);
    }
    IndexIs(s, sep, |v|);
    assert s[..|v|] == v;
    assert s[|v| + |sep|..] == rest;
  }

  /** A value without the separator's first character never creates a match of it. */
  lemma NoMatchWithoutFirstChar(v: string, sep: string)
    requires |sep| > 0
    requires sep[0] !in v
    ensures NoMatchAcross(v, sep)
    ensures !Contains(v, sep)
  {
    var w := v + sep[..|sep| - 1];
    forall j | 0 <= j <= |w|
      ensures !OccursAt(w, sep, j)
    {
      if j + |sep| <= |w| {
        assert w[j..j + |sep|][0] == w[j];
        if j < |v| {
          assert w[j] == v[j];
        }
      }
    }
    forall j | 0 <= j <= |v|
      ensures !OccursAt(v, sep, j)
    {
      if j + |sep| <= |v| {
        assert v[j..j + |sep|][0] == v[j];
      }
    }
  }

  /** Text made of `lines`, each ended by a newline. */
  function Lines(lines: seq<string>): string
    decreases |lines|
  {
    if |lines| == 0 then "" else lines[0] + "\n" + Lines(lines[1..])
  }

  lemma LinesSingle(line: string)
    ensures Lines([line]) == line + "\n"
  {
    assert [line][1..] == [];
    assert line + "\n" + "" == line + "\n";
  }

  /** Splitting newline-ended lines on newlines gives the lines and one empty remainder. */
  lemma {:induction false} SplitLines(lines: seq<string>)
    requires forall k :: 0 <= k < |lines| ==> '\n' !in lines[k]
    ensures Split(Lines(lines), "\n") == lines + [""]
    decreases |lines|
  {
    if |lines| == 0 {
      assert Index("", "\n") == -1;
    } else {
      assert [lines[0]] + (lines[1..] + [""]) == lines + [""];
      NoMatchWithoutFirstChar(lines[0], "\n");
      SplitFront(lines[0], "\n", Lines(lines[1..]));
      SplitLines(lines[1..]);
    }
  }

  /** Number of occurrences of the character `c` in `s`. */
  function CharCount(s: string, c: char): nat
    decreases |s|
  {
    if |s| == 0 then 0 else (if s[0] == c then 1 else 0) + CharCount(s[1..], c)
  }

  lemma CharCountAppend(a: string, b: string, c: char)
    ensures CharCount(a + b, c) == CharCount(a, c) + CharCount(b, c)
  {
    if |a| == 0 {
      assert a + b == b;
    } else {
      assert (a + b)[0] == a[0];
      assert (a + b)[1..] == a[1..] + b;
      CharCountAppend(a[1..], b, c);
    }
  }

  lemma {:induction false} CharCountPresent(s: string, c: char)
    requires c in s
    ensures CharCount(s, c) >= 1
    decreases |s|
  {
    if s[0] != c {
      assert c in s[1..];
      CharCountPresent(s[1..], c);
    }
  }

  lemma CharCountAbsent(s: string, c: char)
    requires c !in s
    ensures CharCount(s, c) == 0
  {
    if |s| > 0 {
      assert c !in s[1..];
      CharCountAbsent(s[1..], c);
    }
  }

  /** Splitting on a one-character separator gives one more piece than there are separators. */
  lemma {:induction false} SplitCharCount(s: string, c: char)
    ensures |Split(s, [c])| == CharCount(s, c) + 1
    decreases |s|
  {
    var i := Index(s, [c]);
    if i < 0 {
      forall k | 0 <= k < |s| ensures s[k] != c {
        assert !OccursAt(s, [c], k);
      }
      CharCountAbsent(s, c);
    } else {
      var rest := s[i + 1..];
      SplitCharCount(rest, c);
      assert s == s[..i] + [c] + rest by {
        assert s[i..i + 1] == [c];
      }
      forall k | 0 <= k < i ensures s[k] != c {
        assert !OccursAt(s, [c], k);
      }
      assert c !in s[..i];
      CharCountAbsent(s[..i], c);
      CharCountAppend(s[..i] + [c], rest, c);
      CharCountAppend(s[..i], [c], c);
    }
  }

  /** With a one-character separator, "contains" is plain membership. */
  lemma ContainsChar(s: string, c: char)
    ensures Contains(s, [c]) <==> c in s
  {
    if c in s {
      var k :| 0 <= k < |s| && s[k] == c;
      assert s[k..k + 1] == [c];
      assert OccursAt(s, [c], k);
    }
    if Contains(s, [c]) {
      var k :| 0 <= k <= |s| && OccursAt(s, [c], k);
      assert s[k..k + 1][0] == s[k];
    }
  }

  // ---------------------------------------------------------------------
  // strings.Trim with a one-character cutset

  /** `strings.TrimLeft(s, [c])`: drops every leading `c`. */
  function TrimLeft(s: string, c: char): (r: string)
    ensures |r| <= |s| && r == s[|s| - |r|..]
    ensures forall k :: 0 <= k < |s| - |r| ==> s[k] == c
    ensures |r| > 0 ==> r[0] != c
    decreases |s|
  {
    if |s| > 0 && s[0] == c then TrimLeft(s[1..], c) else s
  }

  /** `strings.TrimRight(s, [c])`: drops every trailing `c`. */
  function TrimRight(s: string, c: char): (r: string)
    ensures |r| <= |s| && r == s[..|r|]
    ensures forall k :: |r| <= k < |s| ==> s[k] == c
    ensures |r| > 0 ==> r[|r| - 1] != c
    decreases |s|
  {
    if |s| > 0 && s[|s| - 1] == c then TrimRight(s[..|s| - 1], c) else s
  }

  /** `strings.Trim(s, [c])`: drops every leading and every trailing `c`. */
  function Trim(s: string, c: char): string
  {
    TrimRight(TrimLeft(s, c), c)
  }

  /** `n` copies of the character `c`. */
  function Repeat(c: char, n: nat): (r: string)
    ensures |r| == n && forall k :: 0 <= k < n ==> r[k] == c
  {
    if n == 0 then "" else [c] + Repeat(c, n - 1)
  }

  /**
   Trim removes every surrounding copy of `c`, however many there are, and
   nothing of a middle part that neither starts nor ends with `c`.
   */
  lemma TrimSurrounded(m: string, c: char, before: nat, after: nat)
    requires m == "" || (m[0] != c && m[|m| - 1] != c)
    ensures Trim(Repeat(c, before) + m + Repeat(c, after), c) == m
  {
    if m == "" {
      TrimOnlyCutset(c, before, after);
    } else {
      TrimAroundMiddle(m, c, before, after);
    }
  }

  lemma TrimOnlyCutset(c: char, before: nat, after: nat)
    ensures Trim(Repeat(c, before) + "" + Repeat(c, after), c) == ""
  {
    assert Repeat(c, before) + "" + Repeat(c, after) == Repeat(c, before + after);
    TrimLeftAll(Repeat(c, before + after), c);
  }

  lemma TrimAroundMiddle(m: string, c: char, before: nat, after: nat)
    requires |m| > 0 && m[0] != c && m[|m| - 1] != c
    ensures Trim(Repeat(c, before) + m + Repeat(c, after), c) == m
  {
    TrimLeftPrefix(m, Repeat(c, after), c, before);
    TrimRightSuffix(m, c, after);
  }

  /** A string made only of `c` trims to nothing. */
  lemma TrimLeftAll(s: string, c: char)
    requires forall k :: 0 <= k < |s| ==> s[k] == c
    ensures TrimLeft(s, c) == "" && Trim(s, c) == ""
  {
  }

  /** TrimLeft removes exactly a leading run of `c` in front of a part that does not start with `c`. */
  lemma {:induction false} TrimLeftPrefix(a: string, b: string, c: char, n: nat)
    requires |a| > 0 && a[0] != c
    ensures TrimLeft(Repeat(c, n) + a + b, c) == a + b
    decreases n
  {
    var s := Repeat(c, n) + a + b;
    if n == 0 {
      assert s == a + b;
    } else {
      assert s[0] == c;
      assert s[1..] == Repeat(c, n - 1) + a + b;
      TrimLeftPrefix(a, b, c, n - 1);
    }
  }

  /** TrimRight removes exactly a trailing run of `c` behind a part that does not end with `c`. */
  lemma TrimRightSuffix(t: string, c: char, n: nat)
    requires |t| > 0 && t[|t| - 1] != c
    ensures TrimRight(t + Repeat(c, n), c) == t
  {
    var s := t + Repeat(c, n);
    var r := TrimRight(s, c);
    assert s[|t| - 1] == t[|t| - 1];
  }

  // ---------------------------------------------------------------------
  // strconv.Atoi / strconv.Itoa and Go's integer widths

  predicate IsDigit(c: char)
  {
    '0' <= c <= '9'
  }

  predicate AllDigits(s: string)
  {
    forall k :: 0 <= k < |s| ==> IsDigit(s[k])
  }

  /** The value of a string of decimal digits, most significant first. */
  function DecimalValue(s: string): nat
    requires AllDigits(s)
    decreases |s|
  {
    if |s| == 0 then 0
    else 10 * DecimalValue(s[..|s| - 1]) + (s[|s| - 1] as int - '0' as int)
  }

  /** The syntax `strconv.Atoi` accepts in base 10: an optional sign, then at least one digit. */
  predicate IsDecimal(s: string)
  {
    if |s| > 0 && (s[0] == '+' || s[0] == '-') then |s| > 1 && AllDigits(s[1..])
    else |s| > 0 && AllDigits(s)
  }

  /** The range of Go's 64-bit `int`. */
  const MinInt64: int := -0x8000_0000_0000_0000
  const MaxInt64: int := 0x7fff_ffff_ffff_ffff

  predicate InInt64(n: int)
  {
    MinInt64 <= n <= MaxInt64
  }

  /** The value `strconv.Atoi` reports for an out-of-range decimal: the nearest bound. */
  function Clamp64(n: int): (r: int)
    ensures InInt64(r)
    ensures InInt64(n) ==> r == n
    ensures n > MaxInt64 ==> r == MaxInt64
    ensures n < MinInt64 ==> r == MinInt64
  {
    if n > MaxInt64 then MaxInt64 else if n < MinInt64 then MinInt64 else n
  }

  /** The signed value of a decimal string. */
  function SignedValue(s: string): int
    requires IsDecimal(s)
  {
    if s[0] == '-' then 0 - DecimalValue(s[1..])
    else if s[0] == '+' then DecimalValue(s[1..])
    else DecimalValue(s)
  }

  /**
   `strconv.Atoi` with its error discarded, as every caller in the binding
   does: the signed value of a decimal string, clamped to the 64-bit range
   when it overflows, and 0 for anything else.
   */
  function Atoi(s: string): (r: int)
    ensures InInt64(r)
    ensures !IsDecimal(s) ==> r == 0
    ensures IsDecimal(s) && s[0] == '-' ==> r == Clamp64(0 - DecimalValue(s[1..]))
    ensures IsDecimal(s) && s[0] == '+' ==> r == Clamp64(DecimalValue(s[1..]))
    ensures IsDecimal(s) && IsDigit(s[0]) ==> r == Clamp64(DecimalValue(s))
  {
    if !IsDecimal(s) then 0 else Clamp64(SignedValue(s))
  }

  predicate InInt32(n: int)
  {
    -0x8000_0000 <= n < 0x8000_0000
  }

  /**
   Go's conversion `int32(n)`: keeps the low 32 bits of `n` and reads them
   as a two's-complement number.
   */
  function Int32(n: int): (r: int)
    ensures InInt32(r)
    ensures (n - r) % 0x1_0000_0000 == 0
    ensures InInt32(n) ==> r == n
  {
    (n + 0x8000_0000) % 0x1_0000_0000 - 0x8000_0000
  }

  /**
   The decimal digits of a natural number, without leading zeros: the digits
   of `n / 10` followed by the last digit.
   */
  function Digits(n: nat): (r: string)
    ensures |r| >= 1 && AllDigits(r)
    ensures r[0] == '0' ==> n == 0
    decreases n, 0
  {
    var last := ('0' as int + n % 10) as char;
    if n < 10 then [last] else Itoa(n / 10) + [last]
  }

  /** `strconv.Itoa` (and `fmt`'s `%d`) on an unbounded integer. */
  function Itoa(n: int): (r: string)
    ensures ':' !in r && ',' !in r && ' ' !in r && '\'' !in r && '\n' !in r
    decreases if n < 0 then -n else n, 1
  {
    var r := if n < 0 then "-" + Digits(-n) else Digits(n);
    assert forall k :: 0 <= k < |r| ==> r[k] == '-' || IsDigit(r[k]);
    r
  }

  /** The printed form of an integer is in the syntax `strconv.Atoi` reads. */
  lemma ItoaIsDecimal(n: int)
    ensures IsDecimal(Itoa(n))
    ensures n >= 0 ==> Itoa(n) == Digits(n)
    ensures n < 0 ==> Itoa(n)[0] == '-' && Itoa(n)[1..] == Digits(-n)
  {
  }

  /** The digits of `n` spell out `n`. */
  lemma {:induction false} DigitsValue(n: nat)
    ensures DecimalValue(Digits(n)) == n
    decreases n
  {
    if n >= 10 {
      var front := Itoa(n / 10);
      var r := Digits(n);
      ItoaIsDecimal(n / 10);
      DigitsValue(n / 10);
      assert r[..|r| - 1] == front;
    }
  }

  /** Reading back a rendered integer gives the integer. */
  lemma AtoiItoa(n: int)
    requires InInt64(n)
    ensures Atoi(Itoa(n)) == n
  {
    ItoaIsDecimal(n);
    if n < 0 {
      DigitsValue(-n);
    } else {
      DigitsValue(n);
    }
  }

  /** A field holding the printed form of `n` reads back as `n`. */
  lemma AtoiReadsBack(s: string, n: int)
    requires InInt64(n) && s == Itoa(n)
    ensures Atoi(s) == n
  {
    AtoiItoa(n);
  }

  /** The same for a field the binding narrows to 32 bits. */
  lemma Int32ReadsBack(s: string, n: int)
    requires InInt32(n) && s == Itoa(n)
    ensures Int32(Atoi(s)) == n
  {
    AtoiItoa(n);
  }

  /** Text holding a character exactly once, between two sides, splits on it into those sides. */
  lemma SplitPair(a: string, b: string, c: char)
    requires c !in a && c !in b
    ensures Split(a + [c] + b, [c]) == [a, b]
  {
    NoMatchWithoutFirstChar(a, [c]);
    NoMatchWithoutFirstChar(b, [c]);
    assert Join([a, b], [c]) == a + [c] + b;
    SplitJoin([a, b], [c]);
  }
}

=== FILE: tmux.dfy ===
/**
 The entry object's own operations: server information, creating sessions,
 detaching clients, and the `Get…By…` lookups over the server-wide listings.
 */
module Gotmux {
  import opened GoStrings
  import opened Outcomes
  import opened Queries
  import opened Parsing
  import opened Handle
  import opened Listing
  import opened Flags
  import opened Clients
  import opened Sessions
  import opened Windows
  import opened Panes

  // ---------------------------------------------------------------------
  // The server

  const ServerPid := "pid"
  const ServerSocketPath := "socket_path"
  const ServerStartTime := "start_time"
  const ServerUid := "uid"
  const ServerUser := "user"
  const ServerVersion := "version"

  /** The variables requested for the server, in request order. */
  function ServerVars(): (v: seq<string>)
    ensures |v| == 6
    ensures forall i :: 0 <= i < 6 ==> LastOccurrence(v, i)
    ensures forall i :: 0 <= i < 6 ==> '}' !in v[i]
  {
    [ServerPid, ServerSocketPath, ServerStartTime, ServerUid, ServerUser, ServerVersion]
  }

  /** The tmux server; the socket is present only when its path passed validation. */
  datatype Server = Server(
    pid: int,
    socket: Option<Socket>,
    startTime: string,
    uid: string,
    user: string,
    version: string,
    tmux: Tmux)

  /**
   The query `newSocket` runs to validate a path: `list-clients` on that
   socket, built without the handle's own prefix.
   */
  function SocketCheckQuery(path: string): (q: Query)
    ensures q.variables == []
    ensures Prepare(q) == ["tmux", "-S", path, "list-clients"]
  {
    Cmd(NewQuery(), ["-S", path, "list-clients"])
  }

  /**
   `newSocket`: a socket for `path` when its validation query succeeds,
   nothing otherwise.
   */
  function NewSocket(path: string, run: Runner): (s: Option<Socket>)
    ensures s.Some? <==> Run(SocketCheckQuery(path), run).Ran?
    ensures s.Some? ==> s.value.path == path
  {
    match Run(SocketCheckQuery(path), run)
    case Ran(_) => Some(Socket(path))
    case Failed => None
  }

  /**
   `toServer`: the pid parsed and narrowed to 32 bits, the socket validated
   by running tmux on it, the other fields verbatim.
   */
  function ToServer(r: Record, t: Tmux, run: Runner): (s: Server)
    ensures InInt32(s.pid) && (!IsDecimal(Get(r, ServerPid)) ==> s.pid == 0)
    ensures IsDecimal(Get(r, ServerPid)) && InInt32(SignedValue(Get(r, ServerPid))) ==> s.pid == SignedValue(Get(r, ServerPid))
    ensures s.socket.Some? <==> Run(SocketCheckQuery(Get(r, ServerSocketPath)), run).Ran?
    ensures s.socket.Some? ==> s.socket.value.path == Get(r, ServerSocketPath)
    ensures s.startTime == Get(r, ServerStartTime) && s.uid == Get(r, ServerUid)
    ensures s.user == Get(r, ServerUser) && s.version == Get(r, ServerVersion)
    ensures s.tmux == t
  {
    Server(
      Int32(Atoi(Get(r, ServerPid))),
      NewSocket(Get(r, ServerSocketPath), run),
      Get(r, ServerStartTime),
      Get(r, ServerUid),
      Get(r, ServerUser),
      Get(r, ServerVersion),
      t)
  }

  /** A server tmux can print so that it reads back unchanged. */
  predicate ReadableServer(s: Server)
  {
    && InInt32(s.pid)
    && (s.socket.Some? ==> Plain(s.socket.value.path))
    && Plain(s.startTime) && Plain(s.uid) && Plain(s.user) && Plain(s.version)
  }

  /** The socket path tmux prints for `s`: the validated one, or empty. */
  function PrintedSocketPath(s: Server): string
  {
    match s.socket
    case Some(socket) => socket.path
    case None => ""
  }

  /** How tmux prints the server variables, in request order. */
  function EncodeServer(s: Server): (e: seq<string>)
    ensures |e| == |ServerVars()|
  {
    [Itoa(s.pid), PrintedSocketPath(s), s.startTime, s.uid, s.user, s.version]
  }

  /** The query of `Tmux.GetServerInformation`: `display-message` with the server variables. */
  function GetServerInformationQuery(t: Tmux): (q: Query)
    ensures q.command == SocketPrefix(t) + ["display-message"]
    ensures q.fArgs == [] && q.pArgs == [] && q.variables == ServerVars()
  {
    Vars(Cmd(TmuxQuery(t), ["display-message"]), ServerVars())
  }

  /**
   `Tmux.GetServerInformation`: a failed run passes the process error on
   unchanged; otherwise the first record is decoded, and an output without
   a record aborts. The socket it names is validated with a second run.
   */
  function GetServerInformation(t: Tmux, run: Runner): (r: Result<Server>)
    ensures Run(GetServerInformationQuery(t), run).Failed? <==> r == Err(ProcessFailed)
    ensures var out := Run(GetServerInformationQuery(t), run);
      out.Ran? && One(Output(out.stdout, ServerVars())).Err? ==> r == Err(One(Output(out.stdout, ServerVars())).error)
    ensures var out := Run(GetServerInformationQuery(t), run);
      out.Ran? && One(Output(out.stdout, ServerVars())).Ok? ==> r == Ok(ToServer(One(Output(out.stdout, ServerVars())).value, t, run))
  {
    match Run(GetServerInformationQuery(t), run)
    case Failed => Err(ProcessFailed)
    case Ran(stdout) =>
      match One(Output(stdout, GetServerInformationQuery(t).variables))
      case Err(e) => Err(e)
      case Ok(record) => Ok(ToServer(record, t, run))
  }

  /** Whether tmux accepts the socket a server prints exactly when the server has one. */
  predicate SocketValidated(s: Server, run: Runner)
  {
    Run(SocketCheckQuery(PrintedSocketPath(s)), run).Ran? <==> s.socket.Some?
  }

  /**
   Round trip: the line tmux prints for a readable server reads back as that
   server, provided the socket validation succeeds exactly when it has one.
   */
  lemma GetServerInformationReads(t: Tmux, s: Server, run: Runner)
    requires ReadableServer(s) && s.tmux == t && SocketValidated(s, run)
    requires Run(GetServerInformationQuery(t), run) == Ran(Row(EncodeServer(s)) + "\n")
    ensures GetServerInformation(t, run) == Ok(s)
  {
    var e := EncodeServer(s);
    ItoaIsDecimal(s.pid);
    assert forall k :: 0 <= k < 6 ==> Plain(e[k]);
    PlainRow(e);
    OneRow(ServerVars(), e);
    ServerRoundTrip(s, run);
  }

  /** A readable server, printed by tmux and zipped to the server variables, decodes to itself. */
  lemma ServerRoundTrip(s: Server, run: Runner)
    requires ReadableServer(s) && SocketValidated(s, run)
    ensures ToServer(Zip(ServerVars(), EncodeServer(s)), s.tmux, run) == s
  {
    var r := Zip(ServerVars(), EncodeServer(s));
    ServerRecord(s);
    ServerReads(s, r, run);
  }

  /** The record of a printed server holds each printed value under its variable. */
  lemma ServerRecord(s: Server)
    ensures var r := Zip(ServerVars(), EncodeServer(s));
      && Get(r, ServerPid) == Itoa(s.pid) && Get(r, ServerSocketPath) == PrintedSocketPath(s)
      && Get(r, ServerStartTime) == s.startTime && Get(r, ServerUid) == s.uid
      && Get(r, ServerUser) == s.user && Get(r, ServerVersion) == s.version
  {
    var vars, e := ServerVars(), EncodeServer(s);
    ZipGet(vars, e, 0);
    ZipGet(vars, e, 1);
    ZipGet(vars, e, 2);
    ZipGet(vars, e, 3);
    ZipGet(vars, e, 4);
    ZipGet(vars, e, 5);
  }

  /** A record holding what tmux prints for a readable server decodes to that server. */
  lemma ServerReads(s: Server, r: Record, run: Runner)
    requires ReadableServer(s) && SocketValidated(s, run)
    requires Get(r, ServerPid) == Itoa(s.pid) && Get(r, ServerSocketPath) == PrintedSocketPath(s)
    requires Get(r, ServerStartTime) == s.startTime && Get(r, ServerUid) == s.uid
    requires Get(r, ServerUser) == s.user && Get(r, ServerVersion) == s.version
    ensures ToServer(r, s.tmux, run) == s
  {
    Int32ReadsBack(Get(r, ServerPid), s.pid);
  }

  /**
   As written, `prepare` picks the formatting flag from the first command
   token. With a socket that token is `-S`, so the server query asks for
   `-F` instead of `-p` and tmux is not asked to print the line.
   */
  lemma ServerInformationFormatFlag(t: Tmux)
    ensures var q := GetServerInformationQuery(t);
      Prepare(q)[1 + |q.command|] == (if t.socket.Some? then "-F" else "-p")
  {
  }

  /** Corrected, the server query asks tmux to print on every handle, socket or not. */
  lemma ServerInformationCorrected(t: Tmux)
    ensures var q := GetServerInformationQuery(t);
      && PrepareCorrected(q)[1 + |q.command|] == "-p"
      && PrepareCorrected(q)[1 + |q.command| + 1] == FormatToken(ServerVars())
  {
  }

  // ---------------------------------------------------------------------
  // Session existence

  /** The query of `Tmux.HasSession`: `has-session -t <session>`, with no output read. */
  function HasSessionQuery(t: Tmux, session: string): (q: Query)
    ensures q.command == SocketPrefix(t) + ["has-session"]
    ensures q.fArgs == ["-t", session]
    ensures q.pArgs == [] && q.variables == []
  {
    FArgs(Cmd(TmuxQuery(t), ["has-session"]), ["-t", session])
  }

  /** tmux reads the query as a question about exactly the named session. */
  lemma HasSessionFlags(t: Tmux, session: string)
    ensures Read(HasSessionQuery(t, session).fArgs, {"-t"}) == Some(map["-t" := session])
  {
    ReadStep(map[], [], ["-t", session], {"-t"});
    assert [] + ["-t", session] == ["-t", session];
  }

  /** `Tmux.HasSession`: true exactly when tmux answers the query without failing; the output is ignored. */
  function HasSession(t: Tmux, session: string, run: Runner): (b: bool)
    ensures b <==> Run(HasSessionQuery(t, session), run).Ran?
    ensures b <==> RunDiscard(HasSessionQuery(t, session), run, "").Ok?
  {
    Run(HasSessionQuery(t, session), run).Ran?
  }

  // ---------------------------------------------------------------------
  // Lookups

  /** Whether a session is named `name`. */
  function Named(name: string): Session -> bool
  {
    (s: Session) => s.name == name
  }

  /**
   `Tmux.GetSessionByName`: the first listed session named `name`, or nothing.
   A failed listing is reported with the lookup's own message.
   */
  function GetSessionByName(t: Tmux, name: string, run: Runner): (r: Result<Option<Session>>)
    ensures Run(ListSessionsQuery(t), run).Failed? <==> r == Err(CommandFailed("failed to get session by name"))
    ensures r.Ok? <==> ListSessions(t, run).Ok?
    ensures r.Ok? && r.value.Some? ==> r.value.value.name == name && r.value.value in ListSessions(t, run).value
    ensures r.Ok? ==> (r.value.None? <==> forall i :: 0 <= i < |ListSessions(t, run).value| ==> ListSessions(t, run).value[i].name != name)
    ensures r.Ok? && r.value.Some? ==> FirstWith(ListSessions(t, run).value, Named(name), r.value.value)
  {
    match ListSessions(t, run)
    case Err(CommandFailed(_)) => Err(CommandFailed("failed to get session by name"))
    case Err(e) => Err(e)
    case Ok(sessions) => Ok(FirstMatch(sessions, Named(name)))
  }

  /** Looked up among printed sessions, the session found is the first with that name. */
  lemma GetSessionByNameFinds(t: Tmux, name: string, ss: seq<Session>, run: Runner)
    requires forall i :: 0 <= i < |ss| ==> ReadableSession(ss[i]) && ss[i].tmux == t
    requires Run(ListSessionsQuery(t), run) == Ran(Table(SessionRows(ss)))
    ensures GetSessionByName(t, name, run) == Ok(FirstMatch(ss, Named(name)))
    ensures forall i :: 0 <= i < |ss| && ss[i].name == name ==>
      exists j :: 0 <= j <= i && GetSessionByName(t, name, run) == Ok(Some(ss[j]))
  {
    SessionsListed(ss, t);
    forall i | 0 <= i < |ss| && ss[i].name == name
      ensures exists j :: 0 <= j <= i && FirstMatch(ss, Named(name)) == Some(ss[j])
    {
      var j := FirstIndex(ss, Named(name));
      assert Named(name)(ss[i]);
      assert FirstMatch(ss, Named(name)) == Some(ss[j]);
    }
  }

  /** `Client.GetSession`: the session named by the client, looked up through the client's handle. */
  function ClientSession(c: Client, run: Runner): (r: Result<Option<Session>>)
    ensures r.Ok? && r.value.Some? ==> r.value.value.name == c.session
    ensures r == GetSessionByName(c.tmux, c.session, run)
  {
    GetSessionByName(c.tmux, c.session, run)
  }

  /** Whether a client's terminal is `tty`. */
  function OnTty(tty: string): Client -> bool
  {
    (c: Client) => c.tty == tty
  }

  /** `Tmux.GetClientByTty`: the first listed client on terminal `tty`, or nothing; a listing error is passed on. */
  function GetClientByTty(t: Tmux, tty: string, run: Runner): (r: Result<Option<Client>>)
    ensures r.Err? <==> ListClients(t, run).Err?
    ensures r.Err? ==> r.error == ListClients(t, run).error
    ensures r.Ok? && r.value.Some? ==> r.value.value.tty == tty && r.value.value in ListClients(t, run).value
    ensures r.Ok? ==> (r.value.None? <==> forall i :: 0 <= i < |ListClients(t, run).value| ==> ListClients(t, run).value[i].tty != tty)
    ensures r.Ok? && r.value.Some? ==> FirstWith(ListClients(t, run).value, OnTty(tty), r.value.value)
  {
    match ListClients(t, run)
    case Err(e) => Err(e)
    case Ok(clients) => Ok(FirstMatch(clients, OnTty(tty)))
  }

  /** Looked up among printed clients, the client found is the first on that terminal. */
  lemma GetClientByTtyFinds(t: Tmux, tty: string, cs: seq<Client>, run: Runner)
    requires forall i :: 0 <= i < |cs| ==> ReadableClient(cs[i]) && cs[i].tmux == t
    requires Run(ListClientsQuery(t), run) == Ran(Table(ClientRows(cs)))
    ensures GetClientByTty(t, tty, run) == Ok(FirstMatch(cs, OnTty(tty)))
    ensures GetClientByTty(t, tty, run) == Ok(if |Filter(cs, OnTty(tty))| == 0 then None else Some(Filter(cs, OnTty(tty))[0]))
  {
    ClientsListed(cs, t);
    FirstMatchFilter(cs, OnTty(tty));
  }

  /** Whether a window's id is `id`. */
  function WindowWithId(id: string): Window -> bool
  {
    (w: Window) => w.id == id
  }

  /** `Tmux.GetWindowById`: the first window of the server with id `id`, or nothing; a listing error is passed on. */
  function GetWindowById(t: Tmux, id: string, run: Runner): (r: Result<Option<Window>>)
    ensures r.Err? <==> ListAllWindows(t, run).Err?
    ensures r.Err? ==> r.error == ListAllWindows(t, run).error
    ensures r.Ok? && r.value.Some? ==> r.value.value.id == id && r.value.value in ListAllWindows(t, run).value
    ensures r.Ok? ==> (r.value.None? <==> forall i :: 0 <= i < |ListAllWindows(t, run).value| ==> ListAllWindows(t, run).value[i].id != id)
    ensures r.Ok? && r.value.Some? ==> FirstWith(ListAllWindows(t, run).value, WindowWithId(id), r.value.value)
  {
    match ListAllWindows(t, run)
    case Err(e) => Err(e)
    case Ok(windows) => Ok(FirstMatch(windows, WindowWithId(id)))
  }

  /** Looked up among printed windows, the window found is the first with that id. */
  lemma GetWindowByIdFinds(t: Tmux, id: string, ws: seq<Window>, run: Runner)
    requires forall i :: 0 <= i < |ws| ==> ReadableWindow(ws[i]) && ws[i].tmux == t
    requires Run(ListAllWindowsQuery(t), run) == Ran(Table(WindowRows(ws)))
    ensures GetWindowById(t, id, run) == Ok(FirstMatch(ws, WindowWithId(id)))
    ensures GetWindowById(t, id, run) == Ok(if |Filter(ws, WindowWithId(id))| == 0 then None else Some(Filter(ws, WindowWithId(id))[0]))
  {
    WindowsListed(ws, t);
    FirstMatchFilter(ws, WindowWithId(id));
  }

  /** Whether a pane's id is `id`. */
  function PaneWithId(id: string): Pane -> bool
  {
    (p: Pane) => p.id == id
  }

  /** `Tmux.GetPaneById`: the first pane of the server with id `id`, or nothing; a listing error is passed on. */
  function GetPaneById(t: Tmux, id: string, run: Runner): (r: Result<Option<Pane>>)
    ensures r.Err? <==> ListAllPanes(t, run).Err?
    ensures r.Err? ==> r.error == ListAllPanes(t, run).error
    ensures r.Ok? && r.value.Some? ==> r.value.value.id == id && r.value.value in ListAllPanes(t, run).value
    ensures r.Ok? ==> (r.value.None? <==> forall i :: 0 <= i < |ListAllPanes(t, run).value| ==> ListAllPanes(t, run).value[i].id != id)
    ensures r.Ok? && r.value.Some? ==> FirstWith(ListAllPanes(t, run).value, PaneWithId(id), r.value.value)
  {
    match ListAllPanes(t, run)
    case Err(e) => Err(e)
    case Ok(panes) => Ok(FirstMatch(panes, PaneWithId(id)))
  }

  /** Ids are looked up in listing order: among printed panes, the first with that id is found. */
  lemma GetPaneByIdFinds(t: Tmux, id: string, ps: seq<Pane>, run: Runner)
    requires forall i :: 0 <= i < |ps| ==> ReadablePane(ps[i]) && ps[i].tmux == t
    requires Run(ListAllPanesQuery(t), run) == Ran(Table(PaneRows(ps)))
    ensures GetPaneById(t, id, run) == Ok(FirstMatch(ps, PaneWithId(id)))
    ensures GetPaneById(t, id, run) == Ok(if |Filter(ps, PaneWithId(id))| == 0 then None else Some(Filter(ps, PaneWithId(id))[0]))
  {
    PanesListed(ps, t);
    FirstMatchFilter(ps, PaneWithId(id));
  }

  // ---------------------------------------------------------------------
  // Creating a session

  /** Options of `Tmux.NewSession`; a zero width or height leaves tmux's default. */
  datatype SessionOptions = SessionOptions(
    name: string,
    shellCommand: string,
    startDirectory: string,
    width: int,
    height: int)

  const NoSessionOptions := SessionOptions("", "", "", 0, 0)

  /** The session name the options ask for is rejected before anything runs. */
  predicate RejectedName(op: Option<SessionOptions>)
  {
    op.Some? && op.value.name != "" && !CheckSessionName(op.value.name)
  }

  /**
   The query of `Tmux.NewSession`: detached, printing the new session, then
   `-s`, `-c`, `-x`, `-y` for each option that is set and the shell command,
   in single quotes, as the one positional. A name tmux would not accept as a
   target is rejected.
   */
  function NewSessionQuery(t: Tmux, op: Option<SessionOptions>): (r: Result<Query>)
    ensures r.Err? <==> RejectedName(op)
    ensures r.Err? ==> r.error == InvalidSessionName
    ensures r.Ok? ==> var q := r.value; var o := GetOr(op, NoSessionOptions);
      && q.command == SocketPrefix(t) + ["new-session"]
      && q.fArgs == ["-d", "-P"] + Given(o.name != "", ["-s", o.name])
        + Given(o.startDirectory != "", ["-c", o.startDirectory])
        + Given(o.width != 0, ["-x", Itoa(o.width)]) + Given(o.height != 0, ["-y", Itoa(o.height)])
      && q.pArgs == Given(o.shellCommand != "", ["'" + o.shellCommand + "'"])
      && q.variables == SessionVars()
  {
    var q := Vars(FArgs(Cmd(TmuxQuery(t), ["new-session"]), ["-d", "-P"]), SessionVars());
    match op
    case None =>
      assert q.fArgs == ["-d", "-P"] + [] + [] + [] + [];
      Ok(q)
    case Some(o) =>
      if o.name != "" && !CheckSessionName(o.name) then Err(InvalidSessionName)
      else
        var q := FArgsIf(FArgsIf(q, o.name != "", ["-s", o.name]), o.startDirectory != "", ["-c", o.startDirectory]);
        var q := FArgsIf(FArgsIf(q, o.width != 0, ["-x", Itoa(o.width)]), o.height != 0, ["-y", Itoa(o.height)]);
        Ok(if o.shellCommand != "" then PArgs(q, ["'" + o.shellCommand + "'"]) else q)
  }

  /**
   tmux reads the two switches and one setting per option that is set; the
   width and height are printed in decimal, which `AtoiItoa` reads back.
   */
  lemma NewSessionFlags(t: Tmux, op: Option<SessionOptions>)
    requires !RejectedName(op)
    ensures var o := GetOr(op, NoSessionOptions);
      Read(NewSessionQuery(t, op).value.fArgs, {"-s", "-c", "-x", "-y"})
        == Some(Flagged(Flagged(Flagged(Flagged(map["-d" := "", "-P" := ""],
             o.name != "", "-s", o.name),
             o.startDirectory != "", "-c", o.startDirectory),
             o.width != 0, "-x", Itoa(o.width)),
             o.height != 0, "-y", Itoa(o.height)))
  {
    SessionFlagsRead(GetOr(op, NoSessionOptions));
  }

  lemma SessionFlagsRead(o: SessionOptions)
    ensures Read(["-d", "-P"] + Given(o.name != "", ["-s", o.name])
        + Given(o.startDirectory != "", ["-c", o.startDirectory])
        + Given(o.width != 0, ["-x", Itoa(o.width)]) + Given(o.height != 0, ["-y", Itoa(o.height)]),
        {"-s", "-c", "-x", "-y"})
      == Some(Flagged(Flagged(Flagged(Flagged(map["-d" := "", "-P" := ""],
           o.name != "", "-s", o.name),
           o.startDirectory != "", "-c", o.startDirectory),
           o.width != 0, "-x", Itoa(o.width)),
           o.height != 0, "-y", Itoa(o.height)))
  {
    var V: set<string> := {"-s", "-c", "-x", "-y"};
    var a := ["-d", "-P"];
    assert Read(a, V) == Some(map["-d" := "", "-P" := ""]) by {
      ReadStep(map[], ["-d"], ["-P"], V);
    }
    var b := a + Given(o.name != "", ["-s", o.name]);
    ReadGiven(map[], a, o.name != "", "-s", o.name, V);
    var c := b + Given(o.startDirectory != "", ["-c", o.startDirectory]);
    ReadGiven(map[], b, o.startDirectory != "", "-c", o.startDirectory, V);
    var d := c + Given(o.width != 0, ["-x", Itoa(o.width)]);
    ReadGiven(map[], c, o.width != 0, "-x", Itoa(o.width), V);
    ReadGiven(map[], d, o.height != 0, "-y", Itoa(o.height), V);
  }

  /**
   `Tmux.NewSession`: a rejected name fails before anything runs; a failed
   run reports its own message; otherwise the printed session is decoded.
   */
  function NewSession(t: Tmux, op: Option<SessionOptions>, run: Runner): (r: Result<Session>)
    ensures RejectedName(op) ==> r == Err(InvalidSessionName)
    ensures !RejectedName(op) ==> var out := Run(NewSessionQuery(t, op).value, run);
      && (out.Failed? ==> r == Err(CommandFailed("failed to create session")))
      && (out.Ran? && One(Output(out.stdout, SessionVars())).Ok? ==> r == Ok(ToSession(One(Output(out.stdout, SessionVars())).value, t)))
      && (out.Ran? && One(Output(out.stdout, SessionVars())).Err? ==> r == Err(One(Output(out.stdout, SessionVars())).error))
  {
    match NewSessionQuery(t, op)
    case Err(e) => Err(e)
    case Ok(q) => OneOf(q, run, "failed to create session", SessionDecoder(t))
  }

  /** The session tmux prints back after creating it is the session returned. */
  lemma NewSessionReads(t: Tmux, op: Option<SessionOptions>, s: Session, run: Runner)
    requires !RejectedName(op)
    requires ReadableSession(s) && s.tmux == t
    requires Run(NewSessionQuery(t, op).value, run) == Ran(Row(EncodeSession(s)) + "\n")
    ensures NewSession(t, op, run) == Ok(s)
  {
    SessionRowValues(s);
    OneRow(SessionVars(), EncodeSession(s));
    SessionRoundTrip(s);
  }

  /** `Tmux.New`: `NewSession` with no options, which never rejects. */
  function New(t: Tmux, run: Runner): (r: Result<Session>)
    ensures r.Err? ==> r.error != InvalidSessionName
    ensures r == NewSession(t, None, run)
  {
    NewSession(t, None, run)
  }

  // ---------------------------------------------------------------------
  // Detaching clients

  /** Options of `Tmux.DetachClient`: a target client, or else a target session. */
  datatype DetachClientOptions = DetachClientOptions(targetClient: string, targetSession: string)

  const NoDetachClientOptions := DetachClientOptions("", "")

  /**
   The query of `Tmux.DetachClient`: `-t client` when a client is given,
   otherwise `-s session` when a session is, otherwise nothing (the current
   client).
   */
  function DetachClientQuery(t: Tmux, op: Option<DetachClientOptions>): (q: Query)
    ensures q.command == SocketPrefix(t) + ["detach-client"]
    ensures var o := GetOr(op, NoDetachClientOptions);
      q.fArgs == (if o.targetClient != "" then ["-t", o.targetClient]
                  else if o.targetSession != "" then ["-s", o.targetSession]
                  else [])
    ensures q.pArgs == [] && q.variables == []
  {
    var q := Cmd(TmuxQuery(t), ["detach-client"]);
    match op
    case None => q
    case Some(o) =>
      if o.targetClient != "" then FArgs(q, ["-t", o.targetClient])
      else if o.targetSession != "" then FArgs(q, ["-s", o.targetSession])
      else q
  }

  /** tmux reads at most one target, and a target client takes precedence over a target session. */
  lemma DetachClientFlags(t: Tmux, op: Option<DetachClientOptions>)
    ensures var o := GetOr(op, NoDetachClientOptions);
      var m := Read(DetachClientQuery(t, op).fArgs, {"-t", "-s"});
      && m.Some?
      && ("-t" in m.value <==> o.targetClient != "")
      && ("-s" in m.value <==> o.targetClient == "" && o.targetSession != "")
      && (o.targetClient != "" ==> m.value["-t"] == o.targetClient)
      && (o.targetClient == "" && o.targetSession != "" ==> m.value["-s"] == o.targetSession)
      && |m.value| <= 1
  {
    var o := GetOr(op, NoDetachClientOptions);
    var block := DetachClientQuery(t, op).fArgs;
    ReadStep(map[], [], block, {"-t", "-s"});
    assert [] + block == block;
  }

  /** `Tmux.DetachClient`. */
  function DetachClient(t: Tmux, op: Option<DetachClientOptions>, run: Runner): (r: Result<()>)
    ensures r.Ok? <==> Run(DetachClientQuery(t, op), run).Ran?
    ensures r.Err? ==> r.error == CommandFailed("failed to detach client")
  {
    RunDiscard(DetachClientQuery(t, op), run, "failed to detach client")
  }

  /** `Session.Detach` is `DetachClient` aimed at the session. */
  lemma SessionDetachIsDetachClient(s: Session)
    requires s.name != ""
    ensures DetachQuery(s) == DetachClientQuery(s.tmux, Some(DetachClientOptions("", s.name)))
  {
  }
}

=== FILE: window.dfy ===
/**
 Windows: the variables the binding requests for a tmux window, the
 decoding of one record into a window, and the window operations.
 */
module Windows {
  import opened GoStrings
  import opened Outcomes
  import opened Queries
  import opened Parsing
  import opened Handle
  import opened TmuxFormat
  import opened Listing
  import opened Flags
  import opened Panes

  // ---------------------------------------------------------------------
  // Variables

  const WindowActive := "window_active"
  const WindowActiveClients := "window_active_clients"
  const WindowActiveClientsList := "window_active_clients_list"
  const WindowActiveSessions := "window_active_sessions"
  const WindowActiveSessionsList := "window_active_sessions_list"
  const WindowActivity := "window_activity"
  const WindowActivityFlag := "window_activity_flag"
  const WindowBellFlag := "window_bell_flag"
  const WindowBigger := "window_bigger"
  const WindowCellHeight := "window_cell_height"
  const WindowCellWidth := "window_cell_width"
  const WindowEndFlag := "window_end_flag"
  const WindowFlags := "window_flags"
  const WindowFormat := "window_format"
  const WindowHeight := "window_height"
  const WindowId := "window_id"
  const WindowIndex := "window_index"
  const WindowLastFlag := "window_last_flag"
  const WindowLayout := "window_layout"
  const WindowLinked := "window_linked"
  const WindowLinkedSessions := "window_linked_sessions"
  const WindowLinkedSessionsList := "window_linked_sessions_list"
  const WindowMarkedFlag := "window_marked_flag"
  const WindowName := "window_name"
  const WindowOffsetX := "window_offset_x"
  const WindowOffsetY := "window_offset_y"
  const WindowPanes := "window_panes"
  const WindowRawFlags := "window_raw_flags"
  const WindowSilenceFlag := "window_silence_flag"
  const WindowStackIndex := "window_stack_index"
  const WindowStartFlag := "window_start_flag"
  const WindowVisibleLayout := "window_visible_layout"
  const WindowWidth := "window_width"
  const WindowZoomedFlag := "window_zoomed_flag"

  /** The position-`k` variable requested for a tmux window. */
  function WindowVar(k: int): string
    requires 0 <= k < 34
  {
    if k == 0 then WindowActive
    else if k == 1 then WindowActiveClients
    else if k == 2 then WindowActiveClientsList
    else if k == 3 then WindowActiveSessions
    else if k == 4 then WindowActiveSessionsList
    else if k == 5 then WindowActivity
    else if k == 6 then WindowActivityFlag
    else if k == 7 then WindowBellFlag
    else if k == 8 then WindowBigger
    else if k == 9 then WindowCellHeight
    else if k == 10 then WindowCellWidth
    else if k == 11 then WindowEndFlag
    else if k == 12 then WindowFlags
    else if k == 13 then WindowFormat
    else if k == 14 then WindowHeight
    else if k == 15 then WindowId
    else if k == 16 then WindowIndex
    else if k == 17 then WindowLastFlag
    else if k == 18 then WindowLayout
    else if k == 19 then WindowLinked
    else if k == 20 then WindowLinkedSessions
    else if k == 21 then WindowLinkedSessionsList
    else if k == 22 then WindowMarkedFlag
    else if k == 23 then WindowName
    else if k == 24 then WindowOffsetX
    else if k == 25 then WindowOffsetY
    else if k == 26 then WindowPanes
    else if k == 27 then WindowRawFlags
    else if k == 28 then WindowSilenceFlag
    else if k == 29 then WindowStackIndex
    else if k == 30 then WindowStartFlag
    else if k == 31 then WindowVisibleLayout
    else if k == 32 then WindowWidth
    else WindowZoomedFlag
  }

  /** The variables requested for a tmux window, in request order. */
  function WindowVars(): seq<string>
  {
    seq(34, k requires 0 <= k < 34 => WindowVar(k))
  }

  /** 34 variables, no name requested twice. */
  lemma WindowVarsDistinct()
    ensures |WindowVars()| == 34
    ensures forall i :: 0 <= i < |WindowVars()| ==> LastOccurrence(WindowVars(), i)
  {
    forall i | 0 <= i < |WindowVars()|
      ensures LastOccurrence(WindowVars(), i)
    {
      if i < 6 {
        WindowVarsDistinctFrom0(i);
      } else if i < 12 {
        WindowVarsDistinctFrom6(i);
      } else if i < 18 {
        WindowVarsDistinctFrom12(i);
      } else if i < 24 {
        WindowVarsDistinctFrom18(i);
      } else if i < 30 {
        WindowVarsDistinctFrom24(i);
      } else {
        WindowVarsDistinctFrom30(i);
      }
    }
  }

  lemma WindowVarsDistinctFrom0(i: int)
    requires 0 <= i < 6
    ensures LastOccurrence(WindowVars(), i)
  {
  }

  lemma WindowVarsDistinctFrom6(i: int)
    requires 6 <= i < 12
    ensures LastOccurrence(WindowVars(), i)
  {
  }

  lemma WindowVarsDistinctFrom12(i: int)
    requires 12 <= i < 18
    ensures LastOccurrence(WindowVars(), i)
  {
  }

  lemma WindowVarsDistinctFrom18(i: int)
    requires 18 <= i < 24
    ensures LastOccurrence(WindowVars(), i)
  {
  }

  lemma WindowVarsDistinctFrom24(i: int)
    requires 24 <= i < 30
    ensures LastOccurrence(WindowVars(), i)
  {
  }

  lemma WindowVarsDistinctFrom30(i: int)
    requires 30 <= i < 34
    ensures LastOccurrence(WindowVars(), i)
  {
  }

  /** No requested name contains `}`, so each `#{name}` reference closes where it should. */
  lemma WindowVarsBraceFree()
    ensures forall i :: 0 <= i < |WindowVars()| ==> '}' !in WindowVars()[i]
  {
    forall i | 0 <= i < |WindowVars()|
      ensures '}' !in WindowVars()[i]
    {
      if i < 6 {
        WindowVarsBraceFreeFrom0(i);
      } else if i < 12 {
        WindowVarsBraceFreeFrom6(i);
      } else if i < 18 {
        WindowVarsBraceFreeFrom12(i);
      } else if i < 24 {
        WindowVarsBraceFreeFrom18(i);
      } else if i < 30 {
        WindowVarsBraceFreeFrom24(i);
      } else {
        WindowVarsBraceFreeFrom30(i);
      }
    }
  }

  lemma WindowVarsBraceFreeFrom0(i: int)
    requires 0 <= i < 6
    ensures '}' !in WindowVars()[i]
  {
  }

  lemma WindowVarsBraceFreeFrom6(i: int)
    requires 6 <= i < 12
    ensures '}' !in WindowVars()[i]
  {
  }

  lemma WindowVarsBraceFreeFrom12(i: int)
    requires 12 <= i < 18
    ensures '}' !in WindowVars()[i]
  {
  }

  lemma WindowVarsBraceFreeFrom18(i: int)
    requires 18 <= i < 24
    ensures '}' !in WindowVars()[i]
  {
  }

  lemma WindowVarsBraceFreeFrom24(i: int)
    requires 24 <= i < 30
    ensures '}' !in WindowVars()[i]
  {
  }

  lemma WindowVarsBraceFreeFrom30(i: int)
    requires 30 <= i < 34
    ensures '}' !in WindowVars()[i]
  {
  }

  /** A tmux window, as the binding reads it; `tmux` is the handle it was read through. */
  datatype Window = Window(
    active: bool,
    activeClients: int,
    activeClientsList: seq<string>,
    activeSessions: int,
    activeSessionsList: seq<string>,
    activity: string,
    activityFlag: bool,
    bellFlag: bool,
    bigger: bool,
    cellHeight: int,
    cellWidth: int,
    endFlag: bool,
    flags: string,
    format: bool,
    height: int,
    id: string,
    index: int,
    lastFlag: bool,
    layout: string,
    linked: bool,
    linkedSessions: int,
    linkedSessionsList: seq<string>,
    markedFlag: bool,
    name: string,
    offsetX: int,
    offsetY: int,
    panes: int,
    rawFlags: string,
    silenceFlag: int,
    stackIndex: int,
    startFlag: bool,
    visibleLayout: string,
    width: int,
    zoomedFlag: bool,
    tmux: Tmux)

  /**
   `toWindow`: reads each field from its variable. Numbers that do not parse
   read as 0, booleans are true only for `1`, lists split on commas, and
   text is taken verbatim; a missing variable reads as the empty value.
   */
  function ToWindow(r: Record, t: Tmux): (w: Window)
    ensures w.active <==> Get(r, WindowActive) == "1"
    ensures !IsDecimal(Get(r, WindowActiveClients)) ==> w.activeClients == 0
    ensures IsDecimal(Get(r, WindowActiveClients)) && InInt64(SignedValue(Get(r, WindowActiveClients))) ==> w.activeClients == SignedValue(Get(r, WindowActiveClients))
    ensures Join(w.activeClientsList, ",") == Get(r, WindowActiveClientsList) && forall k :: 0 <= k < |w.activeClientsList| ==> ',' !in w.activeClientsList[k]
    ensures !IsDecimal(Get(r, WindowActiveSessions)) ==> w.activeSessions == 0
    ensures IsDecimal(Get(r, WindowActiveSessions)) && InInt64(SignedValue(Get(r, WindowActiveSessions))) ==> w.activeSessions == SignedValue(Get(r, WindowActiveSessions))
    ensures Join(w.activeSessionsList, ",") == Get(r, WindowActiveSessionsList) && forall k :: 0 <= k < |w.activeSessionsList| ==> ',' !in w.activeSessionsList[k]
    ensures w.activity == Get(r, WindowActivity)
    ensures w.activityFlag <==> Get(r, WindowActivityFlag) == "1"
    ensures w.bellFlag <==> Get(r, WindowBellFlag) == "1"
    ensures w.bigger <==> Get(r, WindowBigger) == "1"
    ensures !IsDecimal(Get(r, WindowCellHeight)) ==> w.cellHeight == 0
    ensures IsDecimal(Get(r, WindowCellHeight)) && InInt64(SignedValue(Get(r, WindowCellHeight))) ==> w.cellHeight == SignedValue(Get(r, WindowCellHeight))
    ensures !IsDecimal(Get(r, WindowCellWidth)) ==> w.cellWidth == 0
    ensures IsDecimal(Get(r, WindowCellWidth)) && InInt64(SignedValue(Get(r, WindowCellWidth))) ==> w.cellWidth == SignedValue(Get(r, WindowCellWidth))
    ensures w.endFlag <==> Get(r, WindowEndFlag) == "1"
    ensures w.flags == Get(r, WindowFlags)
    ensures w.format <==> Get(r, WindowFormat) == "1"
    ensures !IsDecimal(Get(r, WindowHeight)) ==> w.height == 0
    ensures IsDecimal(Get(r, WindowHeight)) && InInt64(SignedValue(Get(r, WindowHeight))) ==> w.height == SignedValue(Get(r, WindowHeight))
    ensures w.id == Get(r, WindowId)
    ensures !IsDecimal(Get(r, WindowIndex)) ==> w.index == 0
    ensures IsDecimal(Get(r, WindowIndex)) && InInt64(SignedValue(Get(r, WindowIndex))) ==> w.index == SignedValue(Get(r, WindowIndex))
    ensures w.lastFlag <==> Get(r, WindowLastFlag) == "1"
    ensures w.layout == Get(r, WindowLayout)
    ensures w.linked <==> Get(r, WindowLinked) == "1"
    ensures !IsDecimal(Get(r, WindowLinkedSessions)) ==> w.linkedSessions == 0
    ensures IsDecimal(Get(r, WindowLinkedSessions)) && InInt64(SignedValue(Get(r, WindowLinkedSessions))) ==> w.linkedSessions == SignedValue(Get(r, WindowLinkedSessions))
    ensures Join(w.linkedSessionsList, ",") == Get(r, WindowLinkedSessionsList) && forall k :: 0 <= k < |w.linkedSessionsList| ==> ',' !in w.linkedSessionsList[k]
    ensures w.markedFlag <==> Get(r, WindowMarkedFlag) == "1"
    ensures w.name == Get(r, WindowName)
    ensures !IsDecimal(Get(r, WindowOffsetX)) ==> w.offsetX == 0
    ensures IsDecimal(Get(r, WindowOffsetX)) && InInt64(SignedValue(Get(r, WindowOffsetX))) ==> w.offsetX == SignedValue(Get(r, WindowOffsetX))
    ensures !IsDecimal(Get(r, WindowOffsetY)) ==> w.offsetY == 0
    ensures IsDecimal(Get(r, WindowOffsetY)) && InInt64(SignedValue(Get(r, WindowOffsetY))) ==> w.offsetY == SignedValue(Get(r, WindowOffsetY))
    ensures !IsDecimal(Get(r, WindowPanes)) ==> w.panes == 0
    ensures IsDecimal(Get(r, WindowPanes)) && InInt64(SignedValue(Get(r, WindowPanes))) ==> w.panes == SignedValue(Get(r, WindowPanes))
    ensures w.rawFlags == Get(r, WindowRawFlags)
    ensures !IsDecimal(Get(r, WindowSilenceFlag)) ==> w.silenceFlag == 0
    ensures IsDecimal(Get(r, WindowSilenceFlag)) && InInt64(SignedValue(Get(r, WindowSilenceFlag))) ==> w.silenceFlag == SignedValue(Get(r, WindowSilenceFlag))
    ensures !IsDecimal(Get(r, WindowStackIndex)) ==> w.stackIndex == 0
    ensures IsDecimal(Get(r, WindowStackIndex)) && InInt64(SignedValue(Get(r, WindowStackIndex))) ==> w.stackIndex == SignedValue(Get(r, WindowStackIndex))
    ensures w.startFlag <==> Get(r, WindowStartFlag) == "1"
    ensures w.visibleLayout == Get(r, WindowVisibleLayout)
    ensures !IsDecimal(Get(r, WindowWidth)) ==> w.width == 0
    ensures IsDecimal(Get(r, WindowWidth)) && InInt64(SignedValue(Get(r, WindowWidth))) ==> w.width == SignedValue(Get(r, WindowWidth))
    ensures w.zoomedFlag <==> Get(r, WindowZoomedFlag) == "1"
    ensures w.tmux == t
  {
    Window(
      IsOne(Get(r, WindowActive)),
      Atoi(Get(r, WindowActiveClients)),
      ParseList(Get(r, WindowActiveClientsList)),
      Atoi(Get(r, WindowActiveSessions)),
      ParseList(Get(r, WindowActiveSessionsList)),
      Get(r, WindowActivity),
      IsOne(Get(r, WindowActivityFlag)),
      IsOne(Get(r, WindowBellFlag)),
      IsOne(Get(r, WindowBigger)),
      Atoi(Get(r, WindowCellHeight)),
      Atoi(Get(r, WindowCellWidth)),
      IsOne(Get(r, WindowEndFlag)),
      Get(r, WindowFlags),
      IsOne(Get(r, WindowFormat)),
      Atoi(Get(r, WindowHeight)),
      Get(r, WindowId),
      Atoi(Get(r, WindowIndex)),
      IsOne(Get(r, WindowLastFlag)),
      Get(r, WindowLayout),
      IsOne(Get(r, WindowLinked)),
      Atoi(Get(r, WindowLinkedSessions)),
      ParseList(Get(r, WindowLinkedSessionsList)),
      IsOne(Get(r, WindowMarkedFlag)),
      Get(r, WindowName),
      Atoi(Get(r, WindowOffsetX)),
      Atoi(Get(r, WindowOffsetY)),
      Atoi(Get(r, WindowPanes)),
      Get(r, WindowRawFlags),
      Atoi(Get(r, WindowSilenceFlag)),
      Atoi(Get(r, WindowStackIndex)),
      IsOne(Get(r, WindowStartFlag)),
      Get(r, WindowVisibleLayout),
      Atoi(Get(r, WindowWidth)),
      IsOne(Get(r, WindowZoomedFlag)),
      t)
  }

  /** The value of the position-`k` variable of a tmux window. */
  function WindowField(w: Window, k: int): Value
    requires 0 <= k < 34
  {
    if k == 0 then Switch(w.active)
    else if k == 1 then Number(w.activeClients)
    else if k == 2 then Items(w.activeClientsList)
    else if k == 3 then Number(w.activeSessions)
    else if k == 4 then Items(w.activeSessionsList)
    else if k == 5 then Text(w.activity)
    else if k == 6 then Switch(w.activityFlag)
    else if k == 7 then Switch(w.bellFlag)
    else if k == 8 then Switch(w.bigger)
    else if k == 9 then Number(w.cellHeight)
    else if k == 10 then Number(w.cellWidth)
    else if k == 11 then Switch(w.endFlag)
    else if k == 12 then Text(w.flags)
    else if k == 13 then Switch(w.format)
    else if k == 14 then Number(w.height)
    else if k == 15 then Text(w.id)
    else if k == 16 then Number(w.index)
    else if k == 17 then Switch(w.lastFlag)
    else if k == 18 then Text(w.layout)
    else if k == 19 then Switch(w.linked)
    else if k == 20 then Number(w.linkedSessions)
    else if k == 21 then Items(w.linkedSessionsList)
    else if k == 22 then Switch(w.markedFlag)
    else if k == 23 then Text(w.name)
    else if k == 24 then Number(w.offsetX)
    else if k == 25 then Number(w.offsetY)
    else if k == 26 then Number(w.panes)
    else if k == 27 then Text(w.rawFlags)
    else if k == 28 then Number(w.silenceFlag)
    else if k == 29 then Number(w.stackIndex)
    else if k == 30 then Switch(w.startFlag)
    else if k == 31 then Text(w.visibleLayout)
    else if k == 32 then Number(w.width)
    else Switch(w.zoomedFlag)
  }

  /** How tmux prints a tmux window's variables, in request order. */
  function EncodeWindow(w: Window): (e: seq<string>)
    ensures |e| == |WindowVars()|
  {
    seq(34, k requires 0 <= k < 34 => Printed(WindowField(w, k)))
  }

  /** A tmux window tmux can print so that it reads back unchanged. */
  predicate ReadableWindow(w: Window)
  {
    && InInt64(w.activeClients)
    && PlainList(w.activeClientsList)
    && InInt64(w.activeSessions)
    && PlainList(w.activeSessionsList)
    && Plain(w.activity)
    && InInt64(w.cellHeight)
    && InInt64(w.cellWidth)
    && Plain(w.flags)
    && InInt64(w.height)
    && Plain(w.id)
    && InInt64(w.index)
    && Plain(w.layout)
    && InInt64(w.linkedSessions)
    && PlainList(w.linkedSessionsList)
    && Plain(w.name)
    && InInt64(w.offsetX)
    && InInt64(w.offsetY)
    && InInt64(w.panes)
    && Plain(w.rawFlags)
    && InInt64(w.silenceFlag)
    && InInt64(w.stackIndex)
    && Plain(w.visibleLayout)
    && InInt64(w.width)
  }

  /** The printed row of a readable window splits back into its values. */
  lemma WindowRowValues(w: Window)
    requires ReadableWindow(w)
    ensures RowValues(EncodeWindow(w))
  {
    var e := EncodeWindow(w);
    WindowPlainFrom0(w);
    WindowPlainFrom3(w);
    WindowPlainFrom6(w);
    WindowPlainFrom9(w);
    WindowPlainFrom12(w);
    WindowPlainFrom15(w);
    WindowPlainFrom18(w);
    WindowPlainFrom21(w);
    WindowPlainFrom24(w);
    WindowPlainFrom27(w);
    WindowPlainFrom30(w);
    WindowPlainFrom33(w);
    PlainRow(e);
  }

  lemma WindowPlainFrom0(w: Window)
    requires ReadableWindow(w)
    ensures forall k :: 0 <= k < 3 ==> Plain(EncodeWindow(w)[k])
  {
    PlainListJoin(w.activeClientsList);
  }

  lemma WindowPlainFrom3(w: Window)
    requires ReadableWindow(w)
    ensures forall k :: 3 <= k < 6 ==> Plain(EncodeWindow(w)[k])
  {
    PlainListJoin(w.activeSessionsList);
  }

  lemma WindowPlainFrom6(w: Window)
    requires ReadableWindow(w)
    ensures forall k :: 6 <= k < 9 ==> Plain(EncodeWindow(w)[k])
  {
  }

  lemma WindowPlainFrom9(w: Window)
    requires ReadableWindow(w)
    ensures forall k :: 9 <= k < 12 ==> Plain(EncodeWindow(w)[k])
  {
  }

  lemma WindowPlainFrom12(w: Window)
    requires ReadableWindow(w)
    ensures forall k :: 12 <= k < 15 ==> Plain(EncodeWindow(w)[k])
  {
  }

  lemma WindowPlainFrom15(w: Window)
    requires ReadableWindow(w)
    ensures forall k :: 15 <= k < 18 ==> Plain(EncodeWindow(w)[k])
  {
  }

  lemma WindowPlainFrom18(w: Window)
    requires ReadableWindow(w)
    ensures forall k :: 18 <= k < 21 ==> Plain(EncodeWindow(w)[k])
  {
  }

  lemma WindowPlainFrom21(w: Window)
    requires ReadableWindow(w)
    ensures forall k :: 21 <= k < 24 ==> Plain(EncodeWindow(w)[k])
  {
    PlainListJoin(w.linkedSessionsList);
  }

  lemma WindowPlainFrom24(w: Window)
    requires ReadableWindow(w)
    ensures forall k :: 24 <= k < 27 ==> Plain(EncodeWindow(w)[k])
  {
  }

  lemma WindowPlainFrom27(w: Window)
    requires ReadableWindow(w)
    ensures forall k :: 27 <= k < 30 ==> Plain(EncodeWindow(w)[k])
  {
  }

  lemma WindowPlainFrom30(w: Window)
    requires ReadableWindow(w)
    ensures forall k :: 30 <= k < 33 ==> Plain(EncodeWindow(w)[k])
  {
  }

  lemma WindowPlainFrom33(w: Window)
    requires ReadableWindow(w)
    ensures forall k :: 33 <= k < 34 ==> Plain(EncodeWindow(w)[k])
  {
  }

  /** `r` holds, under each requested name, what tmux prints for that variable of `w`. */
  predicate HoldsWindow(r: Record, w: Window)
  {
    && Get(r, WindowActive) == Flag(w.active)
    && Get(r, WindowActiveClients) == Itoa(w.activeClients)
    && Get(r, WindowActiveClientsList) == Join(w.activeClientsList, ",")
    && Get(r, WindowActiveSessions) == Itoa(w.activeSessions)
    && Get(r, WindowActiveSessionsList) == Join(w.activeSessionsList, ",")
    && Get(r, WindowActivity) == w.activity
    && Get(r, WindowActivityFlag) == Flag(w.activityFlag)
    && Get(r, WindowBellFlag) == Flag(w.bellFlag)
    && Get(r, WindowBigger) == Flag(w.bigger)
    && Get(r, WindowCellHeight) == Itoa(w.cellHeight)
    && Get(r, WindowCellWidth) == Itoa(w.cellWidth)
    && Get(r, WindowEndFlag) == Flag(w.endFlag)
    && Get(r, WindowFlags) == w.flags
    && Get(r, WindowFormat) == Flag(w.format)
    && Get(r, WindowHeight) == Itoa(w.height)
    && Get(r, WindowId) == w.id
    && Get(r, WindowIndex) == Itoa(w.index)
    && Get(r, WindowLastFlag) == Flag(w.lastFlag)
    && Get(r, WindowLayout) == w.layout
    && Get(r, WindowLinked) == Flag(w.linked)
    && Get(r, WindowLinkedSessions) == Itoa(w.linkedSessions)
    && Get(r, WindowLinkedSessionsList) == Join(w.linkedSessionsList, ",")
    && Get(r, WindowMarkedFlag) == Flag(w.markedFlag)
    && Get(r, WindowName) == w.name
    && Get(r, WindowOffsetX) == Itoa(w.offsetX)
    && Get(r, WindowOffsetY) == Itoa(w.offsetY)
    && Get(r, WindowPanes) == Itoa(w.panes)
    && Get(r, WindowRawFlags) == w.rawFlags
    && Get(r, WindowSilenceFlag) == Itoa(w.silenceFlag)
    && Get(r, WindowStackIndex) == Itoa(w.stackIndex)
    && Get(r, WindowStartFlag) == Flag(w.startFlag)
    && Get(r, WindowVisibleLayout) == w.visibleLayout
    && Get(r, WindowWidth) == Itoa(w.width)
    && Get(r, WindowZoomedFlag) == Flag(w.zoomedFlag)
  }

  /** Round trip: a readable window, printed by tmux and zipped to its names, decodes to itself. */
  lemma WindowRoundTrip(w: Window)
    requires ReadableWindow(w)
    ensures ToWindow(Zip(WindowVars(), EncodeWindow(w)), w.tmux) == w
  {
    var e := EncodeWindow(w);
    var r := Zip(WindowVars(), e);
    WindowVarsDistinct();
    forall k | 0 <= k < 34
      ensures Get(r, WindowVar(k)) == Printed(WindowField(w, k))
    {
      ZipGet(WindowVars(), e, k);
    }
    WindowHoldsFrom0(w, r);
    WindowHoldsFrom4(w, r);
    WindowHoldsFrom8(w, r);
    WindowHoldsFrom12(w, r);
    WindowHoldsFrom16(w, r);
    WindowHoldsFrom20(w, r);
    WindowHoldsFrom24(w, r);
    WindowHoldsFrom26(w, r);
    WindowHoldsFrom29(w, r);
    WindowHoldsFrom33(w, r);
    WindowReads(w, r);
  }

  lemma WindowHoldsFrom0(w: Window, r: Record)
    requires forall k :: 0 <= k < 34 ==> Get(r, WindowVar(k)) == Printed(WindowField(w, k))
    ensures Get(r, WindowActive) == Flag(w.active)
      && Get(r, WindowActiveClients) == Itoa(w.activeClients)
      && Get(r, WindowActiveClientsList) == Join(w.activeClientsList, ",")
      && Get(r, WindowActiveSessions) == Itoa(w.activeSessions)
  {
    assert Get(r, WindowVar(0)) == Printed(WindowField(w, 0));
    assert Get(r, WindowVar(1)) == Printed(WindowField(w, 1));
    assert Get(r, WindowVar(2)) == Printed(WindowField(w, 2));
    assert Get(r, WindowVar(3)) == Printed(WindowField(w, 3));
  }

  lemma WindowHoldsFrom4(w: Window, r: Record)
    requires forall k :: 0 <= k < 34 ==> Get(r, WindowVar(k)) == Printed(WindowField(w, k))
    ensures Get(r, WindowActiveSessionsList) == Join(w.activeSessionsList, ",")
      && Get(r, WindowActivity) == w.activity
      && Get(r, WindowActivityFlag) == Flag(w.activityFlag)
      && Get(r, WindowBellFlag) == Flag(w.bellFlag)
  {
    assert Get(r, WindowVar(4)) == Printed(WindowField(w, 4));
    assert Get(r, WindowVar(5)) == Printed(WindowField(w, 5));
    assert Get(r, WindowVar(6)) == Printed(WindowField(w, 6));
    assert Get(r, WindowVar(7)) == Printed(WindowField(w, 7));
  }

  lemma WindowHoldsFrom8(w: Window, r: Record)
    requires forall k :: 0 <= k < 34 ==> Get(r, WindowVar(k)) == Printed(WindowField(w, k))
    ensures Get(r, WindowBigger) == Flag(w.bigger)
      && Get(r, WindowCellHeight) == Itoa(w.cellHeight)
      && Get(r, WindowCellWidth) == Itoa(w.cellWidth)
      && Get(r, WindowEndFlag) == Flag(w.endFlag)
  {
    assert Get(r, WindowVar(8)) == Printed(WindowField(w, 8));
    assert Get(r, WindowVar(9)) == Printed(WindowField(w, 9));
    assert Get(r, WindowVar(10)) == Printed(WindowField(w, 10));
    assert Get(r, WindowVar(11)) == Printed(WindowField(w, 11));
  }

  lemma WindowHoldsFrom12(w: Window, r: Record)
    requires forall k :: 0 <= k < 34 ==> Get(r, WindowVar(k)) == Printed(WindowField(w, k))
    ensures Get(r, WindowFlags) == w.flags
      && Get(r, WindowFormat) == Flag(w.format)
      && Get(r, WindowHeight) == Itoa(w.height)
      && Get(r, WindowId) == w.id
  {
    assert Get(r, WindowVar(12)) == Printed(WindowField(w, 12));
    assert Get(r, WindowVar(13)) == Printed(WindowField(w, 13));
    assert Get(r, WindowVar(14)) == Printed(WindowField(w, 14));
    assert Get(r, WindowVar(15)) == Printed(WindowField(w, 15));
  }

  lemma WindowHoldsFrom16(w: Window, r: Record)
    requires forall k :: 0 <= k < 34 ==> Get(r, WindowVar(k)) == Printed(WindowField(w, k))
    ensures Get(r, WindowIndex) == Itoa(w.index)
      && Get(r, WindowLastFlag) == Flag(w.lastFlag)
      && Get(r, WindowLayout) == w.layout
      && Get(r, WindowLinked) == Flag(w.linked)
  {
    assert Get(r, WindowVar(16)) == Printed(WindowField(w, 16));
    assert Get(r, WindowVar(17)) == Printed(WindowField(w, 17));
    assert Get(r, WindowVar(18)) == Printed(WindowField(w, 18));
    assert Get(r, WindowVar(19)) == Printed(WindowField(w, 19));
  }

  lemma WindowHoldsFrom20(w: Window, r: Record)
    requires forall k :: 0 <= k < 34 ==> Get(r, WindowVar(k)) == Printed(WindowField(w, k))
    ensures Get(r, WindowLinkedSessions) == Itoa(w.linkedSessions)
      && Get(r, WindowLinkedSessionsList) == Join(w.linkedSessionsList, ",")
      && Get(r, WindowMarkedFlag) == Flag(w.markedFlag)
      && Get(r, WindowName) == w.name
  {
    assert Get(r, WindowVar(20)) == Printed(WindowField(w, 20));
    assert Get(r, WindowVar(21)) == Printed(WindowField(w, 21));
    assert Get(r, WindowVar(22)) == Printed(WindowField(w, 22));
    assert Get(r, WindowVar(23)) == Printed(WindowField(w, 23));
  }

  lemma WindowHoldsFrom24(w: Window, r: Record)
    requires forall k :: 0 <= k < 34 ==> Get(r, WindowVar(k)) == Printed(WindowField(w, k))
    ensures Get(r, WindowOffsetX) == Itoa(w.offsetX)
      && Get(r, WindowOffsetY) == Itoa(w.offsetY)
  {
    assert Get(r, WindowVar(24)) == Printed(WindowField(w, 24));
    assert Get(r, WindowVar(25)) == Printed(WindowField(w, 25));
  }

  lemma WindowHoldsFrom26(w: Window, r: Record)
    requires forall k :: 0 <= k < 34 ==> Get(r, WindowVar(k)) == Printed(WindowField(w, k))
    ensures Get(r, WindowPanes) == Itoa(w.panes)
      && Get(r, WindowRawFlags) == w.rawFlags
      && Get(r, WindowSilenceFlag) == Itoa(w.silenceFlag)
  {
    assert Get(r, WindowVar(26)) == Printed(WindowField(w, 26));
    assert Get(r, WindowVar(27)) == Printed(WindowField(w, 27));
    assert Get(r, WindowVar(28)) == Printed(WindowField(w, 28));
  }

  lemma WindowHoldsFrom29(w: Window, r: Record)
    requires forall k :: 0 <= k < 34 ==> Get(r, WindowVar(k)) == Printed(WindowField(w, k))
    ensures Get(r, WindowStackIndex) == Itoa(w.stackIndex)
      && Get(r, WindowStartFlag) == Flag(w.startFlag)
      && Get(r, WindowVisibleLayout) == w.visibleLayout
      && Get(r, WindowWidth) == Itoa(w.width)
  {
    assert Get(r, WindowVar(29)) == Printed(WindowField(w, 29));
    assert Get(r, WindowVar(30)) == Printed(WindowField(w, 30));
    assert Get(r, WindowVar(31)) == Printed(WindowField(w, 31));
    assert Get(r, WindowVar(32)) == Printed(WindowField(w, 32));
  }

  lemma WindowHoldsFrom33(w: Window, r: Record)
    requires forall k :: 0 <= k < 34 ==> Get(r, WindowVar(k)) == Printed(WindowField(w, k))
    ensures Get(r, WindowZoomedFlag) == Flag(w.zoomedFlag)
  {
    assert Get(r, WindowVar(33)) == Printed(WindowField(w, 33));
  }

  /** A record holding what tmux prints for a readable window decodes to that window. */
  lemma WindowReads(w: Window, r: Record)
    requires ReadableWindow(w) && HoldsWindow(r, w)
    ensures ToWindow(r, w.tmux) == w
  {
    WindowReadsFrom0(w, r);
    WindowReadsFrom6(w, r);
    WindowReadsFrom12(w, r);
    WindowReadsFrom18(w, r);
    WindowReadsFrom24(w, r);
    WindowReadsFrom30(w, r);
  }

  lemma WindowReadsFrom0(w: Window, r: Record)
    requires ReadableWindow(w) && HoldsWindow(r, w)
    ensures var d := ToWindow(r, w.tmux);
      d.active == w.active && d.activeClients == w.activeClients && d.activeClientsList == w.activeClientsList
      && d.activeSessions == w.activeSessions && d.activeSessionsList == w.activeSessionsList && d.activity == w.activity
      && d.tmux == w.tmux
  {
    AtoiReadsBack(Get(r, WindowActiveClients), w.activeClients);
    ParseListReadsBack(Get(r, WindowActiveClientsList), w.activeClientsList);
    AtoiReadsBack(Get(r, WindowActiveSessions), w.activeSessions);
    ParseListReadsBack(Get(r, WindowActiveSessionsList), w.activeSessionsList);
  }

  lemma WindowReadsFrom6(w: Window, r: Record)
    requires ReadableWindow(w) && HoldsWindow(r, w)
    ensures var d := ToWindow(r, w.tmux);
      d.activityFlag == w.activityFlag && d.bellFlag == w.bellFlag && d.bigger == w.bigger
      && d.cellHeight == w.cellHeight && d.cellWidth == w.cellWidth && d.endFlag == w.endFlag
  {
    AtoiReadsBack(Get(r, WindowCellHeight), w.cellHeight);
    AtoiReadsBack(Get(r, WindowCellWidth), w.cellWidth);
  }

  lemma WindowReadsFrom12(w: Window, r: Record)
    requires ReadableWindow(w) && HoldsWindow(r, w)
    ensures var d := ToWindow(r, w.tmux);
      d.flags == w.flags && d.format == w.format && d.height == w.height
      && d.id == w.id && d.index == w.index && d.lastFlag == w.lastFlag
  {
    AtoiReadsBack(Get(r, WindowHeight), w.height);
    AtoiReadsBack(Get(r, WindowIndex), w.index);
  }

  lemma WindowReadsFrom18(w: Window, r: Record)
    requires ReadableWindow(w) && HoldsWindow(r, w)
    ensures var d := ToWindow(r, w.tmux);
      d.layout == w.layout && d.linked == w.linked && d.linkedSessions == w.linkedSessions
      && d.linkedSessionsList == w.linkedSessionsList && d.markedFlag == w.markedFlag && d.name == w.name
  {
    AtoiReadsBack(Get(r, WindowLinkedSessions), w.linkedSessions);
    ParseListReadsBack(Get(r, WindowLinkedSessionsList), w.linkedSessionsList);
  }

  lemma WindowReadsFrom24(w: Window, r: Record)
    requires ReadableWindow(w) && HoldsWindow(r, w)
    ensures var d := ToWindow(r, w.tmux);
      d.offsetX == w.offsetX && d.offsetY == w.offsetY && d.panes == w.panes
      && d.rawFlags == w.rawFlags && d.silenceFlag == w.silenceFlag && d.stackIndex == w.stackIndex
  {
    AtoiReadsBack(Get(r, WindowOffsetX), w.offsetX);
    AtoiReadsBack(Get(r, WindowOffsetY), w.offsetY);
    AtoiReadsBack(Get(r, WindowPanes), w.panes);
    AtoiReadsBack(Get(r, WindowSilenceFlag), w.silenceFlag);
    AtoiReadsBack(Get(r, WindowStackIndex), w.stackIndex);
  }

  lemma WindowReadsFrom30(w: Window, r: Record)
    requires ReadableWindow(w) && HoldsWindow(r, w)
    ensures var d := ToWindow(r, w.tmux);
      d.startFlag == w.startFlag && d.visibleLayout == w.visibleLayout && d.width == w.width
      && d.zoomedFlag == w.zoomedFlag
  {
    AtoiReadsBack(Get(r, WindowWidth), w.width);
  }

  /** Decoding is total: a record holding none of the names gives the zero window. */
  lemma WindowDefaults(t: Tmux)
    ensures ToWindow(map[], t) == Window(false, 0, [""], 0, [""], "", false, false, false, 0, 0, false, "", false, 0, "", 0, false, "", false, 0, [""], false, "", 0, 0, 0, "", 0, 0, false, "", 0, false, t)
  {
    ParseListSingle("");
  }

  /** How tmux prints a list of windows: one row per window. */
  function WindowRows(xs: seq<Window>): (rows: seq<seq<string>>)
    ensures |rows| == |xs|
    ensures forall i :: 0 <= i < |xs| ==> rows[i] == EncodeWindow(xs[i])
  {
    seq(|xs|, i requires 0 <= i < |xs| => EncodeWindow(xs[i]))
  }

  /** The decoder a listing through handle `t` applies to each record. */
  function WindowDecoder(t: Tmux): Record -> Window
  {
    r => ToWindow(r, t)
  }

  /**
   Listing round trip: the rows tmux prints for readable windows, all read
   through handle `t`, decode back to those windows, in order.
   */
  lemma WindowsListed(xs: seq<Window>, t: Tmux)
    requires forall i :: 0 <= i < |xs| ==> ReadableWindow(xs[i]) && xs[i].tmux == t
    ensures DecodeAll(Output(Table(WindowRows(xs)), WindowVars()), WindowDecoder(t)) == Ok(xs)
  {
    var rows := WindowRows(xs);
    forall k | 0 <= k < |rows|
      ensures |rows[k]| == |WindowVars()| && RowValues(rows[k])
      ensures WindowDecoder(t)(Zip(WindowVars(), rows[k])) == xs[k]
    {
      WindowRowValues(xs[k]);
      WindowRoundTrip(xs[k]);
    }
    DecodeTable(WindowVars(), rows, WindowDecoder(t), xs);
  }

  // ---------------------------------------------------------------------
  // Listing windows

  /** The query of `Tmux.ListAllWindows`: `list-windows -a`, formatted with the window variables. */
  function ListAllWindowsQuery(t: Tmux): (q: Query)
    ensures q.command == SocketPrefix(t) + ["list-windows"]
    ensures q.fArgs == ["-a"] && q.pArgs == []
    ensures q.variables == WindowVars()
  {
    Vars(FArgs(Cmd(TmuxQuery(t), ["list-windows"]), ["-a"]), WindowVars())
  }

  /** `Tmux.ListAllWindows`: the windows of every session, each decoded with handle `t`. */
  function ListAllWindows(t: Tmux, run: Runner): (r: Result<seq<Window>>)
    ensures Run(ListAllWindowsQuery(t), run).Failed? <==> r == Err(CommandFailed("failed to list all windows"))
    ensures Run(ListAllWindowsQuery(t), run).Ran? ==> r == DecodeAll(Output(Run(ListAllWindowsQuery(t), run).stdout, WindowVars()), WindowDecoder(t))
  {
    ListOf(ListAllWindowsQuery(t), run, "failed to list all windows", WindowDecoder(t))
  }

  /** Listing all the windows tmux printed gives back exactly those windows, in order. */
  lemma ListAllWindowsReads(t: Tmux, ws: seq<Window>, run: Runner)
    requires forall i :: 0 <= i < |ws| ==> ReadableWindow(ws[i]) && ws[i].tmux == t
    requires Run(ListAllWindowsQuery(t), run) == Ran(Table(WindowRows(ws)))
    ensures ListAllWindows(t, run) == Ok(ws)
  {
    WindowsListed(ws, t);
  }

  // ---------------------------------------------------------------------
  // Panes of a window

  /** The query of `Window.ListPanes`: `list-panes -t <id>`, formatted with the pane variables. */
  function ListPanesQuery(w: Window): (q: Query)
    ensures q.command == SocketPrefix(w.tmux) + ["list-panes"]
    ensures q.fArgs == ["-t", w.id] && q.pArgs == []
    ensures q.variables == PaneVars()
  {
    Vars(FArgs(Cmd(TmuxQuery(w.tmux), ["list-panes"]), ["-t", w.id]), PaneVars())
  }

  /** `Window.ListPanes`: the panes tmux lists for the window, decoded with the window's handle. */
  function ListPanes(w: Window, run: Runner): (r: Result<seq<Pane>>)
    ensures Run(ListPanesQuery(w), run).Failed? <==> r == Err(CommandFailed("failed to list panes"))
    ensures Run(ListPanesQuery(w), run).Ran? ==> r == DecodeAll(Output(Run(ListPanesQuery(w), run).stdout, PaneVars()), PaneDecoder(w.tmux))
  {
    ListOf(ListPanesQuery(w), run, "failed to list panes", PaneDecoder(w.tmux))
  }

  /** Listing the panes tmux printed for the window gives back exactly those panes, in order. */
  lemma ListPanesReads(w: Window, ps: seq<Pane>, run: Runner)
    requires forall i :: 0 <= i < |ps| ==> ReadablePane(ps[i]) && ps[i].tmux == w.tmux
    requires Run(ListPanesQuery(w), run) == Ran(Table(PaneRows(ps)))
    ensures ListPanes(w, run) == Ok(ps)
  {
    PanesListed(ps, w.tmux);
  }

  /** Whether a pane sits at position `idx` of its window. */
  function AtIndex(idx: int): Pane -> bool
  {
    (p: Pane) => p.index == idx
  }

  /**
   `Window.GetPaneByIndex`: the first listed pane whose index is `idx`, or
   nothing. A failed listing is reported with the lookup's own message; a
   malformed listing aborts as it does in the listing itself.
   */
  function GetPaneByIndex(w: Window, idx: int, run: Runner): (r: Result<Option<Pane>>)
    ensures Run(ListPanesQuery(w), run).Failed? <==> r == Err(CommandFailed("failed to get pane by index"))
    ensures r.Ok? <==> ListPanes(w, run).Ok?
    ensures r.Ok? && r.value.Some? ==> r.value.value.index == idx && r.value.value in ListPanes(w, run).value
    ensures r.Ok? ==> (r.value.None? <==> forall i :: 0 <= i < |ListPanes(w, run).value| ==> ListPanes(w, run).value[i].index != idx)
    ensures r.Ok? && r.value.Some? ==> FirstWith(ListPanes(w, run).value, AtIndex(idx), r.value.value)
  {
    match ListPanes(w, run)
    case Err(CommandFailed(_)) => Err(CommandFailed("failed to get pane by index"))
    case Err(e) => Err(e)
    case Ok(panes) => Ok(FirstMatch(panes, AtIndex(idx)))
  }

  /** Looked up among printed panes, the pane found is the first with that index. */
  lemma GetPaneByIndexFinds(w: Window, idx: int, ps: seq<Pane>, run: Runner)
    requires forall i :: 0 <= i < |ps| ==> ReadablePane(ps[i]) && ps[i].tmux == w.tmux
    requires Run(ListPanesQuery(w), run) == Ran(Table(PaneRows(ps)))
    ensures GetPaneByIndex(w, idx, run) == Ok(FirstMatch(ps, AtIndex(idx)))
    ensures forall i :: 0 <= i < |ps| && ps[i].index == idx ==>
      exists j :: 0 <= j <= i && GetPaneByIndex(w, idx, run) == Ok(Some(ps[j]))
  {
    PanesListed(ps, w.tmux);
    forall i | 0 <= i < |ps| && ps[i].index == idx
      ensures exists j :: 0 <= j <= i && FirstMatch(ps, AtIndex(idx)) == Some(ps[j])
    {
      var j := FirstIndex(ps, AtIndex(idx));
      assert AtIndex(idx)(ps[i]);
      assert FirstMatch(ps, AtIndex(idx)) == Some(ps[j]);
    }
  }

  // ---------------------------------------------------------------------
  // Layouts, moving and renaming

  /** A tmux layout name, as the binding's `WindowLayout` string type. */
  type Layout = string

  const WindowLayoutEvenHorizontal: Layout := "even-horizontal"
  const WindowLayoutEvenVertical: Layout := "even-vertical"
  /** The constant named after the main-vertical layout holds the main-horizontal layout's name. */
  const WindowLayoutMainVertical: Layout := "main-horizontal"
  const WindowLayoutTiled: Layout := "tiled"

  /** The query of `Window.SelectLayout`: target the window, the layout as the only positional. */
  function SelectLayoutQuery(w: Window, layout: Layout): (q: Query)
    ensures q.command == SocketPrefix(w.tmux) + ["select-layout"]
    ensures q.fArgs == ["-t", w.id]
    ensures q.pArgs == [layout] && q.variables == []
  {
    PArgs(FArgs(Cmd(TmuxQuery(w.tmux), ["select-layout"]), ["-t", w.id]), [layout])
  }

  /** The rendered command: the socket prefix, `select-layout -t <id>`, and the layout name last. */
  lemma SelectLayoutRendered(w: Window, layout: Layout)
    ensures Prepare(SelectLayoutQuery(w, layout)) == ["tmux"] + SocketPrefix(w.tmux) + ["select-layout", "-t", w.id, layout]
  {
    var q := SelectLayoutQuery(w, layout);
    assert q.command + q.fArgs + q.pArgs == SocketPrefix(w.tmux) + ["select-layout", "-t", w.id, layout];
  }

  /**
   The four named layouts are distinct, and selecting the one named after the
   main-vertical layout sends the main-horizontal layout's name.
   */
  lemma WindowLayoutsNamed(w: Window)
    ensures |{WindowLayoutEvenHorizontal, WindowLayoutEvenVertical, WindowLayoutMainVertical, WindowLayoutTiled}| == 4
    ensures Prepare(SelectLayoutQuery(w, WindowLayoutMainVertical))[|SocketPrefix(w.tmux)| + 4] == "main-horizontal"
  {
    assert WindowLayoutEvenHorizontal[5] != WindowLayoutEvenVertical[5];
    assert WindowLayoutEvenHorizontal[0] != WindowLayoutMainVertical[0];
    assert WindowLayoutEvenVertical[0] != WindowLayoutMainVertical[0];
    SelectLayoutRendered(w, WindowLayoutMainVertical);
  }

  /** `Window.SelectLayout`. */
  function SelectLayout(w: Window, layout: Layout, run: Runner): (r: Result<()>)
    ensures r.Ok? <==> Run(SelectLayoutQuery(w, layout), run).Ran?
    ensures r.Err? ==> r.error == CommandFailed("failed to select layout")
  {
    RunDiscard(SelectLayoutQuery(w, layout), run, "failed to select layout")
  }

  /** The target of a move: the session name, a colon, the index in decimal. */
  function MoveTarget(targetSession: string, targetIdx: int): string
  {
    targetSession + ":" + Itoa(targetIdx)
  }

  /** The query of `Window.Move`: the window as source, `<session>:<index>` as target. */
  function MoveQuery(w: Window, targetSession: string, targetIdx: int): (q: Query)
    ensures q.command == SocketPrefix(w.tmux) + ["move-window"]
    ensures q.fArgs == ["-s", w.id, "-t", MoveTarget(targetSession, targetIdx)]
    ensures q.pArgs == [] && q.variables == []
  {
    FArgs(FArgs(Cmd(TmuxQuery(w.tmux), ["move-window"]), ["-s", w.id]), ["-t", MoveTarget(targetSession, targetIdx)])
  }

  /**
   tmux reads the window as source and the target back; splitting the target
   at its colon gives the session name and an index that parses back to the
   requested one, when the session name holds no colon.
   */
  lemma MoveTargetReads(w: Window, targetSession: string, targetIdx: int)
    requires ':' !in targetSession && InInt64(targetIdx)
    ensures var target := MoveTarget(targetSession, targetIdx);
      && Read(MoveQuery(w, targetSession, targetIdx).fArgs, {"-s", "-t"}) == Some(map["-s" := w.id, "-t" := target])
      && |Split(target, ":")| == 2
      && Split(target, ":")[0] == targetSession
      && Atoi(Split(target, ":")[1]) == targetIdx
  {
    var V: set<string> := {"-s", "-t"};
    var a, b := ["-s", w.id], ["-t", MoveTarget(targetSession, targetIdx)];
    ReadStep(map[], [], a, V);
    assert [] + a == a;
    ReadStep(map[], a, b, V);
    SplitPair(targetSession, Itoa(targetIdx), ':');
    assert targetSession + [':'] + Itoa(targetIdx) == MoveTarget(targetSession, targetIdx);
    AtoiItoa(targetIdx);
  }

  /** `Window.Move`. */
  function Move(w: Window, targetSession: string, targetIdx: int, run: Runner): (r: Result<()>)
    ensures r.Ok? <==> Run(MoveQuery(w, targetSession, targetIdx), run).Ran?
    ensures r.Err? ==> r.error == CommandFailed("failed to move window")
  {
    RunDiscard(MoveQuery(w, targetSession, targetIdx), run, "failed to move window")
  }

  /** The query of `Window.Rename`: target the window by id, the new name as the only positional. */
  function RenameWindowQuery(w: Window, newName: string): (q: Query)
    ensures q.command == SocketPrefix(w.tmux) + ["rename-window"]
    ensures q.fArgs == ["-t", w.id]
    ensures q.pArgs == [newName] && q.variables == []
  {
    PArgs(FArgs(Cmd(TmuxQuery(w.tmux), ["rename-window"]), ["-t", w.id]), [newName])
  }

  /** The rendered command: the socket prefix, `rename-window -t <id>`, and the new name last. */
  lemma RenameWindowRendered(w: Window, newName: string)
    ensures Prepare(RenameWindowQuery(w, newName)) == ["tmux"] + SocketPrefix(w.tmux) + ["rename-window", "-t", w.id, newName]
  {
    var q := RenameWindowQuery(w, newName);
    assert q.command + q.fArgs + q.pArgs == SocketPrefix(w.tmux) + ["rename-window", "-t", w.id, newName];
  }

  /** `Window.Rename`: unlike a session, the window value keeps its old name. */
  function RenameWindow(w: Window, newName: string, run: Runner): (r: Result<()>)
    ensures r.Ok? <==> Run(RenameWindowQuery(w, newName), run).Ran?
    ensures r.Err? ==> r.error == CommandFailed("failed to rename window")
  {
    RunDiscard(RenameWindowQuery(w, newName), run, "failed to rename window")
  }
}
